=== FILE: README.md ===
# AnkiRecolor configuration layer in Dafny

This project models the configuration layer of the AnkiRecolor add-on and
proves properties of that model. The layer has seven parts:

- **The document manager** (`ConfigManager`). It holds the live JSON-like
  document, the default document and the persisted copy. It reads, writes
  and deletes values by dotted keys. A segment is read as an integer when
  the node it indexes is a list.
- **The migrations.** These cover the version gate in
  `maybe_migrate_config`, `detect_v2`, the colour rewrite of
  `maybe_v1_to_v2`, `v2_to_v3` / `adjust_colors_v3`, and the hex colour
  helpers `darken` and `adjust_alpha`.
- **The version tag** (`Version`). It compares against `"M.m"` strings,
  and the running version is stamped into the document.
- **The colour converters and theme CSS.** These are `hex_with_alpha_to_rgba`,
  `hex_with_alpha_to_argb`, `replace_color`, the order of
  `recolor_python`, and `get_theme_css`.
- **The colour-entry derivation** of `extract.py`: the display name, the
  CSS name and the five-field entry.
- **The settings dialog** (`ConfigWindow`). This covers each widget's
  `update` check, the values its change signal writes, `update_widgets`,
  save, cancel, reset and close.
- **The error value** `InvalidConfigValueError` and its message.

The document is a value: `Value = Null | Bool | Int | Str | List | Dict`.
A `Dict` keeps its keys in insertion order, as Python dicts do. Python
exceptions are a `PyError` enumeration carried by a `Result`. Every
operation that can raise returns either its value or the exception.

Objects whose fields the source changes in place are classes:

- `Manager.ConfigManager` (with the fields `config`, `defaults` and `stored`);
- `Colors.HostColors` (the host's colour table);
- `Window.ConfigWindow` (its widget and hook lists).

Their methods have loops with invariants, and each method is proved
against a function of the old state. The properties are proved about
those functions.

Files:

| file | module | models |
|---|---|---|
| `pytext.dfy` | `PyText` | `str.split`, slicing, `lower`, `replace`, `int(s, base)`, `str(n)`, `"%02X"` |
| `pyvalues.dfy` | `PyValues` | JSON values, Python indexing and item assignment, exceptions |
| `errors.dfy` | `Errors` | `InvalidConfigValueError` |
| `manager.dfy` | `Manager` | `ConfigManager` and the path functions it is proved against |
| `manager_laws.dfy` | `ManagerLaws` | laws of `set`, `get`, `pop`, `in` |
| `versions.dfy` | `Versions` | `Version` comparisons and the version stamp |
| `hexcolor.dfy` | `HexColor` | `darken`, `adjust_alpha` |
| `migrate_v1.dfy` | `MigrateV1` | `maybe_v1_to_v2` |
| `migrate_v3.dfy` | `MigrateV3` | `detect_v2`, `v2_to_v3`, `adjust_colors_v3` |
| `migrate.dfy` | `Migrate` | `maybe_migrate_config` |
| `colors.dfy` | `Colors` | converters, `replace_color`, `recolor_python`, `get_theme_css` |
| `extract.dfy` | `ColorEntry` | the colour-entry derivation |
| `window.dfy` | `Window` | the settings dialog |

Values from outside the program are parameters:

- the running version string;
- the parsed `v1_anki_config.json` document;
- the host's colour table;
- the attributes of the palette module;
- Qt's colour-name validity test;
- the floating-point text of an alpha value.

## Model

| member | source | states |
|---|---|---|
| PyText.Split | manager.py:42 | `key.split(".")` has at least one part and no part contains the separator |
| PyText.JoinOfSplit | manager.py:42 | joining the parts of a split with the separator gives back the key |
| PyText.SplitOfJoin | manager.py:42 | splitting a join of separator-free parts gives back the parts |
| PyText.SplitAtFirstSeparator | manager.py:42 | `a + "." + b` with a dot-free `a` splits into `a` followed by the parts of `b` |
| PyText.Lower | extract_colors/extract.py:9 | `lower()` keeps the length and lower-cases each ASCII letter in place, leaving every other character |
| PyText.ReplaceChar | extract_colors/extract.py:9 | `replace("_", "-")` keeps the length and swaps exactly the matching characters |
| PyText.RemoveSpaces | window.py:471 | `replace(" ", "")` leaves no space, keeps every other character, and returns a space-free text unchanged |
| PyText.RemoveSpacesConcat | window.py:471 | removal works piecewise, so the kept characters stay in their order |
| PyText.DecimalRoundTrip | src/addon/firstrun.py:42-43 | `int(str(n)) == n` for every integer |
| PyText.Hex02OfByte | src/addon/migrate.py:155-156 | `"%0.2X" % n` of a byte is two upper-case hex digits that parse back to `n` |
| PyValues.Insert | manager.py:78 | `d[k] = x` makes `k` read `x`, adds `k` to the keys and keeps every other entry |
| PyValues.Delete | manager.py:94 | `d.pop(k)` removes exactly `k` and keeps every other entry |
| PyValues.NormIndex | manager.py:45-47 | a list index is valid iff `-n <= i < n`; negative indices count from the end |
| PyValues.GetKey | manager.py:47 | `v[k]` succeeds iff `v` is a mapping holding `k`; otherwise KeyError on a mapping, TypeError elsewhere |
| PyValues.SetIndex | manager.py:76-78 | `v[i] = x` succeeds iff `v` is a list and `i` is in range, and keeps the length |
| Errors.InvalidConfigValueError.Lines | errors.py:10-11 | three lines: the key, the expectation and `str(value)`, each after its fixed label |
| Errors.InvalidConfigValueError.Message | errors.py:10-11 | the message starts with `For config: ` and the key; its length is fixed by the three fields |
| Errors.MessageLines | errors.py:10-11 | for single-line fields, the message splits into the key line, the expectation line and the value line |
| Errors.MessageDeterminesFields | errors.py:5-11 | two single-line errors with the same message have the same key, expectation and printed value |
| Manager.Step | manager.py:44-47 | one step of `get_from_dict` indexes a mapping by key and a list by `int(level)`; a scalar raises TypeError |
| Manager.LookupOr | manager.py:53-58 | `get` returns the fallback exactly on KeyError and propagates every other exception |
| Manager.Has | manager.py:109-114 | `key in conf` is true iff the lookup succeeds, false iff it raises KeyError, and raises otherwise |
| Manager.Path | manager.py:42 | a key has at least one segment, no segment holds a dot, and the segments joined with dots give the key back |
| Manager.SetStep | manager.py:66-74 | a step of `set` goes down like `get`, creates `{}` only for a missing mapping key, and never raises KeyError |
| Manager.Assign | manager.py:75-78 | the final assignment makes the segment read the value, replaces a list element without appending, and never raises KeyError |
| Manager.SetPath | manager.py:63-78 | `set` never raises KeyError |
| Manager.PopStep | manager.py:83-90 | a step of `pop` ends with `None` exactly at a missing mapping key and propagates other exceptions |
| Manager.Remove | manager.py:91-94 | the final `pop` returns the element; a mapping loses the key; a list loses one element; a missing final key raises KeyError |
| Manager.ConfigManager.constructor | manager.py:12-23 | the defaults are taken from the host, then the persisted document is loaded |
| Manager.ConfigManager.Load | manager.py:25-27 | the live document becomes the persisted one |
| Manager.ConfigManager.Save | manager.py:29-31 | the persisted document becomes the live one |
| Manager.ConfigManager.LoadDefaults | manager.py:33-35 | the live document becomes the defaults; nothing is persisted |
| Manager.ConfigManager.Copy | manager.py:50-51 | returns the live document and changes nothing |
| Manager.ConfigManager.GetFromDict | manager.py:40-48 | the loop computes the lookup of the key's segments |
| Manager.ConfigManager.Get | manager.py:53-58 | returns the value; the fallback only on KeyError; any other exception propagates |
| Manager.ConfigManager.GetItem | manager.py:96-97 | `conf[key]` is `get(key)` with `None` as the fallback |
| Manager.ConfigManager.GetDefault | manager.py:60-61 | reads the defaults and propagates every exception |
| Manager.ConfigManager.Contains | manager.py:109-114 | true iff the lookup succeeds, false iff KeyError, else the lookup's own exception |
| Manager.ConfigManager.Set | manager.py:63-78 | the descend and rebuild loops produce `SetPath`'s document; an exception leaves the document unchanged |
| Manager.ConfigManager.SetItem | manager.py:99-101 | `conf[key] = x` is `set` |
| Manager.ConfigManager.Pop | manager.py:80-94 | the loops produce `PopPath`'s document and value; an exception leaves the document unchanged |
| Manager.ConfigManager.DelItem | manager.py:106-107 | `del conf[key]` is `pop` with the value dropped |
| ManagerLaws.LookupSnoc | manager.py:44-47 | looking up one more segment is one more step from where the shorter lookup ends |
| ManagerLaws.SetAssignsAtParent | manager.py:63-78 | `set` assigns at the node under the parent path, or in a fresh `{}` when a mapping key on the way is missing, and fails exactly when that walk or assignment fails |
| ManagerLaws.SetThenGet | manager.py:53-78 | after a successful `set(k, x)`, the lookup of `k` returns `x` |
| ManagerLaws.SetOnMissingKeySucceeds | manager.py:70-74 | a missing intermediate mapping key is created as `{}` holding only the new value |
| ManagerLaws.SetReplacesListElement | manager.py:75-78 | a final list index must be in range and replaces that element; the list keeps its length |
| ManagerLaws.SetFrame | manager.py:63-78 | every key that parts ways with the set key reads as before (canonical numeric segments) |
| ManagerLaws.PopRemovesAtParent | manager.py:80-94 | `pop` returns `None` and changes nothing at a missing intermediate key, propagates other errors, else removes at the parent |
| ManagerLaws.PopThenAbsent | manager.py:80-114 | after a successful pop below a mapping, `key in conf` is false |
| ManagerLaws.PopShiftsList | manager.py:91-94 | popping a list element returns it and shifts the later elements down by one |
| ManagerLaws.SetPathWf | manager.py:63-78 | `set` keeps every mapping's key list duplicate-free |
| ManagerLaws.PopPathWf | manager.py:80-94 | `pop` keeps every mapping's key list duplicate-free |
| Versions.ParseParts | src/addon/firstrun.py:16 | every part is parsed, and a part that is not an integer raises ValueError |
| Versions.ParseVersion | src/addon/firstrun.py:16 | a version string gives one integer per dot-separated part |
| Versions.VersionTextRoundTrip | src/addon/firstrun.py:16 | `"{a}.{b}"` parses back to `[a, b]` |
| Versions.OnePartParses | src/addon/firstrun.py:16 | a dot-free `str(n)` parses to `[n]` |
| Versions.SentinelParses | src/addon/migrate.py:13 | the sentinel `"-1.-1"` parses to `[-1, -1]` |
| Versions.Trichotomy | src/addon/firstrun.py:15-25 | for a numeric tag and a two-part string, exactly one of `<`, `==`, `>` holds and none raises |
| Versions.CompareIsLexicographic | src/addon/firstrun.py:15-25 | `<`, `>` and `==` are the lexicographic order on (major, minor) against the first two parts |
| Versions.GeLeComplement | src/addon/firstrun.py:27-31 | `>=` is the complement of `<` and `<=` the complement of `>` |
| Versions.UnsetVersionCompares | src/addon/firstrun.py:15-25 | a tag that was never stored equals nothing, and ordering it raises TypeError |
| Versions.OnePartCompares | src/addon/firstrun.py:15-25 | against a one-part string, an equal major raises IndexError; any other major decides alone |
| Versions.StampedSetsVersion | src/addon/firstrun.py:41-44 | after stamping, the fields hold the integers before and after the first dot, and every other key reads as before |
| Versions.StampSucceeds | src/addon/firstrun.py:41-44 | stamping cannot fail on a mapping whose `version` is missing or a mapping, given a two-integer version string |
| Versions.StampVersion | src/addon/firstrun.py:41-44 | writes both fields and saves; an exception leaves the persisted document unchanged |
| HexColor.Clamp | src/addon/migrate.py:152-154 | the result is a byte, equal to the input when the input is a byte |
| HexColor.Darken | src/addon/migrate.py:145-156 | `darken` succeeds iff the three channels parse as hex |
| HexColor.DarkenChannels | src/addon/migrate.py:145-156 | keeps `hex[0]` and `hex[7:]`, and writes each channel as `clamp(c + by)` in two upper-case hex digits |
| HexColor.DarkenReadsBack | src/addon/migrate.py:145-156 | the result's channels read back as the moved and clamped channels |
| HexColor.DarkenDirection | src/addon/migrate.py:144-156 | a positive amount raises every channel and a negative one lowers it, against the comment at line 144 |
| HexColor.DarkenOfCanonical | src/addon/migrate.py:145-156 | on upper-case `#RRGGBB`, the result is the clamped colour in the same form |
| HexColor.DarkenByZero | src/addon/migrate.py:145-156 | `darken(c, 0)` leaves an upper-case `#RRGGBB` colour unchanged |
| HexColor.DarkenSaturatesAtWhite | src/addon/migrate.py:145-156 | `darken("#FFFFFF", 5)` is `"#FFFFFF"` |
| HexColor.DarkenValue | src/addon/migrate.py:145-146 | only a string can be darkened; anything else raises TypeError |
| HexColor.ScaleByteByTwoFifths | src/addon/migrate.py:181 | `int(alpha * 0.4)` of a byte is a byte no larger than it, the truncated quotient |
| HexColor.RgbaBranchRaises | src/addon/migrate.py:169-172 | the `rgba` branch always raises ValueError |
| HexColor.AdjustAlphaNineChar | src/addon/migrate.py:162-164 | corrected: `#RRGGBBAA` keeps its body and gets alpha `int(AA * 0.4)` |
| HexColor.AdjustAlphaFourChar | src/addon/migrate.py:167-168 | corrected: `#RGB` expands to `#RRGGBB` and gets alpha `66` |
| HexColor.AdjustAlphaSevenChar | src/addon/migrate.py:165-166 | `#RRGGBB` gets alpha `66` |
| HexColor.AdjustAlphaKeywords | src/addon/migrate.py:173-179 | `white` and `black` become `#ffffff66` and `#00000066`; other names pass through |
| HexColor.FullAlpha | src/addon/migrate.py:181-182 | `int(255 * 0.4)` is 102, written `66` |
| HexColor.AdjustAlphaOtherLength | src/addon/migrate.py:161-168 | a `#` colour of any other length leaves `body` unbound |
| HexColor.AdjustAlphaVersionsAgree | src/addon/migrate.py:159-182 | as written and corrected agree on every input but the 9- and 4-character forms |
| HexColor.AsWrittenNineCharCounterexample | src/addon/migrate.py:162-164 | as written, `#11223344` becomes `#112233401` |
| HexColor.AsWrittenFourCharCounterexample | src/addon/migrate.py:167-168 | as written, `#abc` becomes `###aabb66` |
| HexColor.AdjustAlphaValue | src/addon/migrate.py:159-161 | only a string has `startswith`; anything else raises AttributeError; a string goes to the corrected `adjust_alpha` |
| MigrateV1.SetMode | src/addon/migrate.py:101 | writing `colors[name][i]` keeps the key set |
| MigrateV1.SetModeEffect | src/addon/migrate.py:101 | the written mode reads back; every other entry and mode stays |
| MigrateV1.SetModeFails | src/addon/migrate.py:101 | the write fails iff the entry is missing or not a list long enough |
| MigrateV1.CarryModeEffect | src/addon/migrate.py:100-103 | a mode is carried iff the v1 value differs from the v1 vanilla value; nothing else changes |
| MigrateV1.CarryPairFrame | src/addon/migrate.py:97-103 | one map entry touches only its new name, and nothing at all for `""` |
| MigrateV1.CarryPairEffect | src/addon/migrate.py:97-103 | what one map entry writes to each mode of its new name |
| MigrateV1.CarryOverKeys | src/addon/migrate.py:96-103 | the carried-over colours have exactly the default key set |
| MigrateV1.CarryOverStops | src/addon/migrate.py:96-103 | once an entry raises, the rest of the loop does not run |
| MigrateV1.CarryOverUntouched | src/addon/migrate.py:96-103 | a name no entry targets, `""` targets included, keeps its default |
| MigrateV1.CarryOverEntry | src/addon/migrate.py:96-103 | every mapped mode holds the v1 value when customised, and the default otherwise |
| MigrateV1.ColorMapTargetsUnique | src/addon/migrate.py:57-94 | the shipped map writes every new name at most once |
| MigrateV1.AliasPairFrame | src/addon/migrate.py:112-117 | one alias touches only its own entry |
| MigrateV1.AliasPairEffect | src/addon/migrate.py:112-117 | an alias copies its source's mode iff that mode differs from the v2 default |
| MigrateV1.AliasOverKeys | src/addon/migrate.py:112-117 | the alias loop keeps the key set |
| MigrateV1.AliasOverStops | src/addon/migrate.py:112-117 | once an alias raises, the rest of the loop does not run |
| MigrateV1.AliasOverUntouched | src/addon/migrate.py:112-117 | entries that are no alias come through unchanged |
| MigrateV1.AliasOverEntry | src/addon/migrate.py:112-117 | after the loop, each alias mode holds its customised source or what it had |
| MigrateV1.AliasMapApart | src/addon/migrate.py:106-110 | no alias of the shipped map is a source, and no alias repeats |
| MigrateV1.CodeStepEffect | src/addon/migrate.py:118-120 | a customised `CANVAS_INSET` light sets `CANVAS_CODE` light to the default inset; nothing else changes |
| MigrateV1.HoverFixedPoint | src/addon/migrate.py:123-126 | as written, a hover value that `darken(·, 5)` keeps stays equal to the background |
| MigrateV1.WhiteIsFixed | src/addon/migrate.py:124 | `darken("#FFFFFF", 5)` is `#FFFFFF` |
| MigrateV1.AsWrittenHoverCounterexample | src/addon/migrate.py:123-124 | as written, hover and background both `#FFFFFF` stay equal |
| MigrateV1.NudgeMoves | src/addon/migrate.py:124 | the corrected nudge always changes a parseable colour's channels |
| MigrateV1.HoverStepSeparates | src/addon/migrate.py:122-126 | corrected: a hover equal to the background ends with other channels; nothing else changes |
| MigrateV1.V2ColorsKeys | src/addon/migrate.py:96-126 | the migrated colours have exactly the v2 default key set |
| MigrateV1.CarryColors | src/addon/migrate.py:97-103 | the first loop computes the carry-over |
| MigrateV1.PropagateAliases | src/addon/migrate.py:112-117 | the second loop computes the alias propagation |
| MigrateV1.MigrateColors | src/addon/migrate.py:96-126 | the two loops, the `CANVAS_CODE` rule and the corrected hover rule, in order |
| MigrateV1.AsWrittenBackupCounterexample | src/addon/migrate.py:48 | as written, any mapping without a `""` key is backed up as `null` |
| MigrateV1.V1DocFrame | src/addon/migrate.py:41-129 | a completed step leaves every top-level entry but `colors` as it was |
| MigrateV1.MaybeV1ToV2 | src/addon/migrate.py:41-129 | backs up the whole document (the corrected backup), writes the migrated colours and saves; an exception leaves the stored document unchanged |
| MigrateV3.DetectV2OnColors | src/addon/migrate.py:28-29 | `detect_v2` is true iff `colors` has `CANVAS` and lacks `CANVAS_GLASS` |
| MigrateV3.DetectV2WithoutColors | src/addon/migrate.py:28-29 | without `colors`, `detect_v2` raises TypeError |
| MigrateV3.AppendCssName | src/addon/migrate.py:223-226 | a scalar CSS name is wrapped and one name appended; the other fields stay |
| MigrateV3.AdjustColorsV3 | src/addon/migrate.py:213-231 | the in-place updates compute the v3 colours, with the corrected `adjust_alpha` |
| MigrateV3.V3ColorsSpec | src/addon/migrate.py:213-231 | adds `CANVAS_GLASS` from `CANVAS_ELEVATED` at 0.4 with the corrected `adjust_alpha`, appends one name each to `CANVAS` and `FG` and keeps their other fields, and keeps every other entry |
| MigrateV3.V3ColorsSucceeds | src/addon/migrate.py:213-231 | the step cannot fail on colours of the expected shape, as the corrected `adjust_alpha` accepts them |
| MigrateV3.V3ColorsTwice | src/addon/migrate.py:223-226 | the step is not idempotent: twice appends `--bs-body-bg` twice |
| MigrateV3.CanvasGrows | src/addon/migrate.py:223-226 | one run appends `--bs-body-bg` to `CANVAS` |
| MigrateV3.WhiteGlass | src/addon/migrate.py:173-182 | `adjust_alpha("white", 0.4)` is `#ffffff66` |
| MigrateV3.GlassFromWhite | src/addon/migrate.py:215-221 | a `white` elevated canvas gives a `#ffffff66` glass |
| MigrateV3.WriteColorsStores | src/addon/migrate.py:208 | a completed write stores the adjusted colours under `colors` |
| MigrateV3.V2ToV3 | src/addon/migrate.py:185-209 | reloads, adjusts (with the corrected `adjust_alpha`) and writes the colours, and saves; an exception leaves the stored document unchanged |
| MigrateV3.V3DocColors | src/addon/migrate.py:185-209 | after a completed step the stored colours are the adjusted ones |
| MigrateV3.V3DocNotV2 | src/addon/migrate.py:185-209 | after a completed step, `detect_v2` is false |
| MigrateV3.V3DocFrame | src/addon/migrate.py:185-209 | a completed step leaves every top-level entry but `colors` as it was |
| Migrate.PlanByVersion | src/addon/migrate.py:11-20 | sentinel defers to `detect_v2`; below 2.0 runs both steps; [2.0, 3.0) runs v3 only; 3.0 and up runs none |
| Migrate.PlanWithoutVersion | src/addon/migrate.py:11-16 | an untagged document raises TypeError at the `< "2.0"` test |
| Migrate.TwoSteps | src/addon/migrate.py:16-18 | the second step runs on what the first leaves, unless the first raises |
| Migrate.RunStepsKeepTag | src/addon/migrate.py:13-20 | the steps keep the version tag and leave the document saved |
| Migrate.MigratedUnfolds | src/addon/migrate.py:10-25 | a migration that raised nothing read the tag, planned, ran the plan and stamped |
| Migrate.MigratedCarriesVersion | src/addon/migrate.py:10-25 | after a migration without exception the tag holds the running version's two integers, saved |
| Migrate.FinishStamps | src/addon/migrate.py:22-25 | the closing stamp leaves the running version in the tag, written or already there |
| Migrate.MatchingTag | src/addon/migrate.py:22 | a tag equal to the running version holds its first two integers |
| Migrate.MaybeMigrateConfig | src/addon/migrate.py:10-25 | the whole migration, with the corrected steps: the store and the exception are those of `Migrated` |
| Migrate.RunPlan | src/addon/migrate.py:13-20 | runs the planned (corrected) steps in order |
| Migrate.StampIfNew | src/addon/migrate.py:22-25 | writes and saves the version only when it differs |
| Colors.StripChar | src/addon/colors.py:52 | `strip("#")`: the result is one contiguous slice `s[i..j]` of the input, everything before `i` and from `j` on is `#`, and it neither starts nor ends with `#`; a text with no `#` at either end is unchanged |
| Colors.StripLeadingStep | src/addon/colors.py:52 | a stripped slice of `s[1..]` is a stripped slice of `s` when `s` starts with `#` |
| Colors.StripTrailingStep | src/addon/colors.py:52 | a stripped slice of `s` without its last character is a stripped slice of `s` when `s` ends with `#` |
| Colors.HexWithAlphaToRgba | src/addon/colors.py:49-58 | any text but a nine-character `#` text is returned unchanged; the only exception is ValueError |
| Colors.HexWithAlphaToArgb | src/addon/colors.py:63-77 | `#RRGGBBAA` gives another nine-character `#` text; other non-`rgba` texts are unchanged |
| Colors.RgbaOfHex | src/addon/colors.py:49-58 | on any nine-character `#` text without another `#`, in either letter case: succeeds iff the four pairs parse, and then writes the three colour pairs in decimal and the alpha text |
| Colors.RgbaOfBytes | src/addon/colors.py:51-57 | the `#RRGGBBAA` text of four bytes gives those bytes back in `rgba(r, g, b, a)` |
| Colors.ArgbOfBytes | src/addon/colors.py:66-68 | `#RRGGBBAA` gives `#AARRGGBB`, whose pairs read back as alpha, red, green and blue |
| Colors.ConvertersAgree | src/addon/colors.py:49-68 | on any nine-character `#` text without another `#`: the ARGB form holds the pairs the RGBA form reads, and the RGBA form, when it exists, writes exactly those |
| Colors.Convert | src/addon/colors.py:89-91 | the ARGB converter iff the name is ARGB-only; a non-text value raises AttributeError |
| Colors.Replaced | src/addon/colors.py:80-92 | only the named colour changes, and nothing when the host lacks it |
| Colors.ReplacedWrites | src/addon/colors.py:87-92 | light and dark hold the converted `entry[1]` and `entry[2]`; other fields stay |
| Colors.Names | src/addon/colors.py:38 | iterating a mapping visits its keys in order; a scalar raises TypeError |
| Colors.RecolorEach | src/addon/colors.py:38-39 | the loop keeps the host's colour names |
| Colors.RecolorEachStops | src/addon/colors.py:38-39 | once a pass raises, the rest of the loop does not run |
| Colors.Recolored | src/addon/colors.py:35-41 | recolouring keeps the host's colour names |
| Colors.GradientTakesHover | src/addon/colors.py:38-41 | both gradient ends end with BUTTON_HOVER's RGBA-converted values |
| Colors.RecoloredAfterLoop | src/addon/colors.py:38-41 | the gradient calls run on the palette the loop leaves |
| Colors.HostColors.ReplaceColor | src/addon/colors.py:80-92 | the host table changes as `Replaced` says |
| Colors.HostColors.RecolorPython | src/addon/colors.py:35-41 | reloads, runs the loop and then the gradient ends |
| Colors.HostColors.ReplaceEach | src/addon/colors.py:38-39 | the loop computes `RecolorEach` |
| Colors.HostColors.ReplaceGradient | src/addon/colors.py:40-41 | the two calls compute `GradientEnds` |
| Colors.EntryDecls | src/addon/colors.py:174-180 | one declaration per CSS name; fails exactly when the CSS names cannot be read |
| Colors.EntryDeclAt | src/addon/colors.py:175-180 | declaration k has CSS name k and the entry's light and dark values |
| Colors.ScalarCssCountsOnce | src/addon/colors.py:176-177 | a scalar CSS name counts as a list of one |
| Colors.ThemeDeclsStops | src/addon/colors.py:173-180 | once an entry raises, later entries are not read |
| Colors.TextAppend | src/addon/colors.py:171-180 | the text of two runs is the first text followed by the second |
| Colors.ExtraCssOrder | src/addon/colors.py:182-193 | the extra CSS holds dark BUTTON_BG in the `--canvas` slot, then dark FG in the `--fg` slot |
| Colors.ThemeOfDerivedLayout | src/addon/colors.py:173-180 | for derived entries, one declaration per colour in document order |
| Colors.DerivedThemeDecls | src/addon/colors.py:173-180 | over derived entries, the loop yields exactly their declarations |
| Colors.GetThemeCss | src/addon/colors.py:167-195 | reloads and returns the light text, the dark text and the extra CSS |
| Colors.DeclTexts | src/addon/colors.py:171-180 | the outer loop builds one line per (colour, CSS name) pair |
| Colors.AppendEntry | src/addon/colors.py:173-180 | one pass extends the texts by the entry's lines |
| Colors.EntryTexts | src/addon/colors.py:175-180 | the inner loop writes one line per CSS name |
| Colors.NameLines | src/addon/colors.py:177-180 | the light and dark texts of the loop over one entry's CSS names are those of its declarations, one line per name in order |
| ColorEntry.CssName | extract_colors/extract.py:9 | the CSS name starts with `--`, has the name's length plus two, and has no `_` |
| ColorEntry.CapitalizeAll | extract_colors/extract.py:10 | every part is capitalized in order; an empty part raises IndexError |
| ColorEntry.DisplayName | extract_colors/extract.py:10 | the display name exists iff no `_`-separated part is empty |
| ColorEntry.DisplayNameWords | extract_colors/extract.py:10 | the display name has one word per part, word k being part k capitalized |
| ColorEntry.DoubledUnderscoreRaises | extract_colors/extract.py:10 | a doubled `_` raises IndexError |
| ColorEntry.CssNameFromDisplayName | extract_colors/extract.py:9-10 | the CSS name is `--` plus the display name lower-cased with spaces as `-` |
| ColorEntry.EntryLayout | extract_colors/extract.py:8-17 | an entry is `[display, light, dark, css, comment]`, and fails exactly when a part is missing |
| ColorEntry.PublicNames | extract_colors/extract.py:5 | holds exactly the names not starting with `__`, is no longer than the input, and has no repeats when the input has none |
| ColorEntry.PublicNamesConcat | extract_colors/extract.py:5 | the filter works piecewise over a concatenation, so the kept names stay in the order of `dir(colors)` |
| ColorEntry.InsertNext | extract_colors/extract.py:11-17 | one insertion adds the next name last and keeps the earlier entries |
| ColorEntry.BuildConfig | extract_colors/extract.py:5-17 | keys are exactly the names in order, each with its derived entry; fails iff an entry fails |
| ColorEntry.ExtractConfig | extract_colors/extract.py:5-17 | from the module's distinct attribute names: the config's keys are exactly the names not starting with `__`, in order, each with its derived entry; fails iff one of those entries fails |
| Window.SameReflexive | window.py:234 | every value equals itself under Python's `==` |
| Window.SameSymmetric | window.py:234 | Python's `==` on configuration values is symmetric |
| Window.MappingOrderIgnored | window.py:234 | mappings with the same entries are equal whatever their key order |
| Window.IndexOf | window.py:234 | `values.index(v)` is the first equal position, or none |
| Window.SwapsInverse | window.py:359-384 | the RGBA-to-ARGB and ARGB-to-RGBA swaps undo each other on nine-character `#` texts |
| Window.SwapMatchesPalette | window.py:361-362 | the dialog's swap equals the palette's `hex_with_alpha_to_argb` |
| Window.NumberCheck | window.py:310-324 | a number (booleans count) within the set bounds is shown; anything else raises |
| Window.ColorCheck | window.py:359-375 | a text whose ARGB form names a colour is shown in that form |
| Window.InvalidNamesKey | window.py:200-472 | every configuration error names the widget's key and the value read |
| Window.UpdateShows | window.py:200-472 | each widget shows a value exactly of its accepted kind, and what it shows |
| Window.Outcomes | window.py:67-71 | one outcome per widget |
| Window.RunStopsAtFirst | window.py:67-71 | a run shows every outcome before the first failure and stops with it |
| Window.RunStopTail | window.py:67-71 | once a prefix fails, the rest is not run |
| Window.UpdatesStopAtFirst | window.py:67-71 | updates run in order up to the first that raises, which is reported |
| Window.Written | window.py:208-478 | errors come only from the dropdown's `values[idx]` (IndexError); a cancelled path writes nothing |
| Window.CheckboxRoundTrip | window.py:200-213 | a toggled state, once written, updates back to the same state |
| Window.DropdownRoundTrip | window.py:230-245 | a picked value, once written, selects the first equal entry at or before the pick |
| Window.TextRoundTrip | window.py:266-275 | typed text, once written, is shown |
| Window.NumberRoundTrip | window.py:310-328 | a number within bounds, once written, is shown |
| Window.ColorRoundTrip | window.py:359-384 | a picked colour, once written, comes back as the same ARGB name |
| Window.StoredColorSwapsBack | window.py:377-384 | the stored text of a picked colour swaps back to the picked name |
| Window.PathRoundTrip | window.py:431-451 | a browsed path, once written, is shown |
| Window.ShortcutRoundTrip | window.py:467-478 | a recorded shortcut, once written, is shown without spaces |
| Window.ConfigWindow.constructor | window.py:18-30 | the dialog starts with no widgets and no hooks |
| Window.ConfigWindow.AddWidget | window.py:206 | a widget's update is registered after the earlier ones |
| Window.ConfigWindow.ExecuteOnSave | window.py:148-149 | a save hook is appended |
| Window.ConfigWindow.ExecuteOnClose | window.py:151-152 | a close hook is appended |
| Window.ConfigWindow.UpdateOne | window.py:200-472 | one registered update, read through `conf.get` |
| Window.ConfigWindow.UpdateWidgets | window.py:67-92 | runs the updates in order until one raises |
| Window.ConfigWindow.Change | window.py:208-478 | the signal's value is written with `set`; errors leave the document unchanged |
| Window.ConfigWindow.CloseEvent | window.py:130-137 | close hooks run in order on the live document, the persisted one is untouched, and the live document is then reloaded from it |
| Window.ConfigWindow.OnSave | window.py:98-105 | saves iff every approval hook accepts; then the save hooks run in order and the result is persisted |
| Window.ConfigWindow.OnCancel | window.py:107-108 | closing discards what was not saved |
| Window.ConfigWindow.OnReset | window.py:110-113 | the defaults become live, unpersisted, and the widgets show them |
| Window.ConfigWindow.OnAdvancedFinish | window.py:118-121 | reloads the persisted document, then updates the widgets |

## Left out

- The host calls `getConfig`, `writeConfig`, `addonConfigDefaults` and `addonMeta` are one persisted cell (`stored`) and a constant default document. The add-on name and directory are not modelled.
- The backup file write, the read of `v1_anki_config.json`, the `VERSION` file and the `ANKIRECOLOR_VERSION` variable are not modelled. The parsed document and the version string are parameters. `Migrate.MaybeMigrateConfig` discards the backup that `MigrateV1.MaybeV1ToV2` returns.
- The `showInfo`, `tooltip` and `showText` dialogs, the "Quit Config" button of the invalid-config window, and window geometry are not modelled.
- Floating point is a parameter (`Colors.FloatText`). This covers `round(a / 255, 2)` in `hex_with_alpha_to_rgba` and the regex and float `rgba(...)` branch of `hex_with_alpha_to_argb`. `adjust_alpha`'s factor is the rational `num/den` (0.4 is 2/5), truncated.
- `Window.NumberCheck`: there are no float values, so a `decimal` spin box sees only integers and booleans.
- Qt's palette and style application, webview injection, `recolor.js`, `menu.py`, `config.py` tab wiring, and widget construction and layout are not modelled.
- Qt's colour-name validity is the parameter `isColor`. The names Qt's colour dialog, file dialog and key-sequence editor produce are the edit values.
- `to_json`, `__iter__`, `utils.py` (a broken copy of `darken`) and `new_version.py` are not modelled.
- The top level of `firstrun.py` (lines 34-39) is not modelled; only the class and the stamp are.
- `int()` accepts ASCII digits only. Unicode digits and `_` separators are left out.
- IsSpace: `PyText.IsSpace` is the ASCII whitespace (and the four separator controls) that `int()` and `strip()` skip. Unicode whitespace such as U+00A0 is not skipped.
- HexWithAlphaToArgb: `Colors.HexWithAlphaToArgb` takes the float branch (`FloatText.rgbaToArgb`) not to raise. In the code, `float()` raises ValueError on a text the pattern accepts, such as `rgba(1, 2, 3, 1..5)`.
- `Migrate.MaybeMigrateConfig`: the two-argument `Version` comes from `ankiaddonconfig`. That package is not part of this model. It is taken to compare exactly as `firstrun.py:15-31` does.
- `Versions.ParseVersion` parses every dot-separated part, as the code's list comprehension does, not only the first two.
- The migration compares colour values with structural equality. It differs from Python's `==` only where a boolean meets an integer or two mappings differ in key order inside the compared values; colour strings are neither. The dialog's dropdown uses Python's `==` (`Window.Same`), floats aside.
- Lower: `PyText.Lower` lower-cases the ASCII letters only. `str.lower()` also folds non-ASCII letters, so a non-ASCII colour name keeps its case in the CSS name.
- SetIndex: `PyValues.SetIndex` raises TypeError on a mapping. Python's `d[1] = x` adds the integer key 1, which the model's string-keyed mappings cannot hold.
- SetMode: `MigrateV1.SetMode` inherits this. A colour entry that is a mapping makes the write raise TypeError, where Python adds the key.
- SetModeFails: the if-and-only-if holds of the model; for a mapping entry Python would accept the write that the model refuses.
- AdjustAlphaValue: `HexColor.AdjustAlphaValue` wraps the corrected `adjust_alpha` (first two findings). `#11223344` gives `#1122331B` where the code gives `#112233401`, and `#abc` gives `#aabbcc66` where it gives `###aabb66`.
- AdjustColorsV3: `MigrateV3.AdjustColorsV3` computes `CANVAS_GLASS` with the corrected `adjust_alpha`, not the code as written.
- V3ColorsSpec: `MigrateV3.V3ColorsSpec` states `CANVAS_GLASS` through the corrected `AdjustAlphaValue`.
- V3ColorsSucceeds: `MigrateV3.V3ColorsSucceeds` states when the corrected step succeeds. As written, a nine-character `CANVAS_ELEVATED` passes when its last character alone is a hex digit, rather than its last two.
- V2ToV3: `MigrateV3.V2ToV3` stores the colours of the corrected `adjust_alpha`.
- MigrateColors: `MigrateV1.MigrateColors` ends with the corrected hover step (fourth finding). A `BUTTON_HOVER` equal to `BUTTON_BG` that `darken(·, 5)` leaves unchanged, such as `#FFFFFF`, is darkened by 5 (`#FAFAFA`) where the code keeps it equal.
- MaybeV1ToV2: `MigrateV1.MaybeV1ToV2` backs up the whole version-1 document (third finding) where the code backs up `conf.get("")`, which is `null` for a mapping without a `""` key and raises for any other root. It also carries the corrected hover step.
- MaybeMigrateConfig: `Migrate.MaybeMigrateConfig` runs the corrected steps above, so it differs from the code on the findings' inputs.
- RunPlan: `Migrate.RunPlan` runs the same corrected steps.
- `Window.ColorCheck`: a non-text value is taken to raise TypeError (from `len`). The original's exact exception for a nine-element list is not modelled.
- `Window.ConfigWindow.Change`: the path button's `conf.get(key)` and `Path(val).parent` before the file dialog (window.py:438-439) are not modelled. A value without a path form would raise there.
- `Window.ConfigWindow.Change`: the re-display after a colour save or a path browse is not in the method's contract. The round-trip lemmas state what that update shows.
- The hooks are pure functions of the live document. Approval hooks return a boolean; save and close hooks return the new document.
- `Colors.HostColors` owns its colour table. Aliasing between the host's colour dicts is not modelled.
- `Colors.DeclTexts` accumulates each entry's lines into the running texts. This is one concatenation per entry rather than per line, with the same resulting text.

## Findings

| source | as written | input that shows it | evidently intended | confidence | as-written member | corrected member |
|---|---|---|---|---|---|---|
| src/addon/migrate.py:162-164 | a nine-character colour takes `color[8:10]` as alpha and `color[0:8]` as body | `adjust_alpha("#11223344", 0.4)` gives `#112233401` | body `color[0:7]`, alpha `int(color[7:9], 16)`: `#1122331B` | not executed | HexColor.AsWrittenNineCharCounterexample | HexColor.AdjustAlphaNineChar |
| src/addon/migrate.py:167-168 | `#RGB` doubles `color[0..2]`, the `#` included | `adjust_alpha("#abc", 0.4)` gives `###aabb66` | doubles `color[1..3]`: `#aabbcc66` | not executed | HexColor.AsWrittenFourCharCounterexample | HexColor.AdjustAlphaFourChar |
| src/addon/migrate.py:48 | the backup is `conf.get("")`, the key `""`, missing in any real document | any configuration without a `""` key backs up as `null` | back up the whole version-1 document | not executed | MigrateV1.AsWrittenBackupCounterexample | MigrateV1.MaybeV1ToV2 |
| src/addon/migrate.py:123-126 | an equal hover is replaced by `darken(hover, 5)`, which adds 5 and saturates | BUTTON_HOVER and BUTTON_BG both `#FFFFFF` stay equal | the hover differs from the background (comment at line 122); the corrected step darkens by -5 when +5 leaves it unchanged | not executed | MigrateV1.AsWrittenHoverCounterexample | MigrateV1.HoverStepSeparates |

=== FILE: colors.dfy ===
/**
 * Applying the colour document to the host: the two converters from the
 * `#RRGGBBAA` notation of CSS Color Module Level 4, section 5.2, to what Qt
 * accepts (`rgba(r, g, b, a)` text or `#AARRGGBB`), the per-name palette
 * update, and the light and dark CSS declaration lists built from the
 * document.
 */
module Colors {
  import opened PyText
  import opened PyValues
  import opened Manager
  import opened ColorEntry

  // ---------------------------------------------------------------------
  // converters

  /**
   * The floating-point parts of the converters, taken as given: the text of
   * `round(alpha / 255, 2)` for an alpha byte, and the `rgba(...)` branch of
   * the ARGB converter (regular-expression match and float scaling) applied
   * to the text after `rgba`, `None` when the expression does not match.
   */
  datatype FloatText = FloatText(alpha: int -> string, rgbaToArgb: string -> Option<string>)

  /** Python's `s.strip(c)` for one character: every leading and trailing `c` removed. */
  function StripChar(s: string, c: char): (r: string)
    ensures |r| <= |s|
    ensures |s| > 0 && s[0] != c && s[|s| - 1] != c ==> r == s
    ensures r != [] ==> r[0] != c && r[|r| - 1] != c
    ensures exists i, j ::
        0 <= i <= j <= |s| && r == s[i..j]
        && (forall k :: 0 <= k < i ==> s[k] == c) && (forall k :: j <= k < |s| ==> s[k] == c)
    decreases |s|
  {
    if |s| > 0 && s[0] == c then
      StripLeadingStep(s, c, StripChar(s[1..], c));
      StripChar(s[1..], c)
    else if |s| > 0 && s[|s| - 1] == c then
      StripTrailingStep(s, c, s[..|s| - 1], StripChar(s[..|s| - 1], c));
      StripChar(s[..|s| - 1], c)
    else
      assert s == s[0..|s|];
      s
  }

  /** A slice of `s[1..]` cut between runs of `c` is one of `s` when `s` starts with `c`. */
  lemma StripLeadingStep(s: string, c: char, r: string)
    requires |s| > 0 && s[0] == c
    requires exists i, j ::
        0 <= i <= j <= |s[1..]| && r == s[1..][i..j]
        && (forall k :: 0 <= k < i ==> s[1..][k] == c) && (forall k :: j <= k < |s[1..]| ==> s[1..][k] == c)
    ensures exists i, j ::
        0 <= i <= j <= |s| && r == s[i..j]
        && (forall k :: 0 <= k < i ==> s[k] == c) && (forall k :: j <= k < |s| ==> s[k] == c)
  {
    var i, j :| 0 <= i <= j <= |s[1..]| && r == s[1..][i..j]
      && (forall k :: 0 <= k < i ==> s[1..][k] == c) && (forall k :: j <= k < |s[1..]| ==> s[1..][k] == c);
    assert r == s[i + 1..j + 1];
    assert forall k :: 0 <= k < i + 1 ==> s[k] == c by {
      forall k | 0 < k < i + 1 ensures s[k] == c { assert s[k] == s[1..][k - 1]; }
    }
    assert forall k :: j + 1 <= k < |s| ==> s[k] == c by {
      forall k | j + 1 <= k < |s| ensures s[k] == c { assert s[k] == s[1..][k - 1]; }
    }
  }

  /** A slice of `t == s[..|s| - 1]` cut between runs of `c` is one of `s` when `s` ends with `c`. */
  lemma StripTrailingStep(s: string, c: char, t: string, r: string)
    requires |s| > 0 && s[|s| - 1] == c && t == s[..|s| - 1]
    requires exists i, j ::
        0 <= i <= j <= |t| && r == t[i..j]
        && (forall k :: 0 <= k < i ==> t[k] == c) && (forall k :: j <= k < |t| ==> t[k] == c)
    ensures exists i, j ::
        0 <= i <= j <= |s| && r == s[i..j]
        && (forall k :: 0 <= k < i ==> s[k] == c) && (forall k :: j <= k < |s| ==> s[k] == c)
  {
    var i, j :| 0 <= i <= j <= |t| && r == t[i..j]
      && (forall k :: 0 <= k < i ==> t[k] == c) && (forall k :: j <= k < |t| ==> t[k] == c);
    assert r == s[i..j];
    assert forall k :: 0 <= k < i ==> s[k] == c by {
      forall k | 0 <= k < i ensures s[k] == c { assert s[k] == t[k]; }
    }
    assert forall k :: j <= k < |s| ==> s[k] == c by {
      forall k | j <= k < |s| ensures s[k] == c {
        if k < |s| - 1 { assert s[k] == t[k]; }
      }
    }
  }

  /** `int(s[i:i + 2], 16)`. */
  function ByteAt(s: string, i: nat): Option<int>
  {
    ParseInt(Slice(s, i, i + 2), 16)
  }

  /** `f"rgba({red}, {green}, {blue}, {alpha})"`. */
  function RgbaText(red: int, green: int, blue: int, alpha: string): string
  {
    "rgba(" + Decimal(red) + ", " + Decimal(green) + ", " + Decimal(blue) + ", " + alpha + ")"
  }

  /** A nine-character text starting with `#`: the only shape either converter rewrites as hex. */
  predicate NineCharHex(s: string)
  {
    StartsWith(s, "#") && |s| == 9
  }

  /**
   * `hex_with_alpha_to_rgba`: a nine-character `#` text becomes `rgba(...)`
   * with the red, green and blue pairs in decimal; a pair that is not hex
   * raises ValueError; any other text is returned unchanged.
   */
  function HexWithAlphaToRgba(hex: string, ft: FloatText): (r: Result<string>)
    ensures !NineCharHex(hex) ==> r == Ok(hex)
    ensures r.Err? ==> r.error == ValueError
  {
    if NineCharHex(hex) then
      var color := StripChar(hex, '#');
      match (ByteAt(color, 0), ByteAt(color, 2), ByteAt(color, 4), ByteAt(color, 6))
      case (Some(red), Some(green), Some(blue), Some(alpha)) => Ok(RgbaText(red, green, blue, ft.alpha(alpha)))
      case _ => Err(ValueError)
    else Ok(hex)
  }

  /**
   * `hex_with_alpha_to_argb`: a nine-character `#` text has its last two
   * characters moved to the front; an `rgba(...)` text that matches goes
   * through the float branch; anything else is returned unchanged.
   */
  function HexWithAlphaToArgb(hex: string, ft: FloatText): (r: string)
    ensures NineCharHex(hex) ==> NineCharHex(r)
    ensures !NineCharHex(hex) && !(StartsWith(hex, "rgba") && ft.rgbaToArgb(hex[4..]).Some?) ==> r == hex
  {
    if NineCharHex(hex) then "#" + hex[7..9] + hex[1..7]
    else if StartsWith(hex, "rgba") && ft.rgbaToArgb(hex[4..]).Some? then ft.rgbaToArgb(hex[4..]).value
    else hex
  }

  /** `#RRGGBBAA` written from four bytes. */
  function HexOfBytes(red: int, green: int, blue: int, alpha: int): string
  {
    "#" + Hex02(red) + Hex02(green) + Hex02(blue) + Hex02(alpha)
  }

  /** Two hex digits, neither of them `#`. */
  lemma ByteDigits(n: int)
    requires 0 <= n < 256
    ensures |Hex02(n)| == 2 && '#' !in Hex02(n)
  {
    Hex02OfByte(n);
    assert IsDigitIn(Hex02(n)[0], 16) && IsDigitIn(Hex02(n)[1], 16);
  }

  lemma HexOfBytesShape(red: int, green: int, blue: int, alpha: int)
    requires 0 <= red < 256 && 0 <= green < 256 && 0 <= blue < 256 && 0 <= alpha < 256
    ensures var s := HexOfBytes(red, green, blue, alpha);
      && NineCharHex(s)
      && s[1..3] == Hex02(red) && s[3..5] == Hex02(green) && s[5..7] == Hex02(blue) && s[7..9] == Hex02(alpha)
      && '#' !in s[1..]
  {
    ByteDigits(red);
    ByteDigits(green);
    ByteDigits(blue);
    ByteDigits(alpha);
    FourPairs(Hex02(red), Hex02(green), Hex02(blue), Hex02(alpha));
  }

  /** Stripping `#` from a `#` text with no other `#` leaves the text after the first character. */
  lemma StripLeadingHash(s: string)
    requires |s| >= 2 && s[0] == '#' && '#' !in s[1..]
    ensures StripChar(s, '#') == s[1..]
  {
    assert s[1] in s[1..] && s[|s| - 1] in s[1..];
    assert s[1..][0] == s[1];
    assert s[1..][|s[1..]| - 1] == s[|s| - 1];
  }

  /** All four two-digit pairs of a `#RRGGBBAA` text are hex numbers. */
  predicate PairsParse(s: string)
  {
    ByteAt(s, 1).Some? && ByteAt(s, 3).Some? && ByteAt(s, 5).Some? && ByteAt(s, 7).Some?
  }

  /**
   * The RGBA converter on any nine-character `#` text with no other `#`,
   * upper- and lower-case digits alike: it succeeds exactly when the four
   * pairs parse, and then writes the first three in decimal and the fourth
   * through the alpha text.
   */
  lemma RgbaOfHex(s: string, ft: FloatText)
    requires NineCharHex(s) && '#' !in s[1..]
    ensures HexWithAlphaToRgba(s, ft).Ok? <==> PairsParse(s)
    ensures PairsParse(s) ==>
      HexWithAlphaToRgba(s, ft) == Ok(RgbaText(ByteAt(s, 1).value, ByteAt(s, 3).value, ByteAt(s, 5).value, ft.alpha(ByteAt(s, 7).value)))
  {
    StripLeadingHash(s);
    var color := s[1..];
    assert Slice(color, 0, 2) == Slice(s, 1, 3);
    assert Slice(color, 2, 4) == Slice(s, 3, 5);
    assert Slice(color, 4, 6) == Slice(s, 5, 7);
    assert Slice(color, 6, 8) == Slice(s, 7, 9);
  }

  /** On the texts `Hex02` writes, the RGBA converter gives back the four bytes. */
  lemma RgbaOfBytes(red: int, green: int, blue: int, alpha: int, ft: FloatText)
    requires 0 <= red < 256 && 0 <= green < 256 && 0 <= blue < 256 && 0 <= alpha < 256
    ensures HexWithAlphaToRgba(HexOfBytes(red, green, blue, alpha), ft)
      == Ok(RgbaText(red, green, blue, ft.alpha(alpha)))
  {
    var s := HexOfBytes(red, green, blue, alpha);
    HexOfBytesShape(red, green, blue, alpha);
    Hex02OfByte(red);
    Hex02OfByte(green);
    Hex02OfByte(blue);
    Hex02OfByte(alpha);
    assert Slice(s, 1, 3) == Hex02(red) && Slice(s, 3, 5) == Hex02(green);
    assert Slice(s, 5, 7) == Hex02(blue) && Slice(s, 7, 9) == Hex02(alpha);
    RgbaOfHex(s, ft);
  }

  /** The ARGB converter turns `#RRGGBBAA` into `#AARRGGBB`, whose pairs read back as alpha, red, green and blue. */
  lemma ArgbOfBytes(red: int, green: int, blue: int, alpha: int, ft: FloatText)
    requires 0 <= red < 256 && 0 <= green < 256 && 0 <= blue < 256 && 0 <= alpha < 256
    ensures var argb := HexWithAlphaToArgb(HexOfBytes(red, green, blue, alpha), ft);
      && argb == "#" + Hex02(alpha) + Hex02(red) + Hex02(green) + Hex02(blue)
      && ByteAt(argb, 1) == Some(alpha) && ByteAt(argb, 3) == Some(red)
      && ByteAt(argb, 5) == Some(green) && ByteAt(argb, 7) == Some(blue)
  {
    var s := HexOfBytes(red, green, blue, alpha);
    HexOfBytesShape(red, green, blue, alpha);
    assert s[1..7] == Hex02(red) + Hex02(green) + Hex02(blue);
    ArgbBytes(red, green, blue, alpha);
  }

  /**
   * Both converters carry the same colour, for any nine-character `#` text
   * with no other `#`: the ARGB form holds at `#AARRGGBB` the pairs the RGBA
   * form reads, and when the RGBA form exists it writes exactly those.
   */
  lemma ConvertersAgree(s: string, ft: FloatText)
    requires NineCharHex(s) && '#' !in s[1..]
    ensures var argb := HexWithAlphaToArgb(s, ft);
      && ByteAt(argb, 1) == ByteAt(s, 7) && ByteAt(argb, 3) == ByteAt(s, 1)
      && ByteAt(argb, 5) == ByteAt(s, 3) && ByteAt(argb, 7) == ByteAt(s, 5)
      && (HexWithAlphaToRgba(s, ft).Ok? <==> PairsParse(argb))
      && (HexWithAlphaToRgba(s, ft).Ok? ==>
            HexWithAlphaToRgba(s, ft).value == RgbaText(ByteAt(argb, 3).value, ByteAt(argb, 5).value, ByteAt(argb, 7).value, ft.alpha(ByteAt(argb, 1).value)))
  {
    var argb := HexWithAlphaToArgb(s, ft);
    assert s[1..7] == s[1..3] + s[3..5] + s[5..7];
    assert argb == "#" + s[7..9] + s[1..3] + s[3..5] + s[5..7];
    FourPairs(s[7..9], s[1..3], s[3..5], s[5..7]);
    assert Slice(argb, 1, 3) == Slice(s, 7, 9);
    assert Slice(argb, 3, 5) == Slice(s, 1, 3);
    assert Slice(argb, 5, 7) == Slice(s, 3, 5);
    assert Slice(argb, 7, 9) == Slice(s, 5, 7);
    RgbaOfHex(s, ft);
  }

  lemma ArgbBytes(red: int, green: int, blue: int, alpha: int)
    requires 0 <= red < 256 && 0 <= green < 256 && 0 <= blue < 256 && 0 <= alpha < 256
    ensures var argb := "#" + Hex02(alpha) + Hex02(red) + Hex02(green) + Hex02(blue);
      && ByteAt(argb, 1) == Some(alpha) && ByteAt(argb, 3) == Some(red)
      && ByteAt(argb, 5) == Some(green) && ByteAt(argb, 7) == Some(blue)
  {
    Hex02OfByte(red);
    Hex02OfByte(green);
    Hex02OfByte(blue);
    Hex02OfByte(alpha);
    FourPairs(Hex02(alpha), Hex02(red), Hex02(green), Hex02(blue));
  }

  /** `#` followed by four two-character fields: each field sits at its own pair of positions. */
  lemma FourPairs(a: string, b: string, c: string, d: string)
    requires |a| == 2 && |b| == 2 && |c| == 2 && |d| == 2
    ensures var s := "#" + a + b + c + d;
      && |s| == 9 && s[0] == '#' && s[1..] == a + b + c + d
      && s[1..3] == a && s[3..5] == b && s[5..7] == c && s[7..9] == d
  {
    var s := "#" + a + b + c + d;
    assert s[1..] == a + b + c + d;
    assert s[1..3] == (a + b + c + d)[0..2];
    assert s[3..5] == (a + b + c + d)[2..4];
    assert s[5..7] == (a + b + c + d)[4..6];
    assert s[7..9] == (a + b + c + d)[6..8];
  }

  // ---------------------------------------------------------------------
  // the host palette

  /** The palette entries that Qt reads as colours directly, so they take `#AARRGGBB`. */
  const ArgbOnlyEntries: seq<string> := [
    "STATE_MARKED", "STATE_SUSPENDED", "STATE_BURIED",
    "FLAG_1", "FLAG_2", "FLAG_3", "FLAG_4", "FLAG_5", "FLAG_6", "FLAG_7",
    "ACCENT_CARD", "ACCENT_NOTE"
  ]

  /** The host's colour table: per name, a mapping with (at least) `light` and `dark` texts. */
  type Palette = map<string, map<string, string>>

  /** `color_map_fn(value)`: the converter `replace_color` picks for the name; a non-text value has no `startswith`. */
  function Convert(ankiName: string, v: Value, ft: FloatText): (r: Result<string>)
    ensures !v.Str? ==> r == Err(AttributeError)
    ensures v.Str? && ankiName in ArgbOnlyEntries ==> r == Ok(HexWithAlphaToArgb(v.s, ft))
    ensures v.Str? && ankiName !in ArgbOnlyEntries ==> r == HexWithAlphaToRgba(v.s, ft)
  {
    match v
    case Str(s) => if ankiName !in ArgbOnlyEntries then HexWithAlphaToRgba(s, ft) else Ok(HexWithAlphaToArgb(s, ft))
    case _ => Err(AttributeError)
  }

  /**
   * `replace_color(color_entries, anki_name, addon_name)`: nothing happens
   * unless the host has a colour of that name; then the light value is
   * written from `entry[1]` and the dark one from `entry[2]`, in that order,
   * so an exception while converting the dark value leaves the light one
   * written. Only that name's colour changes.
   */
  function Replaced(palette: Palette, entries: Value, ankiName: string, addonName: string, ft: FloatText): (r: (Palette, Option<PyError>))
    ensures r.0.Keys == palette.Keys
    ensures forall n :: n in palette && n != ankiName ==> r.0[n] == palette[n]
    ensures ankiName !in palette ==> r == (palette, None)
  {
    if ankiName !in palette then (palette, None)
    else
      match GetKey(entries, addonName)
      case Err(e) => (palette, Some(e))
      case Ok(entry) =>
        match GetIndex(entry, 1)
        case Err(e) => (palette, Some(e))
        case Ok(lightValue) =>
          match Convert(ankiName, lightValue, ft)
          case Err(e) => (palette, Some(e))
          case Ok(light) =>
            var p1 := palette[ankiName := palette[ankiName]["light" := light]];
            match GetIndex(entry, 2)
            case Err(e) => (p1, Some(e))
            case Ok(darkValue) =>
              match Convert(ankiName, darkValue, ft)
              case Err(e) => (p1, Some(e))
              case Ok(dark) => (p1[ankiName := p1[ankiName]["dark" := dark]], None)
  }

  /**
   * The colour `c` holds, as light and dark, the conversions for `ankiName`
   * of `entry[1]` and `entry[2]` of the document's entry `addonName`.
   */
  predicate Converted(c: map<string, string>, entries: Value, addonName: string, ankiName: string, ft: FloatText)
  {
    && entries.Dict? && addonName in entries.m
    && var entry := entries.m[addonName];
    && GetIndex(entry, 1).Ok? && GetIndex(entry, 2).Ok?
    && var light := Convert(ankiName, GetIndex(entry, 1).value, ft);
    && var dark := Convert(ankiName, GetIndex(entry, 2).value, ft);
    && light.Ok? && dark.Ok?
    && "light" in c && c["light"] == light.value
    && "dark" in c && c["dark"] == dark.value
  }

  /**
   * A completed replacement of a colour the host has: light and dark hold
   * the conversions of the entry's values (so both were texts), and the
   * colour's other fields are kept.
   */
  lemma ReplacedWrites(palette: Palette, entries: Value, ankiName: string, addonName: string, ft: FloatText)
    requires ankiName in palette
    requires Replaced(palette, entries, ankiName, addonName, ft).1 == None
    ensures var c := Replaced(palette, entries, ankiName, addonName, ft).0[ankiName];
      && Converted(c, entries, addonName, ankiName, ft)
      && c.Keys == palette[ankiName].Keys + {"light", "dark"}
      && forall f :: f in palette[ankiName] && f != "light" && f != "dark" ==> c[f] == palette[ankiName][f]
  {
  }

  /** The values `for name in v` visits, or the TypeError of a value that cannot be iterated. */
  function Names(v: Value): (r: Result<seq<Value>>)
    ensures v.Dict? ==> r.Ok? && |r.value| == |v.keys| && forall k :: 0 <= k < |v.keys| ==> r.value[k] == Str(v.keys[k])
    ensures r.Err? <==> !(v.Dict? || v.List? || v.Str?)
  {
    match v
    case Dict(keys, _) => Ok(seq(|keys|, k requires 0 <= k < |keys| => Str(keys[k])))
    case List(items) => Ok(items)
    case Str(s) => Ok(seq(|s|, k requires 0 <= k < |s| => Str([s[k]])))
    case _ => Err(TypeError)
  }

  /** One pass of `recolor_python`'s loop: `getattr` with a name that is not text raises TypeError. */
  function RecolorOne(palette: Palette, entries: Value, name: Value, ft: FloatText): (r: (Palette, Option<PyError>))
    ensures r.0.Keys == palette.Keys
  {
    match name
    case Str(s) => Replaced(palette, entries, s, s, ft)
    case _ => (palette, Some(TypeError))
  }

  /** The loop of `recolor_python` over `names`, stopping at the first exception. */
  function RecolorEach(palette: Palette, entries: Value, names: seq<Value>, ft: FloatText): (r: (Palette, Option<PyError>))
    ensures r.0.Keys == palette.Keys
    decreases |names|
  {
    if names == [] then (palette, None)
    else RecolorStep(RecolorEach(palette, entries, names[..|names| - 1], ft), entries, names[|names| - 1], ft)
  }

  /** One pass of the loop, skipped once an earlier pass raised. */
  function RecolorStep(acc: (Palette, Option<PyError>), entries: Value, name: Value, ft: FloatText): (r: (Palette, Option<PyError>))
    ensures r.0.Keys == acc.0.Keys
  {
    if acc.1.Some? then acc else RecolorOne(acc.0, entries, name, ft)
  }

  lemma RecolorEachSnoc(palette: Palette, entries: Value, names: seq<Value>, i: nat, ft: FloatText)
    requires i < |names|
    ensures RecolorEach(palette, entries, names[..i + 1], ft)
      == RecolorStep(RecolorEach(palette, entries, names[..i], ft), entries, names[i], ft)
  {
    assert names[..i + 1][..i] == names[..i];
  }

  /**
   * `recolor_python` after reading the colour document `entries`: every
   * entry in document order, then the two gradient ends from BUTTON_HOVER.
   */
  function Recolored(palette: Palette, entries: Value, ft: FloatText): (r: (Palette, Option<PyError>))
    ensures r.0.Keys == palette.Keys
  {
    match Names(entries)
    case Err(e) => (palette, Some(e))
    case Ok(names) =>
      var (p1, e1) := RecolorEach(palette, entries, names, ft);
      if e1.Some? then (p1, e1) else GradientEnds(p1, entries, ft)
  }

  /** The two calls after the loop: both gradient ends take BUTTON_HOVER's values. */
  function GradientEnds(palette: Palette, entries: Value, ft: FloatText): (r: (Palette, Option<PyError>))
    ensures r.0.Keys == palette.Keys
  {
    var (p1, e1) := Replaced(palette, entries, "BUTTON_GRADIENT_START", "BUTTON_HOVER", ft);
    if e1.Some? then (p1, e1)
    else Replaced(p1, entries, "BUTTON_GRADIENT_END", "BUTTON_HOVER", ft)
  }

  /** Once a pass raises, the rest of the loop does not run. */
  lemma {:induction false} RecolorEachStops(palette: Palette, entries: Value, names: seq<Value>, i: nat, ft: FloatText)
    requires i <= |names|
    requires RecolorEach(palette, entries, names[..i], ft).1.Some?
    ensures RecolorEach(palette, entries, names, ft) == RecolorEach(palette, entries, names[..i], ft)
    decreases |names| - i
  {
    if i < |names| {
      var prefix := names[..|names| - 1];
      assert prefix[..i] == names[..i];
      RecolorEachStops(palette, entries, prefix, i, ft);
    } else {
      assert names[..i] == names;
    }
  }

  /**
   * However the loop left them, a completed recolouring leaves both
   * gradient ends with the RGBA conversions of BUTTON_HOVER's light and
   * dark values, whenever the host has those colours.
   */
  lemma GradientTakesHover(palette: Palette, entries: Value, ft: FloatText, end: string)
    requires end == "BUTTON_GRADIENT_START" || end == "BUTTON_GRADIENT_END"
    requires end in palette
    requires Recolored(palette, entries, ft).1 == None
    ensures end !in ArgbOnlyEntries
    ensures Converted(Recolored(palette, entries, ft).0[end], entries, "BUTTON_HOVER", end, ft)
  {
    var p1 := RecoloredAfterLoop(palette, entries, ft);
    GradientEndsTakeHover(p1, entries, ft, end);
    GradientEndsAreRgba(end);
  }

  lemma GradientEndsAreRgba(end: string)
    requires end == "BUTTON_GRADIENT_START" || end == "BUTTON_GRADIENT_END"
    ensures end !in ArgbOnlyEntries
  {
  }

  /** A recolouring that raised nothing is the gradient step applied to the loop's palette. */
  lemma RecoloredAfterLoop(palette: Palette, entries: Value, ft: FloatText) returns (p1: Palette)
    requires Recolored(palette, entries, ft).1 == None
    ensures p1.Keys == palette.Keys
    ensures Recolored(palette, entries, ft) == GradientEnds(p1, entries, ft)
  {
    var names := Names(entries).value;
    p1 := RecolorEach(palette, entries, names, ft).0;
  }

  lemma GradientEndsTakeHover(palette: Palette, entries: Value, ft: FloatText, end: string)
    requires end == "BUTTON_GRADIENT_START" || end == "BUTTON_GRADIENT_END"
    requires end in palette
    requires GradientEnds(palette, entries, ft).1 == None
    ensures Converted(GradientEnds(palette, entries, ft).0[end], entries, "BUTTON_HOVER", end, ft)
  {
    var (p2, e1) := Replaced(palette, entries, "BUTTON_GRADIENT_START", "BUTTON_HOVER", ft);
    assert e1 == None;
    var p3 := Replaced(p2, entries, "BUTTON_GRADIENT_END", "BUTTON_HOVER", ft).0;
    assert GradientEnds(palette, entries, ft).0 == p3;
    if end == "BUTTON_GRADIENT_START" {
      ReplacedWrites(palette, entries, "BUTTON_GRADIENT_START", "BUTTON_HOVER", ft);
      assert p3[end] == p2[end];
    } else {
      ReplacedWrites(p2, entries, "BUTTON_GRADIENT_END", "BUTTON_HOVER", ft);
    }
  }

  /** The host's colour table (`aqt.colors`), which `replace_color` updates in place. */
  class HostColors {
    var table: Palette

    constructor (table: Palette)
      ensures this.table == table
    {
      this.table := table;
    }

    /** `replace_color(color_entries, anki_name, addon_name)`. */
    method ReplaceColor(entries: Value, ankiName: string, addonName: string, ft: FloatText) returns (err: Option<PyError>)
      modifies this
      ensures (table, err) == Replaced(old(table), entries, ankiName, addonName, ft)
    {
      err := None;
      if ankiName !in table {
        return;
      }
      var entry := GetKey(entries, addonName);
      if entry.Err? {
        return Some(entry.error);
      }
      var lightValue := GetIndex(entry.value, 1);
      if lightValue.Err? {
        return Some(lightValue.error);
      }
      var light := Convert(ankiName, lightValue.value, ft);
      if light.Err? {
        return Some(light.error);
      }
      table := table[ankiName := table[ankiName]["light" := light.value]];
      var darkValue := GetIndex(entry.value, 2);
      if darkValue.Err? {
        return Some(darkValue.error);
      }
      var dark := Convert(ankiName, darkValue.value, ft);
      if dark.Err? {
        return Some(dark.error);
      }
      table := table[ankiName := table[ankiName]["dark" := dark.value]];
    }

    /**
     * `recolor_python`: reloads the configuration, then replaces every
     * colour the document names, then both gradient ends from BUTTON_HOVER.
     * Applying the palette and style to the Qt application is not modelled.
     */
    method RecolorPython(conf: ConfigManager, ft: FloatText) returns (err: Option<PyError>)
      modifies this, conf`config
      ensures conf.config == conf.stored
      ensures match LookupOr(conf.stored, Path("colors"), Null)
        case Err(e) => table == old(table) && err == Some(e)
        case Ok(entries) => (table, err) == Recolored(old(table), entries, ft)
    {
      conf.Load();
      var entries := conf.Get("colors", Null);
      if entries.Err? {
        return Some(entries.error);
      }
      var names := Names(entries.value);
      if names.Err? {
        return Some(names.error);
      }
      err := ReplaceEach(entries.value, names.value, ft);
      if err.Some? {
        return;
      }
      err := ReplaceGradient(entries.value, ft);
    }

    /** The loop of `recolor_python`: `replace_color` for each name in turn. */
    method ReplaceEach(entries: Value, names: seq<Value>, ft: FloatText) returns (err: Option<PyError>)
      modifies this
      ensures (table, err) == RecolorEach(old(table), entries, names, ft)
    {
      var i := 0;
      while i < |names|
        invariant 0 <= i <= |names|
        invariant RecolorEach(old(table), entries, names[..i], ft) == (table, None)
      {
        RecolorEachSnoc(old(table), entries, names, i, ft);
        var name := names[i];
        if !name.Str? {
          RecolorEachStops(old(table), entries, names, i + 1, ft);
          return Some(TypeError);
        }
        err := ReplaceColor(entries, name.s, name.s, ft);
        if err.Some? {
          RecolorEachStops(old(table), entries, names, i + 1, ft);
          return;
        }
        i := i + 1;
      }
      assert names[..i] == names;
      err := None;
    }

    /** The two `replace_color` calls for the gradient ends. */
    method ReplaceGradient(entries: Value, ft: FloatText) returns (err: Option<PyError>)
      modifies this
      ensures (table, err) == GradientEnds(old(table), entries, ft)
    {
      err := ReplaceColor(entries, "BUTTON_GRADIENT_START", "BUTTON_HOVER", ft);
      if err.Some? {
        return;
      }
      err := ReplaceColor(entries, "BUTTON_GRADIENT_END", "BUTTON_HOVER", ft);
    }
  }

  // ---------------------------------------------------------------------
  // theme CSS

  /** `container[item]` for an item the container's iteration produced. */
  function Subscript(container: Value, item: Value): Result<Value>
  {
    match container
    case Dict(_, _) =>
      (match item
       case Str(k) => GetKey(container, k)
       case List(_) => Err(TypeError)
       case Dict(_, _) => Err(TypeError)
       case _ => Err(KeyError))
    case List(_) =>
      (match item
       case Int(i) => GetIndex(container, i)
       case Bool(b) => GetIndex(container, if b then 1 else 0)
       case _ => Err(TypeError))
    case Str(_) =>
      (match item
       case Int(i) => GetIndex(container, i)
       case Bool(b) => GetIndex(container, if b then 1 else 0)
       case _ => Err(TypeError))
    case _ => Err(TypeError)
  }

  /** One CSS declaration: a custom-property name with its light-mode and dark-mode values. */
  datatype Decl = Decl(css: string, light: string, dark: string)

  /** An entry that has `entry[3]` also has `entry[1]` and `entry[2]`. */
  lemma LowerIndices(entry: Value)
    requires GetIndex(entry, 3).Ok?
    ensures GetIndex(entry, 1).Ok? && GetIndex(entry, 2).Ok?
  {
  }

  /** The declarations of one entry: one per CSS name, each with `str(entry[1])` and `str(entry[2])`. */
  function EntryDecls(entry: Value): (r: Result<seq<Decl>>)
    ensures r.Ok? <==> CssNames(entry).Ok?
    ensures r.Ok? ==> |r.value| == |CssNames(entry).value|
  {
    match CssNames(entry)
    case Err(e) => Err(e)
    case Ok(names) =>
      LowerIndices(entry);
      Ok(DeclsOf(names, Show(GetIndex(entry, 1).value), Show(GetIndex(entry, 2).value)))
  }

  /** One declaration per CSS name, all with the same light and dark values. */
  function DeclsOf(css: seq<Value>, light: string, dark: string): (r: seq<Decl>)
    ensures |r| == |css|
  {
    if css == [] then [] else DeclsOf(css[..|css| - 1], light, dark) + [Decl(Show(css[|css| - 1]), light, dark)]
  }

  lemma DeclsOfSnoc(css: seq<Value>, light: string, dark: string, j: nat)
    requires j < |css|
    ensures DeclsOf(css[..j + 1], light, dark) == DeclsOf(css[..j], light, dark) + [Decl(Show(css[j]), light, dark)]
  {
    assert css[..j + 1][..j] == css[..j];
  }

  lemma {:induction false} DeclsOfAt(css: seq<Value>, light: string, dark: string, k: nat)
    requires k < |css|
    ensures DeclsOf(css, light, dark)[k] == Decl(Show(css[k]), light, dark)
  {
    if k < |css| - 1 {
      DeclsOfAt(css[..|css| - 1], light, dark, k);
    }
  }

  /** The k-th declaration of an entry carries its k-th CSS name and the entry's light and dark values. */
  lemma EntryDeclAt(entry: Value, k: nat)
    requires CssNames(entry).Ok? && k < |CssNames(entry).value|
    ensures GetIndex(entry, 1).Ok? && GetIndex(entry, 2).Ok?
    ensures EntryDecls(entry).value[k]
      == Decl(Show(CssNames(entry).value[k]), Show(GetIndex(entry, 1).value), Show(GetIndex(entry, 2).value))
  {
    LowerIndices(entry);
    DeclsOfAt(CssNames(entry).value, Show(GetIndex(entry, 1).value), Show(GetIndex(entry, 2).value), k);
  }

  /** A CSS name that is not a list counts as a list of one. */
  lemma ScalarCssCountsOnce(entry: Value)
    requires GetIndex(entry, 3).Ok? && !GetIndex(entry, 3).value.List?
    ensures GetIndex(entry, 1).Ok? && GetIndex(entry, 2).Ok?
    ensures EntryDecls(entry) == Ok([Decl(Show(GetIndex(entry, 3).value), Show(GetIndex(entry, 1).value), Show(GetIndex(entry, 2).value))])
  {
    var css := GetIndex(entry, 3).value;
    assert CssNames(entry) == Ok([css]);
    EntryDeclAt(entry, 0);
    var ds := EntryDecls(entry).value;
    assert ds == [ds[0]];
  }

  /** The declarations of the entries `names` selects, in that order, up to the first exception. */
  function ThemeDecls(colors: Value, names: seq<Value>): Result<seq<Decl>>
    decreases |names|
  {
    if names == [] then Ok([])
    else ThemeStep(colors, ThemeDecls(colors, names[..|names| - 1]), names[|names| - 1])
  }

  /** One pass of the loop: the declarations so far, then those of the entry `name` selects. */
  function ThemeStep(colors: Value, acc: Result<seq<Decl>>, name: Value): Result<seq<Decl>>
  {
    match acc
    case Err(e) => Err(e)
    case Ok(ds) =>
      match Subscript(colors, name)
      case Err(e) => Err(e)
      case Ok(entry) =>
        match EntryDecls(entry)
        case Err(e) => Err(e)
        case Ok(es) => Ok(ds + es)
  }

  lemma ThemeDeclsSnoc(colors: Value, names: seq<Value>, i: nat)
    requires i < |names|
    ensures ThemeDecls(colors, names[..i + 1]) == ThemeStep(colors, ThemeDecls(colors, names[..i]), names[i])
  {
    assert names[..i + 1][..i] == names[..i];
  }

  /** Once an entry raises, the entries after it are not read. */
  lemma {:induction false} ThemeDeclsStops(colors: Value, names: seq<Value>, i: nat)
    requires i <= |names|
    requires ThemeDecls(colors, names[..i]).Err?
    ensures ThemeDecls(colors, names) == ThemeDecls(colors, names[..i])
    decreases |names| - i
  {
    if i < |names| {
      var prefix := names[..|names| - 1];
      assert prefix[..i] == names[..i];
      ThemeDeclsStops(colors, prefix, i);
    } else {
      assert names[..i] == names;
    }
  }

  /** `f"{css_name}: {value};\n"` with the declaration's light or dark value. */
  function Line(d: Decl, dark: bool): string
  {
    d.css + ": " + (if dark then d.dark else d.light) + ";\n"
  }

  /** The lines of the declarations, one after another. */
  function Text(decls: seq<Decl>, dark: bool): string
    decreases |decls|
  {
    if decls == [] then "" else Text(decls[..|decls| - 1], dark) + Line(decls[|decls| - 1], dark)
  }

  lemma TextSnoc(decls: seq<Decl>, d: Decl, dark: bool)
    ensures Text(decls + [d], dark) == Text(decls, dark) + Line(d, dark)
  {
    assert (decls + [d])[..|decls|] == decls;
  }

  /** The text of two runs of declarations is the text of the first followed by that of the second. */
  lemma {:induction false} TextAppend(a: seq<Decl>, b: seq<Decl>, dark: bool)
    ensures Text(a + b, dark) == Text(a, dark) + Text(b, dark)
    decreases |b|
  {
    if b == [] {
      assert a + b == a;
    } else {
      var b' := b[..|b| - 1];
      var last := Line(b[|b| - 1], dark);
      TextAppend(a, b', dark);
      assert (a + b)[..|a + b| - 1] == a + b';
      calc {
        Text(a + b, dark);
        Text(a + b', dark) + last;
        (Text(a, dark) + Text(b', dark)) + last;
        Text(a, dark) + (Text(b', dark) + last);
        Text(a, dark) + Text(b, dark);
      }
    }
  }

  const ExtraHead := "\nhtml button {\n    background: var(--button-bg);\n}\n.night-mode .isMac button {\n    --canvas: "
  const ExtraMiddle := "; \n    --fg: "
  const ExtraTail := "; \n}\n"

  /** The extra CSS with `str()` of the dark BUTTON_BG value and of the dark FG value filled in. */
  function ExtraCss(buttonBg: Value, fg: Value): string
  {
    ExtraHead + Show(buttonBg) + ExtraMiddle + Show(fg) + ExtraTail
  }

  /** The dark BUTTON_BG text sits in the `--canvas` slot, before the dark FG text in the `--fg` slot. */
  lemma ExtraCssOrder(buttonBg: Value, fg: Value)
    ensures var t := ExtraCss(buttonBg, fg);
      var i := |ExtraHead|;
      var j := i + |Show(buttonBg)| + |ExtraMiddle|;
      && j + |Show(fg)| <= |t|
      && t[i..i + |Show(buttonBg)|] == Show(buttonBg)
      && t[j..j + |Show(fg)|] == Show(fg)
      && t[..i] == ExtraHead && t[i + |Show(buttonBg)|..j] == ExtraMiddle
  {
    Slots(ExtraHead, Show(buttonBg), ExtraMiddle, Show(fg), ExtraTail);
  }

  /** Where each of five concatenated texts sits in the result. */
  lemma Slots(head: string, b: string, middle: string, f: string, tail: string)
    ensures var t := head + b + middle + f + tail;
      var i := |head|;
      var j := i + |b| + |middle|;
      && j + |f| <= |t|
      && t[i..i + |b|] == b && t[j..j + |f|] == f
      && t[..i] == head && t[i + |b|..j] == middle
  {
    var t := head + b + middle + f + tail;
    var i := |head|;
    var j := i + |b| + |middle|;
    assert t[..i] == head;
    assert t[i..i + |b|] == b;
    assert t[i + |b|..j] == middle;
    assert t[j..j + |f|] == f;
  }

  /**
   * `get_theme_css` on the stored document: the light and dark texts hold a
   * line per declaration, then the extra CSS reads the two dark values
   * through `conf[...]`, where a missing key reads as `None`.
   */
  function ThemeCss(doc: Value): Result<(string, string, string)>
  {
    match LookupOr(doc, Path("colors"), Null)
    case Err(e) => Err(e)
    case Ok(colors) =>
      match Names(colors)
      case Err(e) => Err(e)
      case Ok(names) =>
        match ThemeDecls(colors, names)
        case Err(e) => Err(e)
        case Ok(decls) => WithExtra(doc, Text(decls, false), Text(decls, true))
  }

  /** The extra CSS read after both declaration texts are complete. */
  function WithExtra(doc: Value, light: string, dark: string): Result<(string, string, string)>
  {
    match LookupOr(doc, Path("colors.BUTTON_BG.2"), Null)
    case Err(e) => Err(e)
    case Ok(buttonBg) =>
      match LookupOr(doc, Path("colors.FG.2"), Null)
      case Err(e) => Err(e)
      case Ok(fg) => Ok((light, dark, ExtraCss(buttonBg, fg)))
  }

  /**
   * Every colour laid out the way the palette derivation lays it out:
   * at least four fields, the fourth the colour's CSS name as one text.
   */
  predicate DerivedLayout(colors: Value)
  {
    && colors.Dict?
    && forall k :: 0 <= k < |colors.keys| ==>
         && colors.keys[k] in colors.m
         && colors.m[colors.keys[k]].List?
         && |colors.m[colors.keys[k]].items| >= 4
         && colors.m[colors.keys[k]].items[3] == Str(CssName(colors.keys[k]))
  }

  /** The declaration the derived entry of colour `name` contributes. */
  function DerivedDecl(colors: Value, name: string): Decl
    requires colors.Dict? && name in colors.m && colors.m[name].List? && |colors.m[name].items| >= 4
  {
    var items := colors.m[name].items;
    Decl(CssName(name), Show(items[1]), Show(items[2]))
  }

  /**
   * With that layout, the theme has exactly one declaration per colour, in
   * document order, named by the colour's CSS name and carrying its light
   * and dark values.
   */
  lemma ThemeOfDerivedLayout(colors: Value)
    requires DerivedLayout(colors)
    ensures var ds := ThemeDecls(colors, Names(colors).value);
      && ds.Ok? && |ds.value| == |colors.keys|
      && forall k :: 0 <= k < |colors.keys| ==> ds.value[k] == DerivedDecl(colors, colors.keys[k])
  {
    var names := Names(colors).value;
    LayoutLaysNames(colors, names, |names|);
    assert names[..|names|] == names;
    DerivedThemeDecls(colors, names);
    forall k | 0 <= k < |names|
      ensures DerivedOf(colors, names)[k] == DerivedDecl(colors, colors.keys[k])
    {
      DerivedOfAt(colors, names, k);
    }
  }

  /** The entry `name` selects is laid out as derived. */
  predicate Laid(colors: Value, name: Value)
  {
    && colors.Dict? && name.Str? && name.s in colors.m
    && colors.m[name.s].List? && |colors.m[name.s].items| >= 4
    && colors.m[name.s].items[3] == Str(CssName(name.s))
  }

  /** Every entry the names select is laid out as derived. */
  predicate AllLaid(colors: Value, names: seq<Value>)
    decreases |names|
  {
    names == [] || (AllLaid(colors, names[..|names| - 1]) && Laid(colors, names[|names| - 1]))
  }

  /** The derived declarations of the entries the names select, in order. */
  function DerivedOf(colors: Value, names: seq<Value>): (ds: seq<Decl>)
    requires AllLaid(colors, names)
    ensures |ds| == |names|
    decreases |names|
  {
    if names == [] then []
    else DerivedOf(colors, names[..|names| - 1]) + [DerivedDecl(colors, names[|names| - 1].s)]
  }

  /** Over entries laid out as derived, the loop yields exactly their derived declarations. */
  lemma {:induction false} DerivedThemeDecls(colors: Value, names: seq<Value>)
    requires AllLaid(colors, names)
    ensures ThemeDecls(colors, names) == Ok(DerivedOf(colors, names))
    decreases |names|
  {
    if names != [] {
      var prefix := names[..|names| - 1];
      DerivedThemeDecls(colors, prefix);
      DerivedStep(colors, DerivedOf(colors, prefix), names[|names| - 1]);
    }
  }

  /** A pass of the loop over a derived colour appends that colour's declaration. */
  lemma DerivedStep(colors: Value, acc: seq<Decl>, name: Value)
    requires Laid(colors, name)
    ensures ThemeStep(colors, Ok(acc), name) == Ok(acc + [DerivedDecl(colors, name.s)])
  {
    DerivedEntry(colors, name.s);
  }

  lemma {:induction false} DerivedOfAt(colors: Value, names: seq<Value>, k: nat)
    requires AllLaid(colors, names) && k < |names|
    ensures names[k].Str? && Laid(colors, names[k])
    ensures DerivedOf(colors, names)[k] == DerivedDecl(colors, names[k].s)
    decreases |names|
  {
    if k < |names| - 1 {
      var prefix := names[..|names| - 1];
      DerivedOfAt(colors, prefix, k);
      assert prefix[k] == names[k];
    }
  }

  /** In a derived layout, every prefix of the colour names is laid out as derived. */
  lemma {:induction false} LayoutLaysNames(colors: Value, names: seq<Value>, n: nat)
    requires DerivedLayout(colors) && |names| == |colors.keys| && n <= |names|
    requires forall k :: 0 <= k < |names| ==> names[k] == Str(colors.keys[k])
    ensures AllLaid(colors, names[..n])
  {
    if n > 0 {
      LayoutLaysNames(colors, names, n - 1);
      assert names[..n][..n - 1] == names[..n - 1];
      assert names[..n][n - 1] == Str(colors.keys[n - 1]);
    }
  }

  /** The entry of a colour laid out as derived contributes its one declaration. */
  lemma DerivedEntry(colors: Value, name: string)
    requires colors.Dict? && name in colors.m && colors.m[name].List? && |colors.m[name].items| >= 4
    requires colors.m[name].items[3] == Str(CssName(name))
    ensures Subscript(colors, Str(name)) == Ok(colors.m[name])
    ensures EntryDecls(colors.m[name]) == Ok([DerivedDecl(colors, name)])
  {
    var entry := colors.m[name];
    assert CssNames(entry) == Ok([Str(CssName(name))]);
    EntryDeclAt(entry, 0);
    var ds := EntryDecls(entry).value;
    assert ds == [ds[0]];
  }

  /**
   * `get_theme_css`: reloads the configuration, then builds the light and
   * dark declaration texts entry by entry and the extra CSS.
   */
  method GetThemeCss(conf: ConfigManager) returns (r: Result<(string, string, string)>)
    modifies conf`config
    ensures conf.config == conf.stored
    ensures r == ThemeCss(conf.stored)
  {
    conf.Load();
    var colors := conf.GetItem("colors");
    if colors.Err? {
      return Err(colors.error);
    }
    var names := Names(colors.value);
    if names.Err? {
      return Err(names.error);
    }
    var texts := DeclTexts(colors.value, names.value);
    if texts.Err? {
      return Err(texts.error);
    }
    var buttonBg := conf.GetItem("colors.BUTTON_BG.2");
    if buttonBg.Err? {
      return Err(buttonBg.error);
    }
    var fg := conf.GetItem("colors.FG.2");
    if fg.Err? {
      return Err(fg.error);
    }
    r := Ok((texts.value.0, texts.value.1, ExtraCss(buttonBg.value, fg.value)));
  }

  /** The loop of `get_theme_css`: the light and dark texts, entry by entry. */
  method DeclTexts(colors: Value, names: seq<Value>) returns (r: Result<(string, string)>)
    ensures r == match ThemeDecls(colors, names)
      case Err(e) => Err(e)
      case Ok(decls) => Ok((Text(decls, false), Text(decls, true)))
  {
    var light := "";
    var dark := "";
    ghost var decls: seq<Decl> := [];
    var i := 0;
    while i < |names|
      invariant 0 <= i <= |names|
      invariant ThemeDecls(colors, names[..i]) == Ok(decls)
      invariant light == Text(decls, false) && dark == Text(decls, true)
    {
      ThemeDeclsSnoc(colors, names, i);
      var next := AppendEntry(colors, names[i], decls, light, dark);
      if next.Err? {
        ThemeDeclsStops(colors, names, i + 1);
        return Err(next.error);
      }
      light, dark := next.value.0, next.value.1;
      decls := ThemeStep(colors, Ok(decls), names[i]).value;
      i := i + 1;
    }
    assert names[..i] == names;
    r := Ok((light, dark));
  }

  /** One pass of the outer loop: the texts so far extended by the lines of the entry `name` selects. */
  method AppendEntry(colors: Value, name: Value, ghost decls: seq<Decl>, light: string, dark: string)
    returns (r: Result<(string, string)>)
    requires light == Text(decls, false) && dark == Text(decls, true)
    ensures r.Ok? <==> ThemeStep(colors, Ok(decls), name).Ok?
    ensures r.Err? ==> ThemeStep(colors, Ok(decls), name) == Err(r.error)
    ensures r.Ok? ==> r.value == (Text(ThemeStep(colors, Ok(decls), name).value, false), Text(ThemeStep(colors, Ok(decls), name).value, true))
  {
    var entry := Subscript(colors, name);
    if entry.Err? {
      return Err(entry.error);
    }
    var more := EntryTexts(entry.value);
    if more.Err? {
      return Err(more.error);
    }
    ghost var es := EntryDecls(entry.value).value;
    TextAppend(decls, es, false);
    TextAppend(decls, es, true);
    r := Ok((light + more.value.0, dark + more.value.1));
  }

  /**
   * The inner loop of `get_theme_css`: the lines one entry adds, one per CSS
   * name (appended here to texts of the entry's own, which the outer loop
   * then appends to the running texts).
   */
  method EntryTexts(entry: Value) returns (r: Result<(string, string)>)
    ensures r == match EntryDecls(entry)
      case Err(e) => Err(e)
      case Ok(es) => Ok((Text(es, false), Text(es, true)))
  {
    var css := GetIndex(entry, 3);
    if css.Err? {
      return Err(css.error);
    }
    var cssNames := if css.value.List? then css.value.items else [css.value];
    LowerIndices(entry);
    var light, dark := NameLines(cssNames, Show(GetIndex(entry, 1).value), Show(GetIndex(entry, 2).value));
    r := Ok((light, dark));
  }

  /** One more CSS name adds its line to both texts. */
  lemma LinesStep(css: seq<Value>, lightValue: string, darkValue: string, j: nat)
    requires j < |css|
    ensures var d := Decl(Show(css[j]), lightValue, darkValue);
      && Text(DeclsOf(css[..j + 1], lightValue, darkValue), false) == Text(DeclsOf(css[..j], lightValue, darkValue), false) + Line(d, false)
      && Text(DeclsOf(css[..j + 1], lightValue, darkValue), true) == Text(DeclsOf(css[..j], lightValue, darkValue), true) + Line(d, true)
  {
    var d := Decl(Show(css[j]), lightValue, darkValue);
    DeclsOfSnoc(css, lightValue, darkValue, j);
    TextSnoc(DeclsOf(css[..j], lightValue, darkValue), d, false);
    TextSnoc(DeclsOf(css[..j], lightValue, darkValue), d, true);
  }

  /** The loop over one entry's CSS names: a light and a dark line per name. */
  method NameLines(cssNames: seq<Value>, lightValue: string, darkValue: string) returns (light: string, dark: string)
    ensures light == Text(DeclsOf(cssNames, lightValue, darkValue), false)
    ensures dark == Text(DeclsOf(cssNames, lightValue, darkValue), true)
  {
    light := "";
    dark := "";
    var j := 0;
    while j < |cssNames|
      invariant 0 <= j <= |cssNames|
      invariant light == Text(DeclsOf(cssNames[..j], lightValue, darkValue), false)
      invariant dark == Text(DeclsOf(cssNames[..j], lightValue, darkValue), true)
    {
      var d := Decl(Show(cssNames[j]), lightValue, darkValue);
      LinesStep(cssNames, lightValue, darkValue, j);
      light := light + Line(d, false);
      dark := dark + Line(d, true);
      j := j + 1;
    }
    assert cssNames[..j] == cssNames;
  }
}

=== FILE: errors.dfy ===
/**
 * The exception the configuration dialog's validators raise when a stored
 * value does not have the expected type or range.
 */
module Errors {
  import opened PyText
  import opened PyValues

  /** `InvalidConfigValueError(key, expected, value)`: the constructor only stores its three arguments. */
  datatype InvalidConfigValueError = InvalidConfigValueError(key: string, expected: string, value: Value)
  {
    /** The three lines of `__str__`, before they are joined with newlines. */
    function Lines(): (r: seq<string>)
      ensures |r| == 3
      ensures StartsWith(r[0], "For config: ") && r[0][12..] == key
      ensures StartsWith(r[1], "expected value is: ") && r[1][19..] == expected
      ensures StartsWith(r[2], "but instead encountered: ") && r[2][25..] == Show(value)
    {
      ["For config: " + key, "expected value is: " + expected, "but instead encountered: " + Show(value)]
    }

    /** `__str__`: the key, the expectation and `str(value)`, one per line. */
    function Message(): (r: string)
      ensures StartsWith(r, "For config: " + key)
      ensures |r| == |key| + |expected| + |Show(value)| + 58
    {
      ("For config: " + key) + "\n" + ("expected value is: " + expected) + "\n" + ("but instead encountered: " + Show(value))
    }

    /** None of the fields, as printed, contains a line break. */
    predicate SingleLineFields()
    {
      '\n' !in key && '\n' !in expected && '\n' !in Show(value)
    }
  }

  /** When no field holds a line break, the message splits into exactly the three expected lines. */
  lemma MessageLines(e: InvalidConfigValueError)
    requires e.SingleLineFields()
    ensures Split(e.Message(), '\n') == e.Lines()
  {
    var l0, l1, l2 := "For config: " + e.key, "expected value is: " + e.expected, "but instead encountered: " + Show(e.value);
    LabelsHaveNoBreak();
    assert '\n' !in l0 by { NoBreakAfter("For config: ", e.key); }
    assert '\n' !in l1 by { NoBreakAfter("expected value is: ", e.expected); }
    assert '\n' !in l2 by { NoBreakAfter("but instead encountered: ", Show(e.value)); }
    SplitThree(l0, l1, l2);
  }

  /** Three line-break-free lines joined by line breaks split back into those lines. */
  lemma SplitThree(a: string, b: string, c: string)
    requires '\n' !in a && '\n' !in b && '\n' !in c
    ensures Split(a + "\n" + b + "\n" + c, '\n') == [a, b, c]
  {
    assert a + "\n" + b + "\n" + c == a + "\n" + (b + "\n" + c);
    SplitAtFirstSeparator(b, c, '\n');
    SplitWithoutSeparator(c, '\n');
    SplitAtFirstSeparator(a, b + "\n" + c, '\n');
  }

  /** The three labels of the message are single lines. */
  lemma LabelsHaveNoBreak()
    ensures '\n' !in "For config: " && '\n' !in "expected value is: " && '\n' !in "but instead encountered: "
  {
  }

  /** A line-break-free label followed by a line-break-free field has no line break. */
  lemma NoBreakAfter(head: string, field: string)
    requires '\n' !in head && '\n' !in field
    ensures '\n' !in head + field
  {
  }

  /** The message determines the key, the expectation and the printed value (for single-line fields). */
  lemma MessageDeterminesFields(e1: InvalidConfigValueError, e2: InvalidConfigValueError)
    requires e1.SingleLineFields() && e2.SingleLineFields()
    requires e1.Message() == e2.Message()
    ensures e1.key == e2.key && e1.expected == e2.expected && Show(e1.value) == Show(e2.value)
  {
    MessageLines(e1);
    MessageLines(e2);
    var p0, p1, p2 := "For config: ", "expected value is: ", "but instead encountered: ";
    assert e1.Lines()[0] == e2.Lines()[0] && e1.Lines()[1] == e2.Lines()[1] && e1.Lines()[2] == e2.Lines()[2];
    assert e1.key == (p0 + e1.key)[|p0|..];
    assert e2.key == (p0 + e2.key)[|p0|..];
    assert e1.expected == (p1 + e1.expected)[|p1|..];
    assert e2.expected == (p1 + e2.expected)[|p1|..];
    assert Show(e1.value) == (p2 + Show(e1.value))[|p2|..];
    assert Show(e2.value) == (p2 + Show(e2.value))[|p2|..];
  }
}

=== FILE: extract.dfy ===
/**
 * The colour-entry layout of the add-on's `colors` document and the rules
 * that derive it from a palette module: each colour `FOO_BAR` becomes the
 * entry `[display name, light, dark, css name, comment]`, with display name
 * `Foo Bar` and CSS custom-property name `--foo-bar`.
 */
module ColorEntry {
  import opened PyText
  import opened PyValues

  // ---------------------------------------------------------------------
  // names

  /** `"--" + name.lower().replace("_", "-")`. */
  function CssName(name: string): (r: string)
    ensures StartsWith(r, "--") && |r| == |name| + 2
    ensures '_' !in r
  {
    "--" + ReplaceChar(Lower(name), '_', '-')
  }

  /** One word of the display name: the first character kept, the rest lower-cased; an empty part raises IndexError. */
  function Capitalize(part: string): Result<string>
  {
    if part == "" then Err(IndexError) else Ok([part[0]] + Lower(part[1..]))
  }

  predicate NoEmptyPart(parts: seq<string>)
  {
    forall k :: 0 <= k < |parts| ==> parts[k] != ""
  }

  /** `map(lambda n: n[0] + n[1:].lower(), parts)`, consumed in order. */
  function CapitalizeAll(parts: seq<string>): (r: Result<seq<string>>)
    ensures r.Ok? <==> NoEmptyPart(parts)
    ensures r.Err? ==> r.error == IndexError
    ensures r.Ok? ==> |r.value| == |parts| && forall k :: 0 <= k < |parts| ==> Capitalize(parts[k]) == Ok(r.value[k])
  {
    if parts == [] then Ok([])
    else
      match Capitalize(parts[0])
      case Err(e) => Err(e)
      case Ok(w) =>
        match CapitalizeAll(parts[1..])
        case Err(e) => Err(e)
        case Ok(ws) => Ok([w] + ws)
  }

  /** `" ".join(map(lambda n: n[0] + n[1:].lower(), name.split("_")))`. */
  function DisplayName(name: string): (r: Result<string>)
    ensures r.Ok? <==> NoEmptyPart(Split(name, '_'))
  {
    var parts := Split(name, '_');
    match CapitalizeAll(parts)
    case Err(e) => Err(e)
    case Ok(words) => Ok(Join(" ", words))
  }

  /** A character of a lower-cased text is a space only where the text had one. */
  lemma LowerKeepsSpaces(s: string)
    requires ' ' !in s
    ensures ' ' !in Lower(s)
  {
  }

  /**
   * The display name has as many words as the name has `_`-separated
   * parts (for a name without spaces, as every Python identifier is), and
   * word k is part k capitalized.
   */
  lemma DisplayNameWords(name: string)
    requires ' ' !in name
    requires DisplayName(name).Ok?
    ensures var words := Split(DisplayName(name).value, ' ');
      && |words| == |Split(name, '_')|
      && forall k :: 0 <= k < |words| ==> Capitalize(Split(name, '_')[k]) == Ok(words[k])
  {
    var parts := Split(name, '_');
    var words := CapitalizeAll(parts).value;
    forall k | 0 <= k < |words|
      ensures ' ' !in words[k]
    {
      PartsOfSplitComeFromText(name, '_', k);
      assert ' ' !in parts[k];
      assert words[k] == [parts[k][0]] + Lower(parts[k][1..]);
      assert parts[k][0] in parts[k];
      LowerKeepsSpaces(parts[k][1..]);
    }
    SplitOfJoin(words, ' ');
  }

  /** Every character of a part of a split is a character of the text. */
  lemma {:induction false} PartsOfSplitComeFromText(s: string, sep: char, k: nat)
    requires k < |Split(s, sep)|
    ensures forall c :: c in Split(s, sep)[k] ==> c in s
    decreases |s|
  {
    if s != [] {
      var rest := Split(s[1..], sep);
      if s[0] == sep {
        if k > 0 {
          PartsOfSplitComeFromText(s[1..], sep, k - 1);
        }
      } else if k == 0 {
        PartsOfSplitComeFromText(s[1..], sep, 0);
      } else {
        PartsOfSplitComeFromText(s[1..], sep, k);
      }
    }
  }

  /** An empty part (a leading, trailing or doubled `_`) makes the display name raise IndexError. */
  lemma DoubledUnderscoreRaises(a: string, b: string)
    ensures DisplayName(a + "__" + b) == Err(IndexError)
  {
    var name := a + "__" + b;
    if '_' in a {
      var k :| 0 <= k < |a| && a[k] == '_';
      SplitOfText(a, k);
      var i :| 0 <= i < |a| && a[i] == '_' && '_' !in a[..i];
      assert name == a[..i] + ['_'] + (a[i + 1..] + "__" + b);
      SplitAtFirstSeparator(a[..i], a[i + 1..] + "__" + b, '_');
      DoubledUnderscoreRaises(a[i + 1..], b);
      assert CapitalizeAll(Split(a[i + 1..] + "__" + b, '_')).Err?;
    } else {
      assert name == a + ['_'] + ("_" + b);
      SplitAtFirstSeparator(a, "_" + b, '_');
      assert "_" + b == [] + ['_'] + b;
      SplitAtFirstSeparator([], b, '_');
      assert Split(name, '_')[1] == "";
    }
  }

  /** A text with a separator has a first one. */
  lemma SplitOfText(a: string, k: nat)
    requires k < |a| && a[k] == '_'
    ensures exists i :: 0 <= i < |a| && a[i] == '_' && '_' !in a[..i]
    decreases k
  {
    if '_' in a[..k] {
      var j :| 0 <= j < k && a[..k][j] == '_';
      SplitOfText(a, j);
    } else {
      assert 0 <= k < |a| && a[k] == '_' && '_' !in a[..k];
    }
  }

  /** `d` is `n` with `_` read as a space and letters in any case. */
  predicate SameUpToCase(d: string, n: string)
  {
    && |d| == |n|
    && forall k :: 0 <= k < |n| ==> (n[k] == '_' <==> d[k] == ' ') && (n[k] != '_' ==> LowerChar(d[k]) == LowerChar(n[k]))
  }

  lemma {:induction false} SameUpToCaseConcat(d1: string, n1: string, d2: string, n2: string)
    requires SameUpToCase(d1, n1) && SameUpToCase(d2, n2)
    ensures SameUpToCase(d1 + " " + d2, n1 + "_" + n2)
  {
    var d, n := d1 + " " + d2, n1 + "_" + n2;
    forall k | 0 <= k < |n|
      ensures (n[k] == '_' <==> d[k] == ' ') && (n[k] != '_' ==> LowerChar(d[k]) == LowerChar(n[k]))
    {
      if k < |n1| {
        assert n[k] == n1[k] && d[k] == d1[k];
      } else if k > |n1| {
        assert n[k] == n2[k - |n1| - 1] && d[k] == d2[k - |n1| - 1];
      }
    }
  }

  /** Lower-casing ignores the case of the first letter. */
  lemma LowerOfCapitalized(p: string)
    requires p != "" && '_' !in p && ' ' !in p
    ensures SameUpToCase(Capitalize(p).value, p)
  {
    var w := Capitalize(p).value;
    forall k | 0 <= k < |p|
      ensures (p[k] == '_' <==> w[k] == ' ') && (p[k] != '_' ==> LowerChar(w[k]) == LowerChar(p[k]))
    {
      assert p[k] in p;
      if k > 0 {
        assert w[k] == LowerChar(p[k]);
      }
    }
  }

  lemma {:induction false} JoinSameUpToCase(parts: seq<string>, words: seq<string>)
    requires |parts| == |words| >= 1
    requires forall k :: 0 <= k < |parts| ==> SameUpToCase(words[k], parts[k])
    ensures SameUpToCase(Join(" ", words), Join("_", parts))
    decreases |parts|
  {
    if |parts| > 1 {
      JoinSameUpToCase(parts[1..], words[1..]);
      SameUpToCaseConcat(words[0], parts[0], Join(" ", words[1..]), Join("_", parts[1..]));
    }
  }

  /**
   * The two derivations agree: the CSS name is the display name lower-cased
   * with its spaces turned into hyphens, behind `--`.
   */
  lemma CssNameFromDisplayName(name: string)
    requires ' ' !in name
    requires DisplayName(name).Ok?
    ensures CssName(name) == "--" + ReplaceChar(Lower(DisplayName(name).value), ' ', '-')
  {
    var parts := Split(name, '_');
    var words := CapitalizeAll(parts).value;
    forall k | 0 <= k < |parts|
      ensures SameUpToCase(words[k], parts[k])
    {
      PartsOfSplitComeFromText(name, '_', k);
      assert ' ' !in parts[k];
      LowerOfCapitalized(parts[k]);
    }
    JoinSameUpToCase(parts, words);
    JoinOfSplit(name, '_');
    var d := DisplayName(name).value;
    assert d == Join(" ", words);
    assert Join("_", parts) == name;
    var a, b := ReplaceChar(Lower(d), ' ', '-'), ReplaceChar(Lower(name), '_', '-');
    forall k | 0 <= k < |name|
      ensures a[k] == b[k]
    {
      if name[k] != '_' {
        assert d[k] != ' ';
      }
    }
    assert a == b;
  }

  // ---------------------------------------------------------------------
  // the entry layout

  /** `[display_name, color["light"], color["dark"], css_name, color["comment"]]`. */
  function Entry(name: string, color: Value): Result<Value>
  {
    match DisplayName(name)
    case Err(e) => Err(e)
    case Ok(display) =>
      match GetKey(color, "light")
      case Err(e) => Err(e)
      case Ok(light) =>
        match GetKey(color, "dark")
        case Err(e) => Err(e)
        case Ok(dark) =>
          match GetKey(color, "comment")
          case Err(e) => Err(e)
          case Ok(comment) => Ok(List([Str(display), light, dark, Str(CssName(name)), comment]))
  }

  /** `entry[1]`, the light-mode value. */
  function Light(entry: Value): Result<Value>
  {
    GetIndex(entry, 1)
  }

  /** `entry[2]`, the dark-mode value. */
  function Dark(entry: Value): Result<Value>
  {
    GetIndex(entry, 2)
  }

  /** The CSS names of an entry: `entry[3]`, a scalar counting as a one-element list. */
  function CssNames(entry: Value): Result<seq<Value>>
  {
    match GetIndex(entry, 3)
    case Err(e) => Err(e)
    case Ok(css) => Ok(if css.List? then css.items else [css])
  }

  /**
   * A derived entry has five fields: the display name, the palette's light
   * and dark values, one CSS name, and the comment. It fails exactly when
   * the display name does or the palette colour lacks a field.
   */
  lemma EntryLayout(name: string, color: Value)
    ensures Entry(name, color).Ok? <==>
      DisplayName(name).Ok? && color.Dict? && "light" in color.m && "dark" in color.m && "comment" in color.m
    ensures Entry(name, color).Ok? ==>
      var e := Entry(name, color).value;
      && e.List? && |e.items| == 5
      && e.items[0] == Str(DisplayName(name).value)
      && Light(e) == Ok(color.m["light"]) && Dark(e) == Ok(color.m["dark"])
      && CssNames(e) == Ok([Str(CssName(name))])
      && e.items[4] == color.m["comment"]
  {
  }

  // ---------------------------------------------------------------------
  // building the document

  /** `[item for item in names if not item.startswith("__")]`. */
  function PublicNames(names: seq<string>): (r: seq<string>)
    ensures forall n :: n in r <==> n in names && !StartsWith(n, "__")
    ensures |r| <= |names|
    ensures Distinct(names) ==> Distinct(r)
  {
    if names == [] then []
    else
      var rest := PublicNames(names[1..]);
      assert Distinct(names) ==> names[0] !in names[1..];
      DistinctCons(names[0], rest);
      (if StartsWith(names[0], "__") then [] else [names[0]]) + rest
  }

  /** The filter works piecewise, so the kept names stay in the order of `names`. */
  lemma {:induction false} PublicNamesConcat(a: seq<string>, b: seq<string>)
    ensures PublicNames(a + b) == PublicNames(a) + PublicNames(b)
    decreases |a|
  {
    if a != [] {
      assert (a + b)[0] == a[0] && (a + b)[1..] == a[1..] + b;
      PublicNamesConcat(a[1..], b);
    } else {
      assert a + b == b;
    }
  }

  /** Inserting the next attribute keeps the mapping's keys in the order of `names` and the earlier entries as they were. */
  lemma InsertNext(config: Value, names: seq<string>, i: nat, v: Value)
    requires Distinct(names) && i < |names|
    requires config.Dict? && config.keys == names[..i]
    requires config.m.Keys == set k | 0 <= k < i :: names[k]
    ensures var c := Insert(config, names[i], v);
      && c.Dict? && c.keys == names[..i + 1]
      && c.m.Keys == (set k | 0 <= k < i + 1 :: names[k])
      && c.m[names[i]] == v
      && forall k :: 0 <= k < i ==> c.m[names[k]] == config.m[names[k]]
  {
    assert names[i] !in config.m;
    assert names[..i + 1] == names[..i] + [names[i]];
  }

  /**
   * The loop that fills `config`: one entry per name, keyed by the name, in
   * the order of the names. `attrs` stands for the palette module's
   * attributes; `names` lists distinct attributes, as `dir` does.
   */
  method BuildConfig(names: seq<string>, attrs: map<string, Value>) returns (r: Result<Value>)
    requires Distinct(names)
    requires forall k :: 0 <= k < |names| ==> names[k] in attrs
    ensures r.Ok? <==> forall k :: 0 <= k < |names| ==> Entry(names[k], attrs[names[k]]).Ok?
    ensures r.Ok? ==> r.value.Dict? && r.value.keys == names && r.value.m.Keys == set k | 0 <= k < |names| :: names[k]
    ensures r.Ok? ==> forall k :: 0 <= k < |names| ==> r.value.m[names[k]] == Entry(names[k], attrs[names[k]]).value
  {
    var config := EmptyDict();
    var i := 0;
    while i < |names|
      invariant 0 <= i <= |names|
      invariant config.Dict? && config.keys == names[..i]
      invariant config.m.Keys == set k | 0 <= k < i :: names[k]
      invariant forall k :: 0 <= k < i ==> Entry(names[k], attrs[names[k]]).Ok?
      invariant forall k :: 0 <= k < i ==> config.m[names[k]] == Entry(names[k], attrs[names[k]]).value
    {
      var name := names[i];
      var entry := Entry(name, attrs[name]);
      if entry.Err? {
        return Err(entry.error);
      }
      InsertNext(config, names, i, entry.value);
      config := Insert(config, name, entry.value);
      i := i + 1;
    }
    assert names[..i] == names;
    return Ok(config);
  }

  /**
   * The script's top level: the public names among the module's attributes
   * (`dir` lists each once), then one entry per public name. The keys are
   * exactly the attributes not starting with `__`, in `dir`'s order.
   */
  method ExtractConfig(attrNames: seq<string>, attrs: map<string, Value>) returns (r: Result<Value>)
    requires Distinct(attrNames)
    requires forall n :: n in attrNames ==> n in attrs
    ensures r.Ok? ==> r.value.Dict? && r.value.keys == PublicNames(attrNames)
    ensures r.Ok? ==> forall n :: n in r.value.m <==> n in attrNames && !StartsWith(n, "__")
    ensures r.Ok? <==> forall n :: n in attrNames && !StartsWith(n, "__") ==> Entry(n, attrs[n]).Ok?
    ensures r.Ok? ==> forall n :: n in r.value.m ==> r.value.m[n] == Entry(n, attrs[n]).value
  {
    var names := PublicNames(attrNames);
    assert forall k :: 0 <= k < |names| ==> names[k] in names;
    r := BuildConfig(names, attrs);
    if r.Ok? {
      forall n | n in r.value.m
        ensures n in names
      {
        var k :| 0 <= k < |names| && names[k] == n;
      }
    }
  }
}

=== FILE: hexcolor.dfy ===
/**
 * The colour-string helpers of the migration: `darken`, which adds the same
 * amount to the red, green and blue channels of a `#RRGGBB` string, and
 * `adjust_alpha`, which appends a scaled alpha byte to a colour in the
 * hexadecimal notation of CSS Color Module Level 4, section 5.2 (`#RGB`,
 * `#RRGGBB`, `#RRGGBBAA`) or to the keywords `white` and `black`.
 */
module HexColor {
  import opened PyText
  import opened PyValues

  /** `max(0, min(16 ** 2 - 1, c))`. */
  function Clamp(c: int): (r: int)
    ensures 0 <= r <= 255
    ensures 0 <= c <= 255 ==> r == c
    ensures c < 0 ==> r == 0
    ensures c > 255 ==> r == 255
  {
    if c < 0 then 0 else if c > 255 then 255 else c
  }

  /** `int("", 16)` raises, so a channel that parses was not empty. */
  lemma EmptyIsNotInt(base: nat)
    requires base == 10 || base == 16
    ensures ParseInt("", base).None?
  {
    assert StripSpace("") == "";
  }

  /** The three channels `darken` reads: `int(hex[1:3], 16)`, `int(hex[3:5], 16)`, `int(hex[5:7], 16)`. */
  function Channels(hex: string): Option<(int, int, int)>
  {
    match (ParseInt(Slice(hex, 1, 3), 16), ParseInt(Slice(hex, 3, 5), 16), ParseInt(Slice(hex, 5, 7), 16))
    case (Some(r), Some(g), Some(b)) => Some((r, g, b))
    case _ => None
  }

  /**
   * `darken(hex, amount)`: the first character, the three channels each moved
   * by `by` and clamped to a byte as two upper-case hex digits, then
   * everything after the sixth hex digit. A channel that is not hex raises
   * ValueError.
   */
  function Darken(hex: string, amount: int): (r: Result<string>)
    ensures r.Ok? <==> Channels(hex).Some?
  {
    match Channels(hex)
    case None => Err(ValueError)
    case Some(c) =>
      EmptyIsNotInt(16);
      assert Slice(hex, 1, 3) != "";
      Ok(Paint(hex[0], c, amount, Slice(hex, 7, |hex|)))
  }

  /** `"%s%0.2X%0.2X%0.2X%s" % (first, r, g, b, tail)` after moving and clamping the channels. */
  function Paint(first: char, c: (int, int, int), amount: int, tail: string): string
  {
    [first] + Hex02(Clamp(c.0 + amount)) + Hex02(Clamp(c.1 + amount)) + Hex02(Clamp(c.2 + amount)) + tail
  }

  /**
   * What `darken` promises: the first character and the tail after position
   * 7 are kept, and each channel becomes `clamp(c + amount)` written as two
   * upper-case hex digits.
   */
  lemma DarkenChannels(hex: string, amount: int)
    requires Channels(hex).Some?
    ensures var c := Channels(hex).value;
      var out := Darken(hex, amount).value;
      && |out| == 7 + |Slice(hex, 7, |hex|)|
      && out[0] == hex[0]
      && out[7..] == Slice(hex, 7, |hex|)
      && out[1..3] == Hex02(Clamp(c.0 + amount))
      && out[3..5] == Hex02(Clamp(c.1 + amount))
      && out[5..7] == Hex02(Clamp(c.2 + amount))
  {
    var c := Channels(hex).value;
    var hr, hg, hb := Hex02(Clamp(c.0 + amount)), Hex02(Clamp(c.1 + amount)), Hex02(Clamp(c.2 + amount));
    Hex02Shape(Clamp(c.0 + amount));
    Hex02Shape(Clamp(c.1 + amount));
    Hex02Shape(Clamp(c.2 + amount));
    Layout(hex[0], hr, hg, hb, Slice(hex, 7, |hex|));
  }

  /** Where the pieces of a `#RRGGBB...` string sit. */
  lemma Layout(h0: char, a: string, b: string, c: string, tail: string)
    requires |a| == 2 && |b| == 2 && |c| == 2
    ensures var out := [h0] + a + b + c + tail;
      && |out| == 7 + |tail| && out[0] == h0
      && out[1..3] == a && out[3..5] == b && out[5..7] == c && out[7..] == tail
      && out[1] == a[0] && out[2] == a[1] && out[3] == b[0] && out[4] == b[1] && out[5] == c[0] && out[6] == c[1]
  {
    var out := [h0] + a + b + c + tail;
    assert out[1..3] == a;
    assert out[3..5] == b;
    assert out[5..7] == c;
  }

  /** Reading the channels of the result gives back the moved and clamped channels. */
  lemma DarkenReadsBack(hex: string, amount: int)
    requires Channels(hex).Some?
    ensures var c := Channels(hex).value;
      Channels(Darken(hex, amount).value) == Some((Clamp(c.0 + amount), Clamp(c.1 + amount), Clamp(c.2 + amount)))
  {
    var c := Channels(hex).value;
    var out := Darken(hex, amount).value;
    DarkenChannels(hex, amount);
    ReadChannels(out, Clamp(c.0 + amount), Clamp(c.1 + amount), Clamp(c.2 + amount));
  }

  /** A string whose positions 1-6 hold three rendered bytes has those bytes as its channels. */
  lemma ReadChannels(s: string, r: int, g: int, b: int)
    requires 0 <= r < 256 && 0 <= g < 256 && 0 <= b < 256
    requires |s| >= 7 && s[1..3] == Hex02(r) && s[3..5] == Hex02(g) && s[5..7] == Hex02(b)
    ensures Channels(s) == Some((r, g, b))
  {
    Hex02OfByte(r);
    Hex02OfByte(g);
    Hex02OfByte(b);
    assert Slice(s, 1, 3) == Hex02(r) && Slice(s, 3, 5) == Hex02(g) && Slice(s, 5, 7) == Hex02(b);
  }

  /**
   * A positive amount raises every channel that is a byte, so the function
   * lightens whatever its name says; a negative amount lowers it.
   */
  lemma DarkenDirection(hex: string, amount: int)
    requires Channels(hex).Some?
    requires var c := Channels(hex).value; 0 <= c.0 <= 255 && 0 <= c.1 <= 255 && 0 <= c.2 <= 255
    ensures var c := Channels(hex).value;
      var d := Channels(Darken(hex, amount).value);
      && d.Some?
      && (amount >= 0 ==> d.value.0 >= c.0 && d.value.1 >= c.1 && d.value.2 >= c.2)
      && (amount <= 0 ==> d.value.0 <= c.0 && d.value.1 <= c.1 && d.value.2 <= c.2)
  {
    DarkenReadsBack(hex, amount);
  }

  /** `#RRGGBB` written with upper-case digits. */
  function CanonicalHex(r: int, g: int, b: int): string
  {
    "#" + Hex02(r) + Hex02(g) + Hex02(b)
  }

  /** On an upper-case `#RRGGBB` colour, `darken` reads back the channels it was written with. */
  lemma DarkenOfCanonical(r: int, g: int, b: int, amount: int)
    requires 0 <= r < 256 && 0 <= g < 256 && 0 <= b < 256
    ensures Darken(CanonicalHex(r, g, b), amount) == Ok(CanonicalHex(Clamp(r + amount), Clamp(g + amount), Clamp(b + amount)))
  {
    var hex := CanonicalHex(r, g, b);
    Hex02Shape(r);
    Hex02Shape(g);
    Hex02Shape(b);
    Layout('#', Hex02(r), Hex02(g), Hex02(b), "");
    assert hex == ['#'] + Hex02(r) + Hex02(g) + Hex02(b) + "";
    ReadChannels(hex, r, g, b);
    DarkenOfSevenChars(hex, r, g, b, amount);
  }

  lemma DarkenOfSevenChars(hex: string, r: int, g: int, b: int, amount: int)
    requires |hex| == 7 && hex[0] == '#' && Channels(hex) == Some((r, g, b))
    ensures Darken(hex, amount) == Ok(CanonicalHex(Clamp(r + amount), Clamp(g + amount), Clamp(b + amount)))
  {
    assert Slice(hex, 7, |hex|) == "";
    assert Darken(hex, amount) == Ok(Paint('#', (r, g, b), amount, ""));
    PaintCanonical(r, g, b, amount);
  }

  lemma PaintCanonical(r: int, g: int, b: int, amount: int)
    ensures Paint('#', (r, g, b), amount, "") == CanonicalHex(Clamp(r + amount), Clamp(g + amount), Clamp(b + amount))
  {
    assert ['#'] == "#";
  }

  /** `darken(hex, 0)` gives back an upper-case `#RRGGBB` colour unchanged. */
  lemma DarkenByZero(r: int, g: int, b: int)
    requires 0 <= r < 256 && 0 <= g < 256 && 0 <= b < 256
    ensures Darken(CanonicalHex(r, g, b), 0) == Ok(CanonicalHex(r, g, b))
  {
    DarkenOfCanonical(r, g, b, 0);
  }

  /** White saturates: `darken("#FFFFFF", 5)` is `"#FFFFFF"` again. */
  lemma DarkenSaturatesAtWhite()
    ensures Darken("#FFFFFF", 5) == Ok("#FFFFFF")
  {
    assert Hex02(255) == "FF" by {
      assert Digits(255, 16) == Digits(15, 16) + [DigitChar(15)];
    }
    assert CanonicalHex(255, 255, 255) == "#FFFFFF";
    DarkenOfCanonical(255, 255, 255, 5);
  }

  /** `darken` applied to a stored value: only strings can be sliced and parsed. */
  function DarkenValue(v: Value, amount: int): (r: Result<Value>)
    ensures v.Str? ==> (r.Ok? <==> Darken(v.s, amount).Ok?)
    ensures !v.Str? ==> r == Err(TypeError)
  {
    match v
    case Str(s) =>
      (match Darken(s, amount)
       case Ok(t) => Ok(Str(t))
       case Err(e) => Err(e))
    case _ => Err(TypeError)
  }

  // ---------------------------------------------------------------------
  // adjust_alpha

  /** `int(x * by)` for `by == num / den`: the product truncated toward zero. */
  function ScaleTrunc(x: int, num: int, den: nat): (r: int)
    requires den > 0
  {
    var p := x * num;
    if p >= 0 then p / den else 0 - ((0 - p) / den)
  }

  /** The migration calls `adjust_alpha(color, 0.4)`; truncating `x * 0.4` keeps a byte a byte and never raises it. */
  lemma ScaleByteByTwoFifths(x: int)
    requires 0 <= x < 256
    ensures 0 <= ScaleTrunc(x, 2, 5) <= x
    ensures ScaleTrunc(x, 2, 5) * 5 <= x * 2 < ScaleTrunc(x, 2, 5) * 5 + 5
  {
  }

  /** `[r, g, b, a] = map(int, color.split(")")[0].split(","))`: four integers, else ValueError. */
  function RgbaParts(color: string): (r: Result<(int, int, int, int)>)
  {
    var parts := Split(Split(color, ')')[0], ',');
    match ParseInt(parts[0], 10)
    case None => Err(ValueError)
    case Some(red) =>
      if |parts| < 2 then Err(ValueError)
      else match ParseInt(parts[1], 10)
        case None => Err(ValueError)
        case Some(green) =>
          if |parts| < 3 then Err(ValueError)
          else match ParseInt(parts[2], 10)
            case None => Err(ValueError)
            case Some(blue) =>
              if |parts| < 4 then Err(ValueError)
              else match ParseInt(parts[3], 10)
                case None => Err(ValueError)
                case Some(alpha) => if |parts| > 4 then Err(ValueError) else Ok((red, green, blue, alpha))
  }

  /** The `rgba` branch: the body is rebuilt from the decimal channels and the alpha is the fourth number. */
  function RgbaBranch(color: string, num: int, den: nat): Result<string>
    requires den > 0
  {
    match RgbaParts(color)
    case Err(e) => Err(e)
    case Ok(p) => Ok("#" + Hex02(p.0) + Hex02(p.1) + Hex02(p.2) + Hex02(ScaleTrunc(p.3, num, den)))
  }

  /** `adjust_alpha(color, by)` as written, with `by == num / den`. */
  function AdjustAlphaAsWritten(color: string, num: int, den: nat): Result<string>
    requires den > 0
  {
    var full := Hex02(ScaleTrunc(255, num, den));
    if StartsWith(color, "#") then
      if |color| == 9 then
        (match ParseInt(Slice(color, 8, 10), 16)
         case None => Err(ValueError)
         case Some(a) => Ok(color[0..8] + Hex02(ScaleTrunc(a, num, den))))
      else if |color| == 7 then Ok(color + full)
      else if |color| == 4 then Ok("#" + [color[0], color[0]] + [color[1], color[1]] + [color[2], color[2]] + full)
      else Err(UnboundLocalError)
    else if StartsWith(color, "rgba") then RgbaBranch(color, num, den)
    else if color == "white" then Ok("#ffffff" + full)
    else if color == "black" then Ok("#000000" + full)
    else Ok(color)
  }

  /**
   * `adjust_alpha` as evidently intended: the alpha of `#RRGGBBAA` is the
   * pair at positions 7-8 and the body the first seven characters, and
   * `#RGB` doubles each of its three digits.
   */
  function AdjustAlpha(color: string, num: int, den: nat): Result<string>
    requires den > 0
  {
    var full := Hex02(ScaleTrunc(255, num, den));
    if StartsWith(color, "#") then
      if |color| == 9 then
        (match ParseInt(color[7..9], 16)
         case None => Err(ValueError)
         case Some(a) => Ok(color[0..7] + Hex02(ScaleTrunc(a, num, den))))
      else if |color| == 7 then Ok(color + full)
      else if |color| == 4 then Ok("#" + [color[1], color[1]] + [color[2], color[2]] + [color[3], color[3]] + full)
      else Err(UnboundLocalError)
    else if StartsWith(color, "rgba") then RgbaBranch(color, num, den)
    else if color == "white" then Ok("#ffffff" + full)
    else if color == "black" then Ok("#000000" + full)
    else Ok(color)
  }

  /** Text that starts with `rgba` is never an integer, so the `rgba` branch always raises ValueError. */
  lemma RgbaBranchRaises(color: string, num: int, den: nat)
    requires den > 0 && StartsWith(color, "rgba")
    ensures RgbaBranch(color, num, den) == Err(ValueError)
    ensures AdjustAlphaAsWritten(color, num, den) == Err(ValueError)
    ensures AdjustAlpha(color, num, den) == Err(ValueError)
  {
    SplitKeepsPrefix(color, "rgba", ')');
    var first := Split(color, ')')[0];
    SplitKeepsPrefix(first, "rgba", ',');
    var word := Split(first, ',')[0];
    assert word[0] == 'r';
    LetterIsNotInt(word, 10);
    assert color[0] == 'r';
  }

  /** The first part of a split starts with any separator-free prefix of the text. */
  lemma {:induction false} SplitKeepsPrefix(s: string, p: string, sep: char)
    requires StartsWith(s, p) && sep !in p
    ensures StartsWith(Split(s, sep)[0], p)
    decreases |p|
  {
    if p != [] {
      assert s[0] == p[0] && p[0] != sep;
      assert s[1..][..|p| - 1] == p[1..];
      SplitKeepsPrefix(s[1..], p[1..], sep);
    }
  }

  /**
   * With the factor 0.4 the migration uses, the corrected function keeps the
   * `#RRGGBB` body of a `#RRGGBBAA` colour and replaces its alpha by
   * `int(alpha * 0.4)`, which is again a byte.
   */
  lemma AdjustAlphaNineChar(color: string)
    requires StartsWith(color, "#") && |color| == 9
    requires ParseInt(color[7..9], 16).Some? && 0 <= ParseInt(color[7..9], 16).value < 256
    ensures var a := ParseInt(color[7..9], 16).value;
      var out := AdjustAlpha(color, 2, 5);
      && out.Ok? && |out.value| == 9 && out.value[..7] == color[..7]
      && ParseInt(out.value[7..9], 16) == Some(ScaleTrunc(a, 2, 5))
      && ScaleTrunc(a, 2, 5) <= a
  {
    var a := ParseInt(color[7..9], 16).value;
    ScaleByteByTwoFifths(a);
    Hex02OfByte(ScaleTrunc(a, 2, 5));
    var out := AdjustAlpha(color, 2, 5).value;
    assert out == color[0..7] + Hex02(ScaleTrunc(a, 2, 5));
    assert out[7..9] == Hex02(ScaleTrunc(a, 2, 5));
  }

  /**
   * With the factor 0.4, the corrected function expands `#RGB` to `#RRGGBB`
   * and appends the alpha `0x66`, which is `int(255 * 0.4)`.
   */
  lemma AdjustAlphaFourChar(color: string)
    requires StartsWith(color, "#") && |color| == 4
    ensures var out := AdjustAlpha(color, 2, 5);
      && out.Ok? && |out.value| == 9 && out.value[0] == '#'
      && (forall k :: 1 <= k < 7 ==> out.value[k] == color[(k + 1) / 2])
      && out.value[7..] == "66"
  {
    FullAlpha();
  }

  /** A `#RRGGBB` colour keeps its body and gains the alpha `0x66` at the factor 0.4. */
  lemma AdjustAlphaSevenChar(color: string)
    requires StartsWith(color, "#") && |color| == 7
    ensures AdjustAlpha(color, 2, 5) == Ok(color + "66")
    ensures AdjustAlphaAsWritten(color, 2, 5) == Ok(color + "66")
  {
    FullAlpha();
  }

  /** The keywords `white` and `black` become their hexadecimal form with alpha `0x66`; other non-hex names pass through. */
  lemma AdjustAlphaKeywords(color: string)
    requires !StartsWith(color, "#") && !StartsWith(color, "rgba")
    ensures color == "white" ==> AdjustAlpha(color, 2, 5) == Ok("#ffffff66")
    ensures color == "black" ==> AdjustAlpha(color, 2, 5) == Ok("#00000066")
    ensures color != "white" && color != "black" ==> AdjustAlpha(color, 2, 5) == Ok(color)
  {
    FullAlpha();
    assert "#ffffff" + "66" == "#ffffff66";
    assert "#000000" + "66" == "#00000066";
  }

  /** `int(255 * 0.4)` is 102, written `66`. */
  lemma FullAlpha()
    ensures ScaleTrunc(255, 2, 5) == 102
    ensures Hex02(ScaleTrunc(255, 2, 5)) == "66"
  {
    assert Digits(102, 16) == Digits(6, 16) + [DigitChar(6)];
  }

  /** A `#` colour of any other length leaves `body` unbound. */
  lemma AdjustAlphaOtherLength(color: string, num: int, den: nat)
    requires den > 0 && StartsWith(color, "#") && |color| != 4 && |color| != 7 && |color| != 9
    ensures AdjustAlpha(color, num, den) == Err(UnboundLocalError)
    ensures AdjustAlphaAsWritten(color, num, den) == Err(UnboundLocalError)
  {
  }

  /** Both versions agree on every input but the 9- and 4-character `#` forms. */
  lemma AdjustAlphaVersionsAgree(color: string, num: int, den: nat)
    requires den > 0
    requires !(StartsWith(color, "#") && (|color| == 9 || |color| == 4))
    ensures AdjustAlphaAsWritten(color, num, den) == AdjustAlpha(color, num, den)
  {
  }

  /** As written, a 9-character colour loses its last digit to the body and keeps one alpha digit: `#11223344` at 0.4 becomes `#112233401`. */
  lemma AsWrittenNineCharCounterexample()
    ensures AdjustAlphaAsWritten("#11223344", 2, 5) == Ok("#112233401")
    ensures AdjustAlpha("#11223344", 2, 5) == Ok("#1122331B")
  {
    var color := "#11223344";
    assert StartsWith(color, "#");
    assert Slice(color, 8, 10) == "4";
    assert ParseInt("4", 16) == Some(4) by {
      assert StripSpace("4") == "4";
    }
    assert ScaleTrunc(4, 2, 5) == 1;
    assert Hex02(1) == "01";
    assert color[0..8] + "01" == "#112233401";
    assert color[7..9] == "44";
    assert ParseInt("44", 16) == Some(68) by {
      assert StripSpace("44") == "44";
      assert "44"[..1] == "4";
    }
    assert ScaleTrunc(68, 2, 5) == 27;
    assert Hex02(27) == "1B" by {
      assert Digits(27, 16) == Digits(1, 16) + [DigitChar(11)];
    }
    assert color[0..7] + "1B" == "#1122331B";
  }

  /** As written, `#abc` doubles the `#` and drops the last digit: `#abc` at 0.4 becomes `###aabb66`. */
  lemma AsWrittenFourCharCounterexample()
    ensures AdjustAlphaAsWritten("#abc", 2, 5) == Ok("###aabb66")
    ensures AdjustAlpha("#abc", 2, 5) == Ok("#aabbcc66")
  {
    var color := "#abc";
    assert StartsWith(color, "#");
    FullAlpha();
    assert "#" + [color[0], color[0]] + [color[1], color[1]] + [color[2], color[2]] + "66" == "###aabb66";
    assert "#" + [color[1], color[1]] + [color[2], color[2]] + [color[3], color[3]] + "66" == "#aabbcc66";
  }

  /** `adjust_alpha` applied to a stored value: only strings have `startswith`. */
  function AdjustAlphaValue(v: Value, num: int, den: nat): (r: Result<Value>)
    requires den > 0
    ensures v.Str? ==> (r.Ok? <==> AdjustAlpha(v.s, num, den).Ok?)
    ensures v.Str? && r.Ok? ==> r.value == Str(AdjustAlpha(v.s, num, den).value)
    ensures !v.Str? ==> r == Err(AttributeError)
  {
    match v
    case Str(s) =>
      (match AdjustAlpha(s, num, den)
       case Ok(t) => Ok(Str(t))
       case Err(e) => Err(e))
    case _ => Err(AttributeError)
  }
}

=== FILE: manager.dfy ===
/**
 * The add-on configuration manager: a live document, a default document and
 * the host's persisted copy, read and written through dotted keys such as
 * `colors.CANVAS.1`. A segment is read as an integer when the node it
 * applies to is a list.
 */
module Manager {
  import opened PyText
  import opened PyValues

  // ---------------------------------------------------------------------
  // reading a path

  /** One iteration of `get_from_dict`'s loop: `node[level]`, with `level` made an int on lists. */
  function Step(v: Value, seg: string): (r: Result<Value>)
    ensures v.Dict? ==> r == GetKey(v, seg)
    ensures !v.Dict? && !v.List? ==> r == Err(TypeError)
  {
    match v
    case List(items) =>
      (match ParseInt(seg, 10)
       case None => Err(ValueError)
       case Some(i) => GetIndex(v, i))
    case Dict(_, m) => if seg in m then Ok(m[seg]) else Err(KeyError)
    case _ => Err(TypeError)
  }

  /** The value `get_from_dict` returns (as a deep copy: values here never alias) or the exception it raises. */
  function Lookup(v: Value, segs: seq<string>): Result<Value>
    decreases |segs|
  {
    if segs == [] then Ok(v)
    else match Step(v, segs[0])
      case Err(e) => Err(e)
      case Ok(c) => Lookup(c, segs[1..])
  }

  /** `get(key, default)`: a missing mapping key gives the fallback; every other exception propagates. */
  function LookupOr(v: Value, segs: seq<string>, fallback: Value): (r: Result<Value>)
    ensures Lookup(v, segs).Ok? ==> r == Lookup(v, segs)
    ensures Lookup(v, segs) == Err(KeyError) ==> r == Ok(fallback)
    ensures Lookup(v, segs).Err? && Lookup(v, segs).error != KeyError ==> r == Lookup(v, segs)
  {
    match Lookup(v, segs)
    case Ok(x) => Ok(x)
    case Err(e) => if e == KeyError then Ok(fallback) else Err(e)
  }

  /** `key in conf`: true when the lookup succeeds, false on a KeyError, otherwise the exception. */
  function Has(v: Value, segs: seq<string>): (r: Result<bool>)
    ensures r == Ok(true) <==> Lookup(v, segs).Ok?
    ensures r == Ok(false) <==> Lookup(v, segs) == Err(KeyError)
    ensures r.Err? <==> Lookup(v, segs).Err? && Lookup(v, segs).error != KeyError
  {
    match Lookup(v, segs)
    case Ok(_) => Ok(true)
    case Err(e) => if e == KeyError then Ok(false) else Err(e)
  }

  /** The segments of a dotted key: Python's `key.split(".")`. */
  function Path(key: string): (segs: seq<string>)
    ensures |segs| >= 1
    ensures forall k :: 0 <= k < |segs| ==> '.' !in segs[k]
    ensures Join(".", segs) == key
  {
    JoinOfSplit(key, '.');
    Split(key, '.')
  }

  function Parent(segs: seq<string>): seq<string>
    requires |segs| >= 1
  {
    segs[..|segs| - 1]
  }

  function Last(segs: seq<string>): string
    requires |segs| >= 1
  {
    segs[|segs| - 1]
  }

  // ---------------------------------------------------------------------
  // contexts: a node with one child taken out

  /**
   * Where the traversal of `set` or `pop` went down: into element `n` of a
   * list, or into key `k` of a mapping.
   */
  datatype Hole = InList(items: seq<Value>, n: nat) | InDict(keys: seq<string>, m: map<string, Value>, k: string)

  /** Puts a (new) child back into the place it was taken from. */
  function Fill(h: Hole, w: Value): Value
  {
    match h
    case InList(items, n) => if n < |items| then List(items[n := w]) else List(items)
    case InDict(keys, m, k) => Insert(Dict(keys, m), k, w)
  }

  /** Rebuilds the document around a new innermost child; `ctx` lists the holes outermost first. */
  function Plug(ctx: seq<Hole>, w: Value): Value
    decreases |ctx|
  {
    if ctx == [] then w else Plug(ctx[..|ctx| - 1], Fill(ctx[|ctx| - 1], w))
  }

  lemma PlugSnoc(ctx: seq<Hole>, h: Hole, w: Value)
    ensures Plug(ctx + [h], w) == Plug(ctx, Fill(h, w))
  {
    assert (ctx + [h])[..|ctx|] == ctx;
  }

  /** Applies the rebuilding to a result, leaving an exception as it is. */
  function Lift(ctx: seq<Hole>, r: Result<Value>): Result<Value>
  {
    match r
    case Ok(w) => Ok(Plug(ctx, w))
    case Err(e) => Err(e)
  }

  // ---------------------------------------------------------------------
  // writing a path

  /**
   * One iteration of `set`'s loop over all segments but the last: a list
   * element must exist; a missing mapping key is created as `{}`.
   */
  function SetStep(v: Value, seg: string): (r: Result<(Hole, Value)>)
    ensures r.Err? ==> r.error != KeyError && Step(v, seg) == Err(r.error)
    ensures Step(v, seg).Ok? ==> r.Ok? && r.value.1 == Step(v, seg).value
    ensures Step(v, seg) == Err(KeyError) ==> r.Ok? && r.value.1 == EmptyDict()
    ensures r.Ok? && Step(v, seg).Err? ==> Step(v, seg) == Err(KeyError)
  {
    match v
    case List(items) =>
      (match ParseInt(seg, 10)
       case None => Err(ValueError)
       case Some(i) =>
         (match NormIndex(i, |items|)
          case None => Err(IndexError)
          case Some(n) => Ok((InList(items, n), items[n]))))
    case Dict(keys, m) => Ok((InDict(keys, m, seg), if seg in m then m[seg] else EmptyDict()))
    case _ => Err(TypeError)
  }

  /** `set`'s final `conf_obj[level] = value`: replaces a list element (never appends) or inserts into a mapping. */
  function Assign(v: Value, seg: string, x: Value): (r: Result<Value>)
    ensures r.Err? ==> r.error != KeyError
    ensures r.Ok? ==> Step(r.value, seg) == Ok(x)
    ensures r.Ok? && v.List? ==> r.value.List? && |r.value.items| == |v.items|
    ensures v.Dict? ==> r == Ok(Insert(v, seg, x))
  {
    match v
    case List(items) =>
      (match ParseInt(seg, 10)
       case None => Err(ValueError)
       case Some(i) => SetIndex(v, i, x))
    case Dict(_, _) => Ok(Insert(v, seg, x))
    case _ => Err(TypeError)
  }

  /** The document after `set(key, value)`, or the exception it raises (set never raises KeyError). */
  function SetPath(v: Value, segs: seq<string>, x: Value): (r: Result<Value>)
    requires |segs| >= 1
    ensures r.Err? ==> r.error != KeyError
    decreases |segs|
  {
    if |segs| == 1 then Assign(v, segs[0], x)
    else match SetStep(v, segs[0])
      case Err(e) => Err(e)
      case Ok(hc) =>
        match SetPath(hc.1, segs[1..], x)
        case Err(e) => Err(e)
        case Ok(w) => Ok(Fill(hc.0, w))
  }

  // ---------------------------------------------------------------------
  // deleting a path

  /** One iteration of `pop`'s loop: a missing mapping key ends the pop (`None`). */
  function PopStep(v: Value, seg: string): (r: Result<Option<(Hole, Value)>>)
    ensures r.Err? <==> Step(v, seg).Err? && Step(v, seg).error != KeyError
    ensures r.Err? ==> Step(v, seg) == Err(r.error)
    ensures r == Ok(None) <==> Step(v, seg) == Err(KeyError)
    ensures r.Ok? && r.value.Some? ==> Step(v, seg) == Ok(r.value.value.1) && SetStep(v, seg) == Ok(r.value.value)
  {
    match v
    case Dict(keys, m) => if seg in m then Ok(Some((InDict(keys, m, seg), m[seg]))) else Ok(None)
    case _ =>
      match SetStep(v, seg)
      case Err(e) => Err(e)
      case Ok(hc) => Ok(Some(hc))
  }

  /** `pop`'s final `conf_obj.pop(level)`: the container without the element, and the element. */
  function Remove(v: Value, seg: string): (r: Result<(Value, Value)>)
    ensures r.Ok? ==> Step(v, seg) == Ok(r.value.1)
    ensures r.Ok? && v.Dict? ==> Step(r.value.0, seg) == Err(KeyError) && r.value.0.m.Keys == v.m.Keys - {seg}
    ensures r.Ok? && v.List? ==> r.value.0.List? && |r.value.0.items| == |v.items| - 1
    ensures v.Dict? && seg !in v.m ==> r == Err(KeyError)
  {
    match v
    case List(items) =>
      (match ParseInt(seg, 10)
       case None => Err(ValueError)
       case Some(i) =>
         (match NormIndex(i, |items|)
          case None => Err(IndexError)
          case Some(n) => Ok((List(items[..n] + items[n + 1..]), items[n]))))
    case Dict(_, m) => if seg in m then Ok((Delete(v, seg), m[seg])) else Err(KeyError)
    case _ => Err(AttributeError)
  }

  /**
   * The document after `pop(key)` and the value returned: `None` with no
   * change when an intermediate mapping key is missing.
   */
  function PopPath(v: Value, segs: seq<string>): (r: Result<(Value, Value)>)
    requires |segs| >= 1
    decreases |segs|
  {
    if |segs| == 1 then Remove(v, segs[0])
    else match PopStep(v, segs[0])
      case Err(e) => Err(e)
      case Ok(None) => Ok((v, Null))
      case Ok(Some(hc)) =>
        match PopPath(hc.1, segs[1..])
        case Err(e) => Err(e)
        case Ok(cp) => Ok((Fill(hc.0, cp.0), cp.1))
  }

  // ---------------------------------------------------------------------
  // the manager object

  /**
   * `ConfigManager`: `config` is the live document, `defaults` the add-on's
   * default document and `stored` the host's persisted copy.
   */
  class ConfigManager {
    var config: Value
    const defaults: Value
    var stored: Value

    /** `__init__`: takes the defaults from the host, then loads. */
    constructor (defaults: Value, stored: Value)
      ensures this.defaults == defaults && this.stored == stored && config == stored
    {
      this.defaults := defaults;
      this.stored := stored;
      config := stored;
    }

    /** `load`: replaces the live document with the persisted one. */
    method Load()
      modifies this`config
      ensures config == stored
    {
      config := stored;
    }

    /** `save`: hands the live document to the host. */
    method Save()
      modifies this`stored
      ensures stored == config
    {
      stored := config;
    }

    /** `load_defaults`: stages the defaults; nothing is persisted until `save`. */
    method LoadDefaults()
      modifies this`config
      ensures config == defaults
    {
      config := defaults;
    }

    /** `copy`: a copy of the live document. */
    method Copy() returns (d: Value)
      ensures d == config
    {
      d := config;
    }

    /** `get_from_dict`: walks `doc` down the segments of `key`. */
    method GetFromDict(doc: Value, key: string) returns (r: Result<Value>)
      ensures r == Lookup(doc, Path(key))
    {
      var levels := Path(key);
      var node := doc;
      var i := 0;
      while i < |levels|
        invariant 0 <= i <= |levels|
        invariant Lookup(doc, levels) == Lookup(node, levels[i..])
      {
        assert levels[i..][1..] == levels[i + 1..];
        var next := Step(node, levels[i]);
        if next.Err? {
          return Err(next.error);
        }
        node := next.value;
        i := i + 1;
      }
      return Ok(node);
    }

    /** `get(key, default)`: KeyError becomes the fallback; other exceptions propagate. */
    method Get(key: string, fallback: Value) returns (r: Result<Value>)
      ensures Lookup(config, Path(key)).Ok? ==> r == Lookup(config, Path(key))
      ensures Lookup(config, Path(key)) == Err(KeyError) ==> r == Ok(fallback)
      ensures Lookup(config, Path(key)).Err? && Lookup(config, Path(key)).error != KeyError ==> r == Lookup(config, Path(key))
    {
      var found := GetFromDict(config, key);
      if found.Err? && found.error == KeyError {
        return Ok(fallback);
      }
      return found;
    }

    /** `conf[key]`: `get(key)` with `None` as the fallback. */
    method GetItem(key: string) returns (r: Result<Value>)
      ensures r == LookupOr(config, Path(key), Null)
    {
      r := Get(key, Null);
    }

    /** `get_default`: reads the default document; every exception propagates. */
    method GetDefault(key: string) returns (r: Result<Value>)
      ensures r == Lookup(defaults, Path(key))
    {
      r := GetFromDict(defaults, key);
    }

    /** `key in conf`. */
    method Contains(key: string) returns (r: Result<bool>)
      ensures r == Ok(true) <==> Lookup(config, Path(key)).Ok?
      ensures r == Ok(false) <==> Lookup(config, Path(key)) == Err(KeyError)
      ensures r.Err? ==> Lookup(config, Path(key)) == Err(r.error) && r.error != KeyError
    {
      var found := GetFromDict(config, key);
      match found {
        case Ok(_) => r := Ok(true);
        case Err(e) => r := if e == KeyError then Ok(false) else Err(e);
      }
    }

    /**
     * `set(key, value)`: walks down all segments but the last, creating
     * missing mapping keys, then assigns; the live document changes only
     * when no exception is raised.
     */
    method Set(key: string, x: Value) returns (err: Option<PyError>)
      modifies this`config
      ensures SetPath(old(config), Path(key), x).Ok? ==> err == None && config == SetPath(old(config), Path(key), x).value
      ensures SetPath(old(config), Path(key), x).Err? ==> err == Some(SetPath(old(config), Path(key), x).error) && config == old(config)
    {
      err := SetAt(Path(key), x);
    }

    /** The walk and the rebuilding of `set`, over the segments of the key. */
    method SetAt(levels: seq<string>, x: Value) returns (err: Option<PyError>)
      requires |levels| >= 1
      modifies this`config
      ensures SetPath(old(config), levels, x).Ok? ==> err == None && config == SetPath(old(config), levels, x).value
      ensures SetPath(old(config), levels, x).Err? ==> err == Some(SetPath(old(config), levels, x).error) && config == old(config)
    {
      ghost var target := SetPath(config, levels, x);
      var ctx: seq<Hole> := [];
      var node := config;
      var i := 0;
      while i < |levels| - 1
        invariant 0 <= i <= |levels| - 1
        invariant config == old(config)
        invariant target == Lift(ctx, SetPath(node, levels[i..], x))
      {
        assert levels[i..][1..] == levels[i + 1..];
        var next := SetStep(node, levels[i]);
        if next.Err? {
          return Some(next.error);
        }
        ghost var inner := SetPath(next.value.1, levels[i + 1..], x);
        if inner.Ok? {
          PlugSnoc(ctx, next.value.0, inner.value);
        }
        ctx := ctx + [next.value.0];
        node := next.value.1;
        i := i + 1;
      }
      assert levels[i..] == [levels[i]];
      var updated := Assign(node, levels[i], x);
      if updated.Err? {
        return Some(updated.error);
      }
      var w := updated.value;
      while |ctx| > 0
        invariant target == Ok(Plug(ctx, w))
      {
        w := Fill(ctx[|ctx| - 1], w);
        ctx := ctx[..|ctx| - 1];
      }
      config := w;
      return None;
    }

    /** `conf[key] = value`. */
    method SetItem(key: string, x: Value) returns (err: Option<PyError>)
      modifies this`config
      ensures SetPath(old(config), Path(key), x).Ok? ==> err == None && config == SetPath(old(config), Path(key), x).value
      ensures SetPath(old(config), Path(key), x).Err? ==> err == Some(SetPath(old(config), Path(key), x).error) && config == old(config)
    {
      err := Set(key, x);
    }

    /**
     * `pop(key)`: walks down like `set` but returns `None` at a missing
     * mapping key; removes the final element or key and returns it.
     */
    method Pop(key: string) returns (r: Result<Value>)
      modifies this`config
      ensures PopPath(old(config), Path(key)).Ok? ==>
        r == Ok(PopPath(old(config), Path(key)).value.1) && config == PopPath(old(config), Path(key)).value.0
      ensures PopPath(old(config), Path(key)).Err? ==>
        r == Err(PopPath(old(config), Path(key)).error) && config == old(config)
    {
      r := PopAt(Path(key));
    }

    /** The walk and the rebuilding of `pop`, over the segments of the key. */
    method PopAt(levels: seq<string>) returns (r: Result<Value>)
      requires |levels| >= 1
      modifies this`config
      ensures PopPath(old(config), levels).Ok? ==>
        r == Ok(PopPath(old(config), levels).value.1) && config == PopPath(old(config), levels).value.0
      ensures PopPath(old(config), levels).Err? ==>
        r == Err(PopPath(old(config), levels).error) && config == old(config)
    {
      ghost var target := PopPath(config, levels);
      var ctx: seq<Hole> := [];
      var node := config;
      var i := 0;
      while i < |levels| - 1
        invariant 0 <= i <= |levels| - 1
        invariant config == old(config)
        invariant target == PopLift(ctx, PopPath(node, levels[i..]))
        invariant Plug(ctx, node) == config
      {
        var next := PopStep(node, levels[i]);
        PopDescent(ctx, node, levels, i, config, target, next);
        if next.Err? {
          return Err(next.error);
        }
        if next.value.None? {
          return Ok(Null);
        }
        var h := next.value.value.0;
        ctx := ctx + [h];
        node := next.value.value.1;
        i := i + 1;
      }
      assert levels[i..] == [levels[i]];
      var removed := Remove(node, levels[i]);
      if removed.Err? {
        return Err(removed.error);
      }
      var w := removed.value.0;
      while |ctx| > 0
        invariant target == Ok((Plug(ctx, w), removed.value.1))
      {
        w := Fill(ctx[|ctx| - 1], w);
        ctx := ctx[..|ctx| - 1];
      }
      config := w;
      return Ok(removed.value.1);
    }

    /** `del conf[key]`: `pop` with the value dropped. */
    method DelItem(key: string) returns (err: Option<PyError>)
      modifies this`config
      ensures PopPath(old(config), Path(key)).Ok? ==> err == None && config == PopPath(old(config), Path(key)).value.0
      ensures PopPath(old(config), Path(key)).Err? ==> err == Some(PopPath(old(config), Path(key)).error) && config == old(config)
    {
      var r := Pop(key);
      err := if r.Ok? then None else Some(r.error);
    }
  }

  /** Applies the rebuilding to a pop result; a pop that found nothing leaves the whole document as it was. */
  function PopLift(ctx: seq<Hole>, r: Result<(Value, Value)>): Result<(Value, Value)>
  {
    match r
    case Ok(dp) => Ok((Plug(ctx, dp.0), dp.1))
    case Err(e) => Err(e)
  }

  /**
   * One iteration of `pop`'s descent: an exception or a missing key is the
   * whole pop's outcome; otherwise the walk goes one level down with the
   * context extended by the hole it left.
   */
  lemma PopDescent(ctx: seq<Hole>, node: Value, levels: seq<string>, i: nat, doc: Value,
                   target: Result<(Value, Value)>, step: Result<Option<(Hole, Value)>>)
    requires i < |levels| - 1
    requires target == PopLift(ctx, PopPath(node, levels[i..])) && Plug(ctx, node) == doc
    requires step == PopStep(node, levels[i])
    ensures step.Err? ==> target == Err(step.error)
    ensures step == Ok(None) ==> target == Ok((doc, Null))
    ensures step.Ok? && step.value.Some? ==>
      && target == PopLift(ctx + [step.value.value.0], PopPath(step.value.value.1, levels[i + 1..]))
      && Plug(ctx + [step.value.value.0], step.value.value.1) == doc
  {
    assert levels[i..][0] == levels[i] && levels[i..][1..] == levels[i + 1..];
    if step.Ok? && step.value.Some? {
      var h := step.value.value.0;
      PlugSnoc(ctx, h, node);
      FillOfPopStep(node, levels[i]);
      if PopPath(step.value.value.1, levels[i + 1..]).Ok? {
        PlugSnoc(ctx, h, PopPath(step.value.value.1, levels[i + 1..]).value.0);
      }
    }
  }

  /** Putting back the very child `pop` went down into rebuilds the node unchanged. */
  lemma FillOfPopStep(v: Value, seg: string)
    requires PopStep(v, seg).Ok? && PopStep(v, seg).value.Some?
    ensures Fill(PopStep(v, seg).value.value.0, PopStep(v, seg).value.value.1) == v
  {
    if v.Dict? {
      assert v.m[seg := v.m[seg]] == v.m;
    } else {
      var n := PopStep(v, seg).value.value.0.n;
      assert v.items[n := v.items[n]] == v.items;
    }
  }
}

=== FILE: manager_laws.dfy ===
/**
 * What `get`, `set` and `pop` promise about each other: `set` assigns at
 * the parent of the key (creating missing mappings on the way) and nothing
 * else, `get` then reads back the value, `pop` removes at the parent or
 * does nothing when an intermediate mapping key is missing, and both keep
 * documents well formed.
 */
module ManagerLaws {
  import opened PyText
  import opened PyValues
  import opened Manager

  /** Looking up one more segment is one more step from where the shorter lookup ends. */
  lemma {:induction false} LookupSnoc(v: Value, p: seq<string>, s: string)
    ensures Lookup(v, p + [s]) == match Lookup(v, p) case Ok(n) => Step(n, s) case Err(e) => Err(e)
    decreases |p|
  {
    if p == [] {
      assert [s][1..] == [];
    } else {
      assert (p + [s])[0] == p[0] && (p + [s])[1..] == p[1..] + [s];
      if Step(v, p[0]).Ok? {
        LookupSnoc(Step(v, p[0]).value, p[1..], s);
      }
    }
  }

  /** The parent of a longer path, seen from below its first segment. */
  lemma ParentTail(segs: seq<string>)
    requires |segs| >= 2
    ensures Parent(segs) != [] && Parent(segs)[0] == segs[0] && Parent(segs)[1..] == Parent(segs[1..])
  {
  }

  /** A key path is its parent path followed by its last segment. */
  lemma ParentLast(segs: seq<string>)
    requires |segs| >= 1
    ensures Parent(segs) + [Last(segs)] == segs
  {
  }

  /** Putting a child back into the place `set` took it from makes it the step's result again. */
  lemma StepFillSame(v: Value, seg: string, w: Value)
    requires SetStep(v, seg).Ok?
    ensures Step(Fill(SetStep(v, seg).value.0, w), seg) == Ok(w)
  {
  }

  /** A fresh mapping reached by `set` stays a fresh mapping all the way down the parent path. */
  lemma LookupOrFresh(p: seq<string>)
    ensures LookupOr(EmptyDict(), p, EmptyDict()) == Ok(EmptyDict())
  {
    if p != [] {
      assert Step(EmptyDict(), p[0]) == Err(KeyError);
    }
  }

  /**
   * `set` is the final assignment done at the node its loop reaches: the
   * node under the parent path, or a fresh `{}` when a mapping key on the
   * way is missing. It fails exactly when reaching that node fails (with
   * an error other than KeyError) or the assignment fails, and on success
   * the parent path then holds the assigned container.
   */
  lemma {:induction false} SetAssignsAtParent(d: Value, segs: seq<string>, x: Value)
    requires |segs| >= 1
    ensures var at := LookupOr(d, Parent(segs), EmptyDict());
      match SetPath(d, segs, x)
      case Err(e) => at == Err(e) || (at.Ok? && Assign(at.value, Last(segs), x) == Err(e))
      case Ok(d') => at.Ok? && Assign(at.value, Last(segs), x).Ok? && Lookup(d', Parent(segs)) == Assign(at.value, Last(segs), x)
    decreases |segs|
  {
    if |segs| == 1 {
      assert Parent(segs) == [];
    } else {
      ParentTail(segs);
      var rest := segs[1..];
      assert Last(rest) == Last(segs);
      var st := Step(d, segs[0]);
      match SetStep(d, segs[0])
      case Err(e) =>
        assert st == Err(e) && e != KeyError;
      case Ok(hc) =>
        SetAssignsAtParent(hc.1, rest, x);
        if st.Ok? {
          assert LookupOr(d, Parent(segs), EmptyDict()) == LookupOr(hc.1, Parent(rest), EmptyDict());
        } else {
          assert st == Err(KeyError) && hc.1 == EmptyDict();
          LookupOrFresh(Parent(rest));
          assert Lookup(d, Parent(segs)) == Err(KeyError);
        }
        var inner := SetPath(hc.1, rest, x);
        if inner.Ok? {
          StepFillSame(d, segs[0], inner.value);
          assert Lookup(Fill(hc.0, inner.value), Parent(segs)) == Lookup(inner.value, Parent(rest));
        }
    }
  }

  /** After a successful `set(key, x)`, `get(key)` returns `x`. */
  lemma SetThenGet(d: Value, segs: seq<string>, x: Value)
    requires |segs| >= 1
    requires SetPath(d, segs, x).Ok?
    ensures Lookup(SetPath(d, segs, x).value, segs) == Ok(x)
  {
    SetAssignsAtParent(d, segs, x);
    ParentLast(segs);
    LookupSnoc(SetPath(d, segs, x).value, Parent(segs), Last(segs));
  }

  /** `set` never raises KeyError: a missing mapping key on the way is created instead. */
  lemma SetOnMissingKeySucceeds(d: Value, segs: seq<string>, x: Value)
    requires |segs| >= 1
    requires Lookup(d, Parent(segs)) == Err(KeyError)
    ensures SetPath(d, segs, x).Ok?
    ensures Lookup(SetPath(d, segs, x).value, Parent(segs)) == Ok(Insert(EmptyDict(), Last(segs), x))
  {
    SetAssignsAtParent(d, segs, x);
  }

  /** A final list index replaces the element in place: the list keeps its length. */
  lemma SetReplacesListElement(d: Value, segs: seq<string>, x: Value, items: seq<Value>)
    requires |segs| >= 1
    requires Lookup(d, Parent(segs)) == Ok(List(items))
    requires SetPath(d, segs, x).Ok?
    ensures var i := ParseInt(Last(segs), 10);
      && i.Some? && -(|items| as int) <= i.value < |items|
      && Lookup(SetPath(d, segs, x).value, Parent(segs)) == Ok(List(items[NormIndex(i.value, |items|).value := x]))
  {
    SetAssignsAtParent(d, segs, x);
  }

  // ---------------------------------------------------------------------
  // paths that part ways

  /** A segment that, read as an int, is a non-negative index written the way `str()` writes it. */
  predicate Canonical(seg: string)
  {
    ParseInt(seg, 10).Some? ==> ParseInt(seg, 10).value >= 0 && Decimal(ParseInt(seg, 10).value) == seg
  }

  predicate AllCanonical(segs: seq<string>)
  {
    forall j :: 0 <= j < |segs| ==> Canonical(segs[j])
  }

  /** Two paths that name different children at some common depth. */
  predicate Diverge(k: seq<string>, p: seq<string>)
  {
    exists j :: 0 <= j < |k| && j < |p| && k[j] != p[j]
  }

  /** Putting a child back leaves every other child where it was. */
  lemma StepFillOther(v: Value, k: string, p: string, w: Value)
    requires SetStep(v, k).Ok?
    requires k != p && Canonical(k) && Canonical(p)
    ensures Step(Fill(SetStep(v, k).value.0, w), p) == Step(v, p)
  {
    if v.List? {
      var i := ParseInt(k, 10).value;
      if ParseInt(p, 10).Some? {
        assert ParseInt(p, 10).value != i;
      }
    }
  }

  /** The final assignment is putting the new value into the hole the step would open. */
  lemma AssignIsFill(v: Value, k: string, x: Value)
    requires Assign(v, k, x).Ok?
    ensures SetStep(v, k).Ok? && Assign(v, k, x).value == Fill(SetStep(v, k).value.0, x)
  {
  }

  /**
   * `set` under one key leaves every key that parts ways with it readable
   * as before (for keys whose numeric segments are written canonically).
   */
  lemma {:induction false} SetFrame(d: Value, k: seq<string>, p: seq<string>, x: Value)
    requires |k| >= 1 && SetPath(d, k, x).Ok?
    requires Diverge(k, p) && AllCanonical(k) && AllCanonical(p)
    ensures Lookup(SetPath(d, k, x).value, p) == Lookup(d, p)
    decreases |k|
  {
    var d' := SetPath(d, k, x).value;
    var j :| 0 <= j < |k| && j < |p| && k[j] != p[j];
    if |k| == 1 {
      AssignIsFill(d, k[0], x);
    }
    var hc := SetStep(d, k[0]).value;
    var inner := if |k| == 1 then x else SetPath(hc.1, k[1..], x).value;
    assert d' == Fill(hc.0, inner);
    if k[0] != p[0] {
      StepFillOther(d, k[0], p[0], inner);
    } else {
      assert j >= 1 && k[1..][j - 1] != p[1..][j - 1];
      assert Diverge(k[1..], p[1..]);
      StepFillSame(d, k[0], inner);
      SetFrame(hc.1, k[1..], p[1..], x);
      if Step(d, p[0]).Err? {
        assert hc.1 == EmptyDict();
        assert p[1..] != [];
        assert Step(EmptyDict(), p[1..][0]) == Err(KeyError);
      }
    }
  }

  // ---------------------------------------------------------------------
  // pop

  /**
   * `pop` is the final removal done at the parent node: nothing changes and
   * `None` comes back when a mapping key on the way is missing, other
   * lookup errors propagate, and on success the parent path holds the
   * container without the element.
   */
  lemma {:induction false} PopRemovesAtParent(d: Value, segs: seq<string>)
    requires |segs| >= 1
    ensures var at := Lookup(d, Parent(segs));
      match PopPath(d, segs)
      case Err(e) => (at == Err(e) && e != KeyError) || (at.Ok? && Remove(at.value, Last(segs)) == Err(e))
      case Ok(dp) =>
        (at == Err(KeyError) ==> dp == (d, Null))
        && (at != Err(KeyError) ==>
              && at.Ok? && Remove(at.value, Last(segs)).Ok? && dp.1 == Remove(at.value, Last(segs)).value.1
              && Lookup(dp.0, Parent(segs)) == Ok(Remove(at.value, Last(segs)).value.0))
    decreases |segs|
  {
    if |segs| == 1 {
      assert Parent(segs) == [];
    } else {
      ParentTail(segs);
      var rest := segs[1..];
      assert Last(rest) == Last(segs);
      match PopStep(d, segs[0])
      case Err(e) =>
      case Ok(None) =>
      case Ok(Some(hc)) =>
        PopRemovesAtParent(hc.1, rest);
        assert Lookup(d, Parent(segs)) == Lookup(hc.1, Parent(rest));
        var inner := PopPath(hc.1, rest);
        if inner.Ok? {
          if Lookup(hc.1, Parent(rest)) == Err(KeyError) {
            FillOfPopStep(d, segs[0]);
          } else {
            StepFillSame(d, segs[0], inner.value.0);
            assert Lookup(Fill(hc.0, inner.value.0), Parent(segs)) == Lookup(inner.value.0, Parent(rest));
          }
        }
    }
  }

  /** After a successful `pop` below a mapping (or a missing one), the key is gone: `key in conf` is false. */
  lemma PopThenAbsent(d: Value, segs: seq<string>)
    requires |segs| >= 1
    requires PopPath(d, segs).Ok?
    requires !(Lookup(d, Parent(segs)).Ok? && Lookup(d, Parent(segs)).value.List?)
    ensures Has(PopPath(d, segs).value.0, segs) == Ok(false)
  {
    PopRemovesAtParent(d, segs);
    ParentLast(segs);
    LookupSnoc(PopPath(d, segs).value.0, Parent(segs), Last(segs));
    LookupSnoc(d, Parent(segs), Last(segs));
  }

  /** Popping a list element returns it and shifts the later elements down by one. */
  lemma PopShiftsList(d: Value, segs: seq<string>, items: seq<Value>)
    requires |segs| >= 1
    requires Lookup(d, Parent(segs)) == Ok(List(items))
    requires PopPath(d, segs).Ok?
    ensures var i := ParseInt(Last(segs), 10);
      && i.Some? && NormIndex(i.value, |items|).Some?
      && var n := NormIndex(i.value, |items|).value;
      && PopPath(d, segs).value.1 == items[n]
      && Lookup(PopPath(d, segs).value.0, Parent(segs)) == Ok(List(items[..n] + items[n + 1..]))
  {
    PopRemovesAtParent(d, segs);
  }

  // ---------------------------------------------------------------------
  // well-formedness

  lemma SetStepWf(v: Value, seg: string)
    requires Wf(v) && SetStep(v, seg).Ok?
    ensures Wf(SetStep(v, seg).value.1)
  {
  }

  lemma FillWf(v: Value, seg: string, w: Value)
    requires Wf(v) && Wf(w) && SetStep(v, seg).Ok?
    ensures Wf(Fill(SetStep(v, seg).value.0, w))
  {
    if v.Dict? {
      InsertWf(v, seg, w);
    }
  }

  /** `set` keeps documents well formed: every mapping still lists each key once. */
  lemma {:induction false} SetPathWf(d: Value, segs: seq<string>, x: Value)
    requires |segs| >= 1 && Wf(d) && Wf(x) && SetPath(d, segs, x).Ok?
    ensures Wf(SetPath(d, segs, x).value)
    decreases |segs|
  {
    if |segs| == 1 {
      AssignIsFill(d, segs[0], x);
      FillWf(d, segs[0], x);
    } else {
      var hc := SetStep(d, segs[0]).value;
      SetStepWf(d, segs[0]);
      SetPathWf(hc.1, segs[1..], x);
      FillWf(d, segs[0], SetPath(hc.1, segs[1..], x).value);
    }
  }

  lemma RemoveWf(v: Value, seg: string)
    requires Wf(v) && Remove(v, seg).Ok?
    ensures Wf(Remove(v, seg).value.0)
  {
    if v.Dict? {
      DeleteWf(v, seg);
    } else {
      var n := NormIndex(ParseInt(seg, 10).value, |v.items|).value;
      var r := v.items[..n] + v.items[n + 1..];
      forall q | 0 <= q < |r|
        ensures Wf(r[q])
      {
        if q < n {
          assert r[q] == v.items[q];
        } else {
          assert r[q] == v.items[q + 1];
        }
      }
    }
  }

  /** `pop` keeps documents well formed. */
  lemma {:induction false} PopPathWf(d: Value, segs: seq<string>)
    requires |segs| >= 1 && Wf(d) && PopPath(d, segs).Ok?
    ensures Wf(PopPath(d, segs).value.0)
    decreases |segs|
  {
    if |segs| == 1 {
      RemoveWf(d, segs[0]);
    } else {
      match PopStep(d, segs[0])
      case Ok(None) =>
      case Ok(Some(hc)) =>
        SetStepWf(d, segs[0]);
        PopPathWf(hc.1, segs[1..]);
        FillWf(d, segs[0], PopPath(hc.1, segs[1..]).value.0);
    }
  }
}

=== FILE: migrate.dfy ===
/**
 * `maybe_migrate_config`: read the stored version tag, run the migration
 * steps it calls for, and stamp the running version when it differs.
 */
module Migrate {
  import opened PyText
  import opened PyValues
  import opened Manager
  import opened ManagerLaws
  import opened Versions
  import opened MigrateV3
  import opened MigrateV1

  /** A migration step. */
  datatype Step = ToV2 | ToV3

  /**
   * The steps chosen by the version tag `v`: the `-1.-1` sentinel runs the
   * version-3 step only on a document taken for an untagged version 2
   * (`live` is the document that test reads); below 2.0 both steps run;
   * below 3.0 only the second.
   */
  function Plan(v: Version, live: Value): Result<seq<Step>>
  {
    match v.Eq("-1.-1")
    case Err(e) => Err(e)
    case Ok(sentinel) =>
      if sentinel then
        match DetectV2(live)
        case Err(e) => Err(e)
        case Ok(v2) => Ok(if v2 then [ToV3] else [])
      else
        match v.Lt("2.0")
        case Err(e) => Err(e)
        case Ok(below2) =>
          if below2 then Ok([ToV2, ToV3])
          else
            match v.Lt("3.0")
            case Err(e) => Err(e)
            case Ok(below3) => Ok(if below3 then [ToV3] else [])
  }

  lemma TwoZero()
    ensures ParseVersion("2.0") == Ok([2, 0])
  {
    assert Decimal(2) == "2" && Decimal(0) == "0";
    VersionTextRoundTrip(2, 0);
    assert Decimal(2) + "." + Decimal(0) == "2.0";
  }

  lemma ThreeZero()
    ensures ParseVersion("3.0") == Ok([3, 0])
  {
    assert Decimal(3) == "3" && Decimal(0) == "0";
    VersionTextRoundTrip(3, 0);
    assert Decimal(3) + "." + Decimal(0) == "3.0";
  }

  /**
   * For a numeric tag (M, m): the sentinel defers to `detect_v2`, every tag
   * below (2, 0) runs both steps, [(2, 0), (3, 0)) runs the version-3 step
   * only, and (3, 0) or above runs nothing.
   */
  lemma PlanByVersion(v: Version, live: Value)
    requires v.Numeric()
    ensures var here := (AsNumber(v.major).value, AsNumber(v.minor).value);
      && (here == (-1, -1) ==>
            Plan(v, live) == match DetectV2(live) case Err(e) => Err(e) case Ok(b) => Ok(if b then [ToV3] else []))
      && (here != (-1, -1) && PairLess(here, (2, 0)) ==> Plan(v, live) == Ok([ToV2, ToV3]))
      && (!PairLess(here, (2, 0)) && PairLess(here, (3, 0)) ==> Plan(v, live) == Ok([ToV3]))
      && (!PairLess(here, (3, 0)) ==> Plan(v, live) == Ok([]))
  {
    SentinelParses();
    TwoZero();
    ThreeZero();
    CompareIsLexicographic(v, "-1.-1");
    CompareIsLexicographic(v, "2.0");
    CompareIsLexicographic(v, "3.0");
  }

  /** A tag that was never stored raises TypeError at the `< "2.0"` test. */
  lemma PlanWithoutVersion(live: Value)
    ensures Plan(Version(Null, Null), live) == Err(TypeError)
  {
    SentinelParses();
    TwoZero();
    UnsetVersionCompares("-1.-1");
    UnsetVersionCompares("2.0");
  }

  /** The live document and the host's stored copy. */
  datatype Store = Store(config: Value, stored: Value)

  /** A step ends with a save when it completes; an exception leaves the reloaded document unsaved. */
  function Commit(s: Store, result: (Value, Option<PyError>)): (Store, Option<PyError>)
  {
    (Store(result.0, if result.1.None? then result.0 else s.stored), result.1)
  }

  /** One migration step, reading the stored document. */
  function RunStep(s: Store, defaults: Value, ankiDoc: Value, step: Step): (Store, Option<PyError>)
  {
    match step
    case ToV2 => Commit(s, V1Doc(s.stored, defaults, ankiDoc))
    case ToV3 => Commit(s, V3Doc(s.stored))
  }

  /** The steps in order, up to the first exception. */
  function RunSteps(s: Store, defaults: Value, ankiDoc: Value, steps: seq<Step>): (Store, Option<PyError>)
    decreases |steps|
  {
    if steps == [] then (s, None)
    else
      var (s1, e) := RunStep(s, defaults, ankiDoc, steps[0]);
      if e.Some? then (s1, e) else RunSteps(s1, defaults, ankiDoc, steps[1..])
  }

  /** The version tag of a document, as `conf[...]` reads it: a missing field reads as `None`. */
  function TagOf(doc: Value): Result<Version>
  {
    match LookupOr(doc, Path("version.major"), Null)
    case Err(e) => Err(e)
    case Ok(major) =>
      match LookupOr(doc, Path("version.minor"), Null)
      case Err(e) => Err(e)
      case Ok(minor) => Ok(Version(major, minor))
  }

  /**
   * The state after `maybe_migrate_config` and the exception, if any: the
   * tag is read from the live document, the steps run, and the running
   * version `versionString` is stamped and saved only when it differs from
   * the tag read at the start.
   */
  function Migrated(s: Store, defaults: Value, ankiDoc: Value, versionString: string): (Store, Option<PyError>)
  {
    match TagOf(s.config)
    case Err(e) => (s, Some(e))
    case Ok(v) => Finish(PlanRun(s, defaults, ankiDoc, Plan(v, s.config)), v, versionString)
  }

  /** The planned steps run in order; an exception while planning changes nothing. */
  function PlanRun(s: Store, defaults: Value, ankiDoc: Value, plan: Result<seq<Step>>): (Store, Option<PyError>)
  {
    match plan
    case Err(e) => (s, Some(e))
    case Ok(steps) => RunSteps(s, defaults, ankiDoc, steps)
  }

  /** The closing `if version != version_string:` stamp, skipped after an exception. */
  function Finish(run: (Store, Option<PyError>), v: Version, versionString: string): (Store, Option<PyError>)
  {
    if run.1.Some? then run
    else
      match v.Ne(versionString)
      case Err(e) => (run.0, Some(e))
      case Ok(differs) =>
        if differs then Commit(run.0, Stamped(run.0.config, versionString)) else (run.0, None)
  }

  /**
   * `maybe_migrate_config(conf)`, with the parsed `v1_anki_config.json`
   * document and the running version string passed in.
   */
  method MaybeMigrateConfig(conf: ConfigManager, ankiDoc: Value, versionString: string) returns (err: Option<PyError>)
    modifies conf
    ensures (Store(conf.config, conf.stored), err) ==
      Migrated(Store(old(conf.config), old(conf.stored)), conf.defaults, ankiDoc, versionString)
  {
    ghost var s0 := Store(conf.config, conf.stored);
    MajorPath();
    MinorPath();
    var major := conf.GetItem("version.major");
    if major.Err? {
      return Some(major.error);
    }
    var minor := conf.GetItem("version.minor");
    if minor.Err? {
      return Some(minor.error);
    }
    var version := Version(major.value, minor.value);
    assert TagOf(s0.config) == Ok(version);
    err := RunPlan(conf, ankiDoc, version);
    if err.Some? {
      return;
    }
    err := StampIfNew(conf, version, versionString);
  }

  /** The middle of `maybe_migrate_config`: the steps the tag calls for, in order. */
  method RunPlan(conf: ConfigManager, ankiDoc: Value, version: Version) returns (err: Option<PyError>)
    modifies conf
    ensures (Store(conf.config, conf.stored), err)
      == PlanRun(Store(old(conf.config), old(conf.stored)), conf.defaults, ankiDoc, Plan(version, old(conf.config)))
  {
    ghost var s0 := Store(conf.config, conf.stored);
    ghost var steps: seq<Step>;
    err := None;
    var sentinel := version.Eq("-1.-1");
    if sentinel.Err? {
      return Some(sentinel.error);
    }
    if sentinel.value {
      var v2 := DetectV2(conf.config);
      if v2.Err? {
        return Some(v2.error);
      }
      steps := if v2.value then [ToV3] else [];
      assert Plan(version, s0.config) == Ok(steps);
      if v2.value {
        err := V2ToV3(conf);
        assert (Store(conf.config, conf.stored), err) == RunStep(s0, conf.defaults, ankiDoc, ToV3);
        OneStep(s0, conf.defaults, ankiDoc, ToV3);
      }
    } else {
      var below2 := version.Lt("2.0");
      if below2.Err? {
        return Some(below2.error);
      }
      if below2.value {
        steps := [ToV2, ToV3];
        assert Plan(version, s0.config) == Ok(steps);
        var backup;
        backup, err := MaybeV1ToV2(conf, ankiDoc);
        ghost var s1 := Store(conf.config, conf.stored);
        assert (s1, err) == RunStep(s0, conf.defaults, ankiDoc, ToV2);
        TwoSteps(s0, conf.defaults, ankiDoc);
        if err.Some? {
          return;
        }
        err := V2ToV3(conf);
        assert (Store(conf.config, conf.stored), err) == RunStep(s1, conf.defaults, ankiDoc, ToV3);
      } else {
        var below3 := version.Lt("3.0");
        if below3.Err? {
          return Some(below3.error);
        }
        steps := if below3.value then [ToV3] else [];
        assert Plan(version, s0.config) == Ok(steps);
        if below3.value {
          err := V2ToV3(conf);
          assert (Store(conf.config, conf.stored), err) == RunStep(s0, conf.defaults, ankiDoc, ToV3);
          OneStep(s0, conf.defaults, ankiDoc, ToV3);
        }
      }
    }
  }

  /** The closing `if version != version_string:` stamp of a migration that raised nothing. */
  method StampIfNew(conf: ConfigManager, version: Version, versionString: string) returns (err: Option<PyError>)
    modifies conf
    ensures (Store(conf.config, conf.stored), err)
      == Finish((Store(old(conf.config), old(conf.stored)), None), version, versionString)
  {
    err := None;
    var differs := version.Ne(versionString);
    if differs.Err? {
      return Some(differs.error);
    }
    if differs.value {
      err := StampVersion(conf, versionString);
    }
  }

  /** A plan of one step is that step. */
  lemma OneStep(s: Store, defaults: Value, ankiDoc: Value, step: Step)
    ensures RunSteps(s, defaults, ankiDoc, [step]) == RunStep(s, defaults, ankiDoc, step)
  {
    assert [step][1..] == [];
  }

  /** The plan of both steps runs the second on the state the first leaves, unless the first raises. */
  lemma TwoSteps(s: Store, defaults: Value, ankiDoc: Value)
    ensures var (s1, e) := RunStep(s, defaults, ankiDoc, ToV2);
      RunSteps(s, defaults, ankiDoc, [ToV2, ToV3]) == if e.Some? then (s1, e) else RunStep(s1, defaults, ankiDoc, ToV3)
  {
    var (s1, e) := RunStep(s, defaults, ankiDoc, ToV2);
    assert [ToV2, ToV3][1..] == [ToV3];
    if e.None? {
      OneStep(s1, defaults, ankiDoc, ToV3);
    }
  }

  /** One completed step leaves every entry outside `colors` where it was, and saves. */
  lemma RunStepKeepsTag(s: Store, defaults: Value, ankiDoc: Value, step: Step, p: seq<string>)
    requires RunStep(s, defaults, ankiDoc, step).1 == None
    requires |p| >= 1 && p[0] != "colors" && AllCanonical(p)
    ensures var s1 := RunStep(s, defaults, ankiDoc, step).0;
      s1.config == s1.stored && Lookup(s1.config, p) == Lookup(s.stored, p)
  {
    match step
    case ToV2 => V1DocFrame(s.stored, defaults, ankiDoc, p);
    case ToV3 => V3DocFrame(s.stored, p);
  }

  /** The migration steps leave the version tag where it was. */
  lemma {:induction false} RunStepsKeepTag(s: Store, defaults: Value, ankiDoc: Value, steps: seq<Step>, p: seq<string>)
    requires RunSteps(s, defaults, ankiDoc, steps).1 == None
    requires |p| >= 1 && p[0] != "colors" && AllCanonical(p)
    requires s.config == s.stored
    ensures var s1 := RunSteps(s, defaults, ankiDoc, steps).0;
      s1.config == s1.stored && Lookup(s1.config, p) == Lookup(s.config, p)
    decreases |steps|
  {
    if steps != [] {
      var s1 := RunStep(s, defaults, ankiDoc, steps[0]).0;
      RunStepKeepsTag(s, defaults, ankiDoc, steps[0], p);
      RunStepsKeepTag(s1, defaults, ankiDoc, steps[1..], p);
    }
  }

  /**
   * After a migration without exception, starting from a saved document,
   * `version.major` and `version.minor` hold numbers equal to the integers
   * before and after the first dot of the running version, and the
   * document is saved.
   */
  lemma MigratedCarriesVersion(s: Store, defaults: Value, ankiDoc: Value, versionString: string)
    requires Migrated(s, defaults, ankiDoc, versionString).1 == None
    requires s.config == s.stored
    ensures var parts := Split(versionString, '.');
      var s2 := Migrated(s, defaults, ankiDoc, versionString).0;
      && |parts| >= 2 && ParseInt(parts[0], 10).Some? && ParseInt(parts[1], 10).Some?
      && s2.config == s2.stored
      && Lookup(s2.config, ["version", "major"]).Ok?
      && AsNumber(Lookup(s2.config, ["version", "major"]).value) == ParseInt(parts[0], 10)
      && Lookup(s2.config, ["version", "minor"]).Ok?
      && AsNumber(Lookup(s2.config, ["version", "minor"]).value) == ParseInt(parts[1], 10)
  {
    MigratedUnfolds(s, defaults, ankiDoc, versionString);
    var v := TagOf(s.config).value;
    SavedRunCarries(s, defaults, ankiDoc, Plan(v, s.config).value, v, versionString);
  }

  /** A migration that raised nothing read a tag, planned, ran the plan and closed with the stamp. */
  lemma MigratedUnfolds(s: Store, defaults: Value, ankiDoc: Value, versionString: string)
    requires Migrated(s, defaults, ankiDoc, versionString).1 == None
    ensures TagOf(s.config).Ok? && Plan(TagOf(s.config).value, s.config).Ok?
    ensures var v := TagOf(s.config).value;
      Migrated(s, defaults, ankiDoc, versionString)
        == Finish(RunSteps(s, defaults, ankiDoc, Plan(v, s.config).value), v, versionString)
  {
  }

  /** Steps run from a saved document, then the stamp, leave the running version in the tag. */
  lemma SavedRunCarries(s: Store, defaults: Value, ankiDoc: Value, steps: seq<Step>, v: Version, versionString: string)
    requires TagOf(s.config) == Ok(v)
    requires s.config == s.stored
    requires Finish(RunSteps(s, defaults, ankiDoc, steps), v, versionString).1 == None
    ensures var parts := Split(versionString, '.');
      var s2 := Finish(RunSteps(s, defaults, ankiDoc, steps), v, versionString).0;
      && |parts| >= 2 && ParseInt(parts[0], 10).Some? && ParseInt(parts[1], 10).Some?
      && s2.config == s2.stored
      && Lookup(s2.config, ["version", "major"]).Ok?
      && AsNumber(Lookup(s2.config, ["version", "major"]).value) == ParseInt(parts[0], 10)
      && Lookup(s2.config, ["version", "minor"]).Ok?
      && AsNumber(Lookup(s2.config, ["version", "minor"]).value) == ParseInt(parts[1], 10)
  {
    VersionKeysDiverge();
    var run := RunSteps(s, defaults, ankiDoc, steps);
    RunStepsKeepTag(s, defaults, ankiDoc, steps, ["version", "major"]);
    RunStepsKeepTag(s, defaults, ankiDoc, steps, ["version", "minor"]);
    TagCarries(s.config, run.0.config, v);
    FinishStamps(run, v, versionString);
  }

  /** A document that reads like a tagged one under both version keys reads as the same tag. */
  lemma TagCarries(tagged: Value, d: Value, v: Version)
    requires TagOf(tagged) == Ok(v)
    requires Lookup(d, ["version", "major"]) == Lookup(tagged, ["version", "major"])
    requires Lookup(d, ["version", "minor"]) == Lookup(tagged, ["version", "minor"])
    ensures LookupOr(d, ["version", "major"], Null) == Ok(v.major)
    ensures LookupOr(d, ["version", "minor"], Null) == Ok(v.minor)
  {
    MajorPath();
    MinorPath();
  }

  /** The closing stamp leaves the running version's numbers in the tag, whether it writes them or finds them there. */
  lemma FinishStamps(run: (Store, Option<PyError>), v: Version, versionString: string)
    requires Finish(run, v, versionString).1 == None
    requires run.0.config == run.0.stored
    requires LookupOr(run.0.config, ["version", "major"], Null) == Ok(v.major)
    requires LookupOr(run.0.config, ["version", "minor"], Null) == Ok(v.minor)
    ensures var parts := Split(versionString, '.');
      var s2 := Finish(run, v, versionString).0;
      && |parts| >= 2 && ParseInt(parts[0], 10).Some? && ParseInt(parts[1], 10).Some?
      && s2.config == s2.stored
      && Lookup(s2.config, ["version", "major"]).Ok?
      && AsNumber(Lookup(s2.config, ["version", "major"]).value) == ParseInt(parts[0], 10)
      && Lookup(s2.config, ["version", "minor"]).Ok?
      && AsNumber(Lookup(s2.config, ["version", "minor"]).value) == ParseInt(parts[1], 10)
  {
    if v.Ne(versionString).value {
      var stamped := Stamped(run.0.config, versionString);
      assert Finish(run, v, versionString) == Commit(run.0, stamped);
      StampedTags(run.0.config, versionString);
    } else {
      MatchingTag(v, versionString, run.0.config);
    }
  }

  /** A stamp without exception leaves the version fields holding the numbers of the string's first two parts. */
  lemma StampedTags(d: Value, versionString: string)
    requires Stamped(d, versionString).1 == None
    ensures var parts := Split(versionString, '.');
      var s2 := Stamped(d, versionString).0;
      && |parts| >= 2 && ParseInt(parts[0], 10).Some? && ParseInt(parts[1], 10).Some?
      && Lookup(s2, ["version", "major"]).Ok?
      && AsNumber(Lookup(s2, ["version", "major"]).value) == ParseInt(parts[0], 10)
      && Lookup(s2, ["version", "minor"]).Ok?
      && AsNumber(Lookup(s2, ["version", "minor"]).value) == ParseInt(parts[1], 10)
  {
    StampedSetsVersion(d, versionString, ["version"]);
  }

  /** A tag equal to the running version holds, field by field, the numbers of its first two parts. */
  lemma MatchingTag(v: Version, versionString: string, doc: Value)
    requires v.Eq(versionString) == Ok(true)
    requires LookupOr(doc, ["version", "major"], Null) == Ok(v.major)
    requires LookupOr(doc, ["version", "minor"], Null) == Ok(v.minor)
    ensures var parts := Split(versionString, '.');
      && |parts| >= 2 && ParseInt(parts[0], 10).Some? && ParseInt(parts[1], 10).Some?
      && Lookup(doc, ["version", "major"]).Ok?
      && AsNumber(Lookup(doc, ["version", "major"]).value) == ParseInt(parts[0], 10)
      && Lookup(doc, ["version", "minor"]).Ok?
      && AsNumber(Lookup(doc, ["version", "minor"]).value) == ParseInt(parts[1], 10)
  {
  }
}

=== FILE: migrate_v1.dfy ===
/**
 * The step that brings a version-1 document to the version-2 theme names:
 * start from the shipped version-2 colours, carry over every version-1
 * colour the user changed from the version-1 vanilla palette under its new
 * name, propagate customised sources to their aliases, and keep the button
 * hover colour apart from the button background.
 */
module MigrateV1 {
  import opened PyText
  import opened PyValues
  import opened Manager
  import opened ManagerLaws
  import opened HexColor
  import opened MigrateV3

  // ---------------------------------------------------------------------
  // One light (1) or dark (2) value of a colour entry

  /** `colors[name][i]`. */
  function Mode(colors: Value, name: string, i: int): Result<Value>
  {
    match GetKey(colors, name)
    case Err(e) => Err(e)
    case Ok(entry) => GetIndex(entry, i)
  }

  /** `colors[name][i] = x`, on the entry list held by the mapping. */
  function SetMode(colors: Value, name: string, i: int, x: Value): (r: Result<Value>)
    ensures r.Ok? ==> colors.Dict? && r.value.Dict? && r.value.m.Keys == colors.m.Keys
  {
    match GetKey(colors, name)
    case Err(e) => Err(e)
    case Ok(entry) =>
      match SetIndex(entry, i, x)
      case Err(e) => Err(e)
      case Ok(entry2) => Ok(Insert(colors, name, entry2))
  }

  /** A successful write is read back, and every other entry, and every other mode of the same entry, stays as it was. */
  lemma SetModeEffect(colors: Value, name: string, i: int, x: Value, other: string, j: int)
    requires SetMode(colors, name, i, x).Ok? && i >= 0 && j >= 0
    ensures Mode(SetMode(colors, name, i, x).value, name, i) == Ok(x)
    ensures other != name ==> GetKey(SetMode(colors, name, i, x).value, other) == GetKey(colors, other)
    ensures j != i ==> Mode(SetMode(colors, name, i, x).value, other, j) == Mode(colors, other, j)
  {
  }

  /** `SetMode` fails exactly when `colors[name]` is missing or is not a list long enough for index `i`. */
  lemma SetModeFails(colors: Value, name: string, i: int, x: Value)
    requires i >= 0
    ensures SetMode(colors, name, i, x).Ok? <==>
      colors.Dict? && name in colors.m && colors.m[name].List? && i < |colors.m[name].items|
  {
  }

  /**
   * `if src_doc[src][i] != ref_doc[src][i]: colors[dst][i] = src_doc[src][i]`:
   * the value is written only when it differs from the reference.
   */
  function CarryMode(colors: Value, from: Value, ref: Value, src: string, dst: string, i: int): Result<Value>
  {
    match Mode(from, src, i)
    case Err(e) => Err(e)
    case Ok(a) =>
      match Mode(ref, src, i)
      case Err(e) => Err(e)
      case Ok(b) => if a != b then SetMode(colors, dst, i, a) else Ok(colors)
  }

  /** What one `CarryMode` does to the destination mode, and that it touches nothing else. */
  lemma CarryModeEffect(colors: Value, from: Value, ref: Value, src: string, dst: string, i: int, other: string, j: int)
    requires CarryMode(colors, from, ref, src, dst, i).Ok? && i >= 0 && j >= 0
    ensures Mode(from, src, i).Ok? && Mode(ref, src, i).Ok?
    ensures Mode(CarryMode(colors, from, ref, src, dst, i).value, dst, i) ==
      if Mode(from, src, i) != Mode(ref, src, i) then Mode(from, src, i) else Mode(colors, dst, i)
    ensures other != dst ==> GetKey(CarryMode(colors, from, ref, src, dst, i).value, other) == GetKey(colors, other)
    ensures j != i ==> Mode(CarryMode(colors, from, ref, src, dst, i).value, other, j) == Mode(colors, other, j)
    ensures colors.Dict? ==> (CarryMode(colors, from, ref, src, dst, i).value.Dict? &&
      CarryMode(colors, from, ref, src, dst, i).value.m.Keys == colors.m.Keys)
  {
    var a := Mode(from, src, i).value;
    if a != Mode(ref, src, i).value {
      SetModeEffect(colors, dst, i, a, other, j);
    }
  }

  // ---------------------------------------------------------------------
  // COLOR_MAP: version-1 name to version-2 name, in the order of the source

  const ColorMap: seq<(string, string)> := [
    ("TEXT_FG", "FG"), ("WINDOW_BG", "CANVAS"), ("FRAME_BG", "CANVAS_INSET"),
    ("BORDER", "BORDER"), ("MEDIUM_BORDER", ""), ("FAINT_BORDER", "BORDER_SUBTLE"),
    ("LINK", "FG_LINK"), ("REVIEW_COUNT", "STATE_REVIEW"), ("NEW_COUNT", "STATE_NEW"),
    ("LEARN_COUNT", "STATE_LEARN"), ("ZERO_COUNT", "FG_FAINT"), ("SLIGHTLY_GREY_TEXT", "FG_SUBTLE"),
    ("HIGHLIGHT_BG", "HIGHLIGHT_BG"), ("HIGHLIGHT_FG", "HIGHLIGHT_FG"), ("DISABLED", "FG_DISABLED"),
    ("FLAG1_FG", "FLAG_1"), ("FLAG2_FG", "FLAG_2"), ("FLAG3_FG", "FLAG_3"), ("FLAG4_FG", "FLAG_4"),
    ("FLAG5_FG", "FLAG_5"), ("FLAG6_FG", "FLAG_6"), ("FLAG7_FG", "FLAG_7"),
    ("FLAG1_BG", ""), ("FLAG2_BG", ""), ("FLAG3_BG", ""), ("FLAG4_BG", ""),
    ("FLAG5_BG", ""), ("FLAG6_BG", ""), ("FLAG7_BG", ""), ("BURIED_FG", ""),
    ("SUSPENDED_FG", "STATE_SUSPENDED"), ("SUSPENDED_BG", ""), ("MARKED_BG", "STATE_MARKED"),
    ("TOOLTIP_BG", "CANVAS_OVERLAY"), ("BUTTON_BG", "BUTTON_BG"), ("CURRENT_DECK", "")
  ]

  /** No two entries of the map write the same new name; an empty new name writes nothing. */
  predicate UniqueTargets(pairs: seq<(string, string)>)
  {
    forall j, k :: 0 <= j < k < |pairs| && pairs[j].1 != "" ==> pairs[j].1 != pairs[k].1
  }

  /** `name` is the new name of no entry of the map. */
  predicate NotTarget(pairs: seq<(string, string)>, name: string)
  {
    forall p :: p in pairs && p.1 != "" ==> p.1 != name
  }

  /** The body of the first loop for one map entry: both modes, light first; an empty new name is skipped. */
  function CarryPair(colors: Value, v1: Value, anki: Value, pair: (string, string)): Result<Value>
  {
    if pair.1 == "" then Ok(colors)
    else
      match CarryMode(colors, v1, anki, pair.0, pair.1, 1)
      case Err(e) => Err(e)
      case Ok(c1) => CarryMode(c1, v1, anki, pair.0, pair.1, 2)
  }

  /** The first loop over the entries `pairs`, in order, starting from `start`. */
  function CarryOver(v1: Value, anki: Value, start: Value, pairs: seq<(string, string)>): Result<Value>
    decreases |pairs|
  {
    if |pairs| == 0 then Ok(start)
    else
      match CarryOver(v1, anki, start, pairs[..|pairs| - 1])
      case Err(e) => Err(e)
      case Ok(c) => CarryPair(c, v1, anki, pairs[|pairs| - 1])
  }

  /** One map entry touches only its own new name, and keeps the key set. */
  lemma CarryPairFrame(colors: Value, v1: Value, anki: Value, pair: (string, string), other: string)
    requires CarryPair(colors, v1, anki, pair).Ok?
    ensures pair.1 == "" || other != pair.1 ==> GetKey(CarryPair(colors, v1, anki, pair).value, other) == GetKey(colors, other)
    ensures colors.Dict? ==> (CarryPair(colors, v1, anki, pair).value.Dict? &&
      CarryPair(colors, v1, anki, pair).value.m.Keys == colors.m.Keys)
  {
    if pair.1 != "" {
      CarryModeEffect(colors, v1, anki, pair.0, pair.1, 1, other, 0);
      var c1 := CarryMode(colors, v1, anki, pair.0, pair.1, 1).value;
      CarryModeEffect(c1, v1, anki, pair.0, pair.1, 2, other, 0);
    }
  }

  /** What one map entry with a new name does to mode `i` of that name. */
  lemma CarryPairEffect(colors: Value, v1: Value, anki: Value, pair: (string, string), i: int)
    requires CarryPair(colors, v1, anki, pair).Ok? && pair.1 != "" && (i == 1 || i == 2)
    ensures Mode(v1, pair.0, i).Ok? && Mode(anki, pair.0, i).Ok?
    ensures Mode(CarryPair(colors, v1, anki, pair).value, pair.1, i) ==
      if Mode(v1, pair.0, i) != Mode(anki, pair.0, i) then Mode(v1, pair.0, i) else Mode(colors, pair.1, i)
  {
    var c1 := CarryMode(colors, v1, anki, pair.0, pair.1, 1).value;
    CarryModeEffect(colors, v1, anki, pair.0, pair.1, 1, pair.1, 2);
    CarryModeEffect(c1, v1, anki, pair.0, pair.1, 2, pair.1, 1);
  }

  /** The carried-over colours have exactly the key set of the starting (default) colours. */
  lemma {:induction false} CarryOverKeys(v1: Value, anki: Value, start: Value, pairs: seq<(string, string)>)
    requires CarryOver(v1, anki, start, pairs).Ok? && start.Dict?
    ensures CarryOver(v1, anki, start, pairs).value.Dict?
    ensures CarryOver(v1, anki, start, pairs).value.m.Keys == start.m.Keys
    decreases |pairs|
  {
    if |pairs| > 0 {
      var prefix := pairs[..|pairs| - 1];
      CarryOverKeys(v1, anki, start, prefix);
      CarryPairFrame(CarryOver(v1, anki, start, prefix).value, v1, anki, pairs[|pairs| - 1], "");
    }
  }

  /** Once an entry raises, the rest of the loop does not run: the whole loop raises the same exception. */
  lemma {:induction false} CarryOverStops(v1: Value, anki: Value, start: Value, pairs: seq<(string, string)>, n: nat)
    requires n <= |pairs| && CarryOver(v1, anki, start, pairs[..n]).Err?
    ensures CarryOver(v1, anki, start, pairs) == CarryOver(v1, anki, start, pairs[..n])
    decreases |pairs|
  {
    if n < |pairs| {
      var prefix := pairs[..|pairs| - 1];
      assert prefix[..n] == pairs[..n];
      CarryOverStops(v1, anki, start, prefix, n);
    } else {
      assert pairs[..n] == pairs;
    }
  }

  /** A name that no entry of the map writes keeps its default entry; in particular the empty new names write nothing. */
  lemma {:induction false} CarryOverUntouched(v1: Value, anki: Value, start: Value, pairs: seq<(string, string)>, name: string)
    requires CarryOver(v1, anki, start, pairs).Ok? && NotTarget(pairs, name)
    ensures GetKey(CarryOver(v1, anki, start, pairs).value, name) == GetKey(start, name)
    decreases |pairs|
  {
    if |pairs| > 0 {
      var prefix := pairs[..|pairs| - 1];
      assert forall p :: p in prefix ==> p in pairs;
      CarryOverUntouched(v1, anki, start, prefix, name);
      assert pairs[|pairs| - 1] in pairs;
      CarryPairFrame(CarryOver(v1, anki, start, prefix).value, v1, anki, pairs[|pairs| - 1], name);
    }
  }

  /**
   * For every map entry with a new name, mode `i` of the new name holds the
   * version-1 value when that differs from the version-1 vanilla value, and
   * the default otherwise.
   */
  lemma {:induction false} CarryOverEntry(v1: Value, anki: Value, start: Value, pairs: seq<(string, string)>, j: int, i: int)
    requires CarryOver(v1, anki, start, pairs).Ok? && UniqueTargets(pairs)
    requires 0 <= j < |pairs| && pairs[j].1 != "" && (i == 1 || i == 2)
    ensures Mode(v1, pairs[j].0, i).Ok? && Mode(anki, pairs[j].0, i).Ok?
    ensures Mode(CarryOver(v1, anki, start, pairs).value, pairs[j].1, i) ==
      if Mode(v1, pairs[j].0, i) != Mode(anki, pairs[j].0, i) then Mode(v1, pairs[j].0, i) else Mode(start, pairs[j].1, i)
    decreases |pairs|
  {
    var n := |pairs| - 1;
    var prefix := pairs[..n];
    var c := CarryOver(v1, anki, start, prefix).value;
    if j == n {
      assert NotTarget(prefix, pairs[j].1) by {
        forall p | p in prefix && p.1 != ""
          ensures p.1 != pairs[j].1
        {
          var k :| 0 <= k < n && prefix[k] == p;
          assert pairs[k] == p;
        }
      }
      CarryOverUntouched(v1, anki, start, prefix, pairs[j].1);
      CarryPairEffect(c, v1, anki, pairs[j], i);
    } else {
      assert UniqueTargets(prefix);
      CarryOverEntry(v1, anki, start, prefix, j, i);
      assert prefix[j] == pairs[j];
      CarryPairFrame(c, v1, anki, pairs[n], pairs[j].1);
    }
  }

  /** The new name of entry `j`, among the first ten, is not written again by a later entry. */
  lemma ColorMapRowEarly(j: nat)
    requires j < 10 && ColorMap[j].1 != ""
    ensures forall k :: j < k < |ColorMap| ==> ColorMap[j].1 != ColorMap[k].1
  {
  }

  /** The new name of entry `j`, past the first ten, is not written again by a later entry. */
  lemma ColorMapRowLate(j: nat)
    requires 10 <= j < |ColorMap| && ColorMap[j].1 != ""
    ensures forall k :: j < k < |ColorMap| ==> ColorMap[j].1 != ColorMap[k].1
  {
  }

  /** The shipped map writes every new name at most once. */
  lemma ColorMapTargetsUnique()
    ensures UniqueTargets(ColorMap)
  {
    forall j, k | 0 <= j < k < |ColorMap| && ColorMap[j].1 != ""
      ensures ColorMap[j].1 != ColorMap[k].1
    {
      if j < 10 {
        ColorMapRowEarly(j);
      } else {
        ColorMapRowLate(j);
      }
    }
  }

  // ---------------------------------------------------------------------
  // V2_ALIAS_MAP: alias and the name it copies from

  const AliasMap: seq<(string, string)> := [
    ("CANVAS_OVERLAY", "CANVAS"), ("CANVAS_ELEVATED", "CANVAS_INSET"), ("BUTTON_HOVER", "CANVAS_INSET")
  ]

  /**
   * The body of the second loop for one alias: each mode of the source is
   * compared with the version-2 default, and copied to the alias when it
   * differs. The light copy is in place before the dark comparison reads.
   */
  function AliasPair(colors: Value, v2: Value, pair: (string, string)): Result<Value>
  {
    match CarryMode(colors, colors, v2, pair.1, pair.0, 1)
    case Err(e) => Err(e)
    case Ok(c1) => CarryMode(c1, c1, v2, pair.1, pair.0, 2)
  }

  /** The second loop over `pairs`, in order. */
  function AliasOver(colors: Value, v2: Value, pairs: seq<(string, string)>): Result<Value>
    decreases |pairs|
  {
    if |pairs| == 0 then Ok(colors)
    else
      match AliasOver(colors, v2, pairs[..|pairs| - 1])
      case Err(e) => Err(e)
      case Ok(c) => AliasPair(c, v2, pairs[|pairs| - 1])
  }

  /** One pass of the alias loop: a completed pass extends the prefix, a raising one is the whole loop's result. */
  lemma AliasLoopStep(colors: Value, v2: Value, pairs: seq<(string, string)>, k: nat, c: Value, step: Result<Value>)
    requires k < |pairs| && AliasOver(colors, v2, pairs[..k]) == Ok(c)
    requires step == AliasPair(c, v2, pairs[k])
    ensures step.Ok? ==> AliasOver(colors, v2, pairs[..k + 1]) == step
    ensures step.Err? ==> AliasOver(colors, v2, pairs) == step
  {
    assert pairs[..k + 1][..k] == pairs[..k];
    if step.Err? {
      AliasOverStops(colors, v2, pairs, k + 1);
    }
  }

  /** The aliases are distinct and none of them is itself a source. */
  predicate AliasesApart(pairs: seq<(string, string)>)
  {
    && (forall j, k :: 0 <= j < k < |pairs| ==> pairs[j].0 != pairs[k].0)
    && (forall j, k :: 0 <= j < |pairs| && 0 <= k < |pairs| ==> pairs[j].0 != pairs[k].1)
  }

  /** One alias touches only the alias entry, and keeps the key set. */
  lemma AliasPairFrame(colors: Value, v2: Value, pair: (string, string), other: string)
    requires AliasPair(colors, v2, pair).Ok?
    ensures other != pair.0 ==> GetKey(AliasPair(colors, v2, pair).value, other) == GetKey(colors, other)
    ensures colors.Dict? ==> (AliasPair(colors, v2, pair).value.Dict? &&
      AliasPair(colors, v2, pair).value.m.Keys == colors.m.Keys)
  {
    CarryModeEffect(colors, colors, v2, pair.1, pair.0, 1, other, 0);
    var c1 := CarryMode(colors, colors, v2, pair.1, pair.0, 1).value;
    CarryModeEffect(c1, c1, v2, pair.1, pair.0, 2, other, 0);
  }

  /** What one alias does to mode `i` of the alias, when the alias is not its own source. */
  lemma AliasPairEffect(colors: Value, v2: Value, pair: (string, string), i: int)
    requires AliasPair(colors, v2, pair).Ok? && pair.0 != pair.1 && (i == 1 || i == 2)
    ensures Mode(colors, pair.1, i).Ok? && Mode(v2, pair.1, i).Ok?
    ensures Mode(AliasPair(colors, v2, pair).value, pair.0, i) ==
      if Mode(colors, pair.1, i) != Mode(v2, pair.1, i) then Mode(colors, pair.1, i) else Mode(colors, pair.0, i)
  {
    var c1 := CarryMode(colors, colors, v2, pair.1, pair.0, 1).value;
    CarryModeEffect(colors, colors, v2, pair.1, pair.0, 1, pair.1, 2);
    CarryModeEffect(c1, c1, v2, pair.1, pair.0, 2, pair.1, 1);
    assert GetKey(c1, pair.1) == GetKey(colors, pair.1);
    assert Mode(c1, pair.1, 2) == Mode(colors, pair.1, 2);
  }

  /** The alias loop keeps the key set. */
  lemma {:induction false} AliasOverKeys(colors: Value, v2: Value, pairs: seq<(string, string)>)
    requires AliasOver(colors, v2, pairs).Ok? && colors.Dict?
    ensures AliasOver(colors, v2, pairs).value.Dict?
    ensures AliasOver(colors, v2, pairs).value.m.Keys == colors.m.Keys
    decreases |pairs|
  {
    if |pairs| > 0 {
      var prefix := pairs[..|pairs| - 1];
      AliasOverKeys(colors, v2, prefix);
      AliasPairFrame(AliasOver(colors, v2, prefix).value, v2, pairs[|pairs| - 1], "");
    }
  }

  /** Once an alias raises, the rest of the loop does not run. */
  lemma {:induction false} AliasOverStops(colors: Value, v2: Value, pairs: seq<(string, string)>, n: nat)
    requires n <= |pairs| && AliasOver(colors, v2, pairs[..n]).Err?
    ensures AliasOver(colors, v2, pairs) == AliasOver(colors, v2, pairs[..n])
    decreases |pairs|
  {
    if n < |pairs| {
      var prefix := pairs[..|pairs| - 1];
      assert prefix[..n] == pairs[..n];
      AliasOverStops(colors, v2, prefix, n);
    } else {
      assert pairs[..n] == pairs;
    }
  }

  /** Entries that are no alias come through the alias loop unchanged, the sources among them. */
  lemma {:induction false} AliasOverUntouched(colors: Value, v2: Value, pairs: seq<(string, string)>, name: string)
    requires AliasOver(colors, v2, pairs).Ok?
    requires forall p :: p in pairs ==> p.0 != name
    ensures GetKey(AliasOver(colors, v2, pairs).value, name) == GetKey(colors, name)
    decreases |pairs|
  {
    if |pairs| > 0 {
      var prefix := pairs[..|pairs| - 1];
      assert forall p :: p in prefix ==> p in pairs;
      AliasOverUntouched(colors, v2, prefix, name);
      assert pairs[|pairs| - 1] in pairs;
      AliasPairFrame(AliasOver(colors, v2, prefix).value, v2, pairs[|pairs| - 1], name);
    }
  }

  /**
   * After the alias loop, mode `i` of every alias holds its source's value
   * when the source differs from the version-2 default, and is as it was
   * otherwise.
   */
  lemma {:induction false} AliasOverEntry(colors: Value, v2: Value, pairs: seq<(string, string)>, j: int, i: int)
    requires AliasOver(colors, v2, pairs).Ok? && AliasesApart(pairs)
    requires 0 <= j < |pairs| && (i == 1 || i == 2)
    ensures Mode(colors, pairs[j].1, i).Ok? && Mode(v2, pairs[j].1, i).Ok?
    ensures Mode(AliasOver(colors, v2, pairs).value, pairs[j].0, i) ==
      if Mode(colors, pairs[j].1, i) != Mode(v2, pairs[j].1, i) then Mode(colors, pairs[j].1, i) else Mode(colors, pairs[j].0, i)
    decreases |pairs|, 1
  {
    if j == |pairs| - 1 {
      AliasOverLast(colors, v2, pairs, i);
    } else {
      AliasOverEarlier(colors, v2, pairs, j, i);
    }
  }

  /** `AliasOverEntry` for the last pair: only that pair writes its alias. */
  lemma AliasOverLast(colors: Value, v2: Value, pairs: seq<(string, string)>, i: int)
    requires AliasOver(colors, v2, pairs).Ok? && AliasesApart(pairs)
    requires |pairs| > 0 && (i == 1 || i == 2)
    ensures var j := |pairs| - 1;
      && Mode(colors, pairs[j].1, i).Ok? && Mode(v2, pairs[j].1, i).Ok?
      && Mode(AliasOver(colors, v2, pairs).value, pairs[j].0, i) ==
         if Mode(colors, pairs[j].1, i) != Mode(v2, pairs[j].1, i) then Mode(colors, pairs[j].1, i) else Mode(colors, pairs[j].0, i)
  {
    var n := |pairs| - 1;
    var prefix := pairs[..n];
    var c := AliasOver(colors, v2, prefix).value;
    assert AliasOver(colors, v2, pairs) == AliasPair(c, v2, pairs[n]);
    assert GetKey(c, pairs[n].1) == GetKey(colors, pairs[n].1) by {
      PrefixAvoids(pairs, n, pairs[n].1);
      AliasOverUntouched(colors, v2, prefix, pairs[n].1);
    }
    assert GetKey(c, pairs[n].0) == GetKey(colors, pairs[n].0) by {
      PrefixAvoids(pairs, n, pairs[n].0);
      AliasOverUntouched(colors, v2, prefix, pairs[n].0);
    }
    AliasPairEffect(c, v2, pairs[n], i);
  }

  /** `AliasOverEntry` for an earlier pair: the pairs after it leave its alias alone. */
  lemma {:induction false} AliasOverEarlier(colors: Value, v2: Value, pairs: seq<(string, string)>, j: int, i: int)
    requires AliasOver(colors, v2, pairs).Ok? && AliasesApart(pairs)
    requires 0 <= j < |pairs| - 1 && (i == 1 || i == 2)
    ensures Mode(colors, pairs[j].1, i).Ok? && Mode(v2, pairs[j].1, i).Ok?
    ensures Mode(AliasOver(colors, v2, pairs).value, pairs[j].0, i) ==
      if Mode(colors, pairs[j].1, i) != Mode(v2, pairs[j].1, i) then Mode(colors, pairs[j].1, i) else Mode(colors, pairs[j].0, i)
    decreases |pairs|, 0
  {
    var n := |pairs| - 1;
    var prefix := pairs[..n];
    var c := AliasOver(colors, v2, prefix).value;
    assert AliasOver(colors, v2, pairs) == AliasPair(c, v2, pairs[n]);
    ApartPrefix(pairs, n);
    AliasOverEntry(colors, v2, prefix, j, i);
    assert prefix[j] == pairs[j];
    AliasPairFrame(c, v2, pairs[n], pairs[j].0);
  }

  lemma ApartPrefix(pairs: seq<(string, string)>, n: nat)
    requires AliasesApart(pairs) && n <= |pairs|
    ensures AliasesApart(pairs[..n])
  {
  }

  /** When no alias among the first `n` is `name`, no pair of that prefix has `name` as its alias. */
  lemma PrefixAvoids(pairs: seq<(string, string)>, n: nat, name: string)
    requires n <= |pairs|
    requires forall k :: 0 <= k < n ==> pairs[k].0 != name
    ensures forall p :: p in pairs[..n] ==> p.0 != name
  {
    forall p | p in pairs[..n]
      ensures p.0 != name
    {
      var k :| 0 <= k < n && pairs[..n][k] == p;
      assert pairs[k] == p;
    }
  }

  /** The shipped alias map meets the conditions of `AliasOverEntry`. */
  lemma AliasMapApart()
    ensures AliasesApart(AliasMap)
  {
  }

  // ---------------------------------------------------------------------
  // CANVAS_CODE and BUTTON_HOVER

  /**
   * Light mode only: when the light `CANVAS_INSET` is customised,
   * `CANVAS_CODE` takes the version-2 default light `CANVAS_INSET`.
   */
  function CodeStep(colors: Value, v2: Value): Result<Value>
  {
    match Mode(colors, "CANVAS_INSET", 1)
    case Err(e) => Err(e)
    case Ok(a) =>
      match Mode(v2, "CANVAS_INSET", 1)
      case Err(e) => Err(e)
      case Ok(b) => if a != b then SetMode(colors, "CANVAS_CODE", 1, b) else Ok(colors)
  }

  /** The effect of `CodeStep` on every mode of every entry. */
  lemma CodeStepEffect(colors: Value, v2: Value, other: string, j: int)
    requires CodeStep(colors, v2).Ok? && j >= 0
    ensures Mode(colors, "CANVAS_INSET", 1).Ok? && Mode(v2, "CANVAS_INSET", 1).Ok?
    ensures Mode(CodeStep(colors, v2).value, "CANVAS_CODE", 1) ==
      if Mode(colors, "CANVAS_INSET", 1) != Mode(v2, "CANVAS_INSET", 1) then Mode(v2, "CANVAS_INSET", 1)
      else Mode(colors, "CANVAS_CODE", 1)
    ensures other != "CANVAS_CODE" || j != 1 ==> Mode(CodeStep(colors, v2).value, other, j) == Mode(colors, other, j)
    ensures colors.Dict? ==> CodeStep(colors, v2).value.Dict? && CodeStep(colors, v2).value.m.Keys == colors.m.Keys
  {
    var b := Mode(v2, "CANVAS_INSET", 1).value;
    if Mode(colors, "CANVAS_INSET", 1).value != b {
      SetModeEffect(colors, "CANVAS_CODE", 1, b, other, j);
    }
  }

  /**
   * `if colors["BUTTON_HOVER"][i] == colors["BUTTON_BG"][i]:` the hover
   * value is replaced by `darken(hover, 5)`, as written. `darken` adds its
   * amount, so this lightens, and a hover that is already white stays
   * equal to the background.
   */
  function HoverStepAsWritten(colors: Value, i: int): Result<Value>
  {
    match Mode(colors, "BUTTON_HOVER", i)
    case Err(e) => Err(e)
    case Ok(h) =>
      match Mode(colors, "BUTTON_BG", i)
      case Err(e) => Err(e)
      case Ok(b) =>
        if h == b then
          match DarkenValue(h, 5)
          case Err(e) => Err(e)
          case Ok(d) => SetMode(colors, "BUTTON_HOVER", i, d)
        else Ok(colors)
  }

  /** A hover value that `darken(·, 5)` leaves as it is stays equal to the background. */
  lemma HoverFixedPoint(colors: Value, h: Value, i: int)
    requires i >= 0
    requires colors.Dict? && "BUTTON_HOVER" in colors.m && colors.m["BUTTON_HOVER"].List?
    requires Mode(colors, "BUTTON_HOVER", i) == Ok(h) && Mode(colors, "BUTTON_BG", i) == Ok(h)
    requires DarkenValue(h, 5) == Ok(h)
    ensures HoverStepAsWritten(colors, i).Ok?
    ensures Mode(HoverStepAsWritten(colors, i).value, "BUTTON_HOVER", i) ==
            Mode(HoverStepAsWritten(colors, i).value, "BUTTON_BG", i)
  {
    assert HoverStepAsWritten(colors, i) == SetMode(colors, "BUTTON_HOVER", i, h);
    RewriteKeepsEqual(colors, h, i);
  }

  /** Writing the background's own value into the hover leaves the two equal. */
  lemma RewriteKeepsEqual(colors: Value, h: Value, i: int)
    requires i >= 0
    requires colors.Dict? && "BUTTON_HOVER" in colors.m && colors.m["BUTTON_HOVER"].List?
    requires Mode(colors, "BUTTON_HOVER", i) == Ok(h) && Mode(colors, "BUTTON_BG", i) == Ok(h)
    ensures SetMode(colors, "BUTTON_HOVER", i, h).Ok?
    ensures Mode(SetMode(colors, "BUTTON_HOVER", i, h).value, "BUTTON_HOVER", i) ==
            Mode(SetMode(colors, "BUTTON_HOVER", i, h).value, "BUTTON_BG", i)
  {
    SetModeFails(colors, "BUTTON_HOVER", i, h);
    SetModeEffect(colors, "BUTTON_HOVER", i, h, "BUTTON_BG", i);
  }

  /** `darken("#FFFFFF", 5)` is `#FFFFFF`. */
  lemma WhiteIsFixed()
    ensures DarkenValue(Str("#FFFFFF"), 5) == Ok(Str("#FFFFFF"))
  {
    DarkenSaturatesAtWhite();
  }

  /** With hover and background both `#FFFFFF`, the step as written leaves them equal. */
  lemma AsWrittenHoverCounterexample(colors: Value)
    requires colors.Dict? && "BUTTON_HOVER" in colors.m && colors.m["BUTTON_HOVER"].List?
    requires Mode(colors, "BUTTON_HOVER", 1) == Ok(Str("#FFFFFF"))
    requires Mode(colors, "BUTTON_BG", 1) == Ok(Str("#FFFFFF"))
    ensures HoverStepAsWritten(colors, 1).Ok?
    ensures Mode(HoverStepAsWritten(colors, 1).value, "BUTTON_HOVER", 1) ==
            Mode(HoverStepAsWritten(colors, 1).value, "BUTTON_BG", 1)
  {
    WhiteIsFixed();
    HoverFixedPoint(colors, Str("#FFFFFF"), 1);
  }

  /**
   * The hover value moved away from the background: `darken(hover, 5)` as
   * the source does, or `darken(hover, -5)` when the first leaves every
   * channel where it was (all three at 255).
   */
  function Nudge(v: Value): Result<Value>
  {
    match v
    case Str(s) =>
      (match Darken(s, 5)
       case Err(e) => Err(e)
       case Ok(t) =>
         if Channels(t) != Channels(s) then Ok(Str(t))
         else Ok(Str(Darken(s, -5).value)))
    case _ => Err(TypeError)
  }

  /** A nudged colour always reads back with other channels than it had. */
  lemma NudgeMoves(s: string)
    requires Channels(s).Some?
    ensures Nudge(Str(s)).Ok? && Nudge(Str(s)).value.Str?
    ensures Channels(Nudge(Str(s)).value.s).Some? && Channels(Nudge(Str(s)).value.s) != Channels(s)
  {
    var c := Channels(s).value;
    var up := Darken(s, 5).value;
    DarkenReadsBack(s, 5);
    if Channels(up) == Channels(s) {
      var down := Darken(s, -5).value;
      DarkenReadsBack(s, -5);
      SaturatedChannel(c.0);
      assert Nudge(Str(s)) == Ok(Str(down));
    } else {
      assert Nudge(Str(s)) == Ok(Str(up));
    }
  }

  /** A channel that adding 5 leaves in place is 255, and taking 5 from it moves it. */
  lemma SaturatedChannel(c: int)
    requires Clamp(c + 5) == c
    ensures Clamp(c - 5) != c
  {
  }

  /** The corrected step: equal hover and background values are told apart by `Nudge`. */
  function HoverStep(colors: Value, i: int): Result<Value>
  {
    match Mode(colors, "BUTTON_HOVER", i)
    case Err(e) => Err(e)
    case Ok(h) =>
      match Mode(colors, "BUTTON_BG", i)
      case Err(e) => Err(e)
      case Ok(b) =>
        if h == b then
          match Nudge(h)
          case Err(e) => Err(e)
          case Ok(d) => SetMode(colors, "BUTTON_HOVER", i, d)
        else Ok(colors)
  }

  /**
   * After the corrected step, a hover colour that equalled the background
   * has other channels than the background, and nothing else changed.
   */
  lemma HoverStepSeparates(colors: Value, i: int, other: string, j: int)
    requires HoverStep(colors, i).Ok? && i >= 0 && j >= 0
    ensures Mode(colors, "BUTTON_BG", i).Ok? && Mode(HoverStep(colors, i).value, "BUTTON_BG", i) == Mode(colors, "BUTTON_BG", i)
    ensures var b := Mode(colors, "BUTTON_BG", i).value;
      Mode(colors, "BUTTON_HOVER", i) == Ok(b) && b.Str? && Channels(b.s).Some? ==>
        var h := Mode(HoverStep(colors, i).value, "BUTTON_HOVER", i);
        h.Ok? && h.value.Str? && Channels(h.value.s) != Channels(b.s)
    ensures other != "BUTTON_HOVER" || j != i ==> Mode(HoverStep(colors, i).value, other, j) == Mode(colors, other, j)
    ensures colors.Dict? ==> HoverStep(colors, i).value.Dict? && HoverStep(colors, i).value.m.Keys == colors.m.Keys
  {
    var h := Mode(colors, "BUTTON_HOVER", i).value;
    if h == Mode(colors, "BUTTON_BG", i).value {
      var d := Nudge(h).value;
      SetModeEffect(colors, "BUTTON_HOVER", i, d, other, j);
      SetModeEffect(colors, "BUTTON_HOVER", i, d, "BUTTON_BG", j);
      if h.Str? && Channels(h.s).Some? {
        NudgeMoves(h.s);
      }
    }
  }

  /** Both modes of the corrected step, light first. */
  function Hover(colors: Value): Result<Value>
  {
    match HoverStep(colors, 1)
    case Err(e) => Err(e)
    case Ok(c1) => HoverStep(c1, 2)
  }

  // ---------------------------------------------------------------------
  // The colour logic of maybe_v1_to_v2

  /**
   * The version-2 colours built from the version-1 colours `v1`, the
   * version-1 vanilla colours `anki` and the version-2 defaults `v2`.
   */
  function V2Colors(v1: Value, anki: Value, v2: Value): Result<Value>
  {
    match CarryOver(v1, anki, v2, ColorMap)
    case Err(e) => Err(e)
    case Ok(c1) =>
      match AliasOver(c1, v2, AliasMap)
      case Err(e) => Err(e)
      case Ok(c2) =>
        match CodeStep(c2, v2)
        case Err(e) => Err(e)
        case Ok(c3) => Hover(c3)
  }

  /** The migrated colours have exactly the key set of the version-2 defaults. */
  lemma V2ColorsKeys(v1: Value, anki: Value, v2: Value)
    requires V2Colors(v1, anki, v2).Ok? && v2.Dict?
    ensures V2Colors(v1, anki, v2).value.Dict? && V2Colors(v1, anki, v2).value.m.Keys == v2.m.Keys
  {
    var c1 := CarryOver(v1, anki, v2, ColorMap).value;
    CarryOverKeys(v1, anki, v2, ColorMap);
    var c2 := AliasOver(c1, v2, AliasMap).value;
    AliasOverKeys(c1, v2, AliasMap);
    var c3 := CodeStep(c2, v2).value;
    CodeStepEffect(c2, v2, "", 0);
    HoverStepSeparates(c3, 1, "", 0);
    HoverStepSeparates(HoverStep(c3, 1).value, 2, "", 0);
  }

  /** The first loop: `for old_name in COLOR_MAP`, starting from the defaults. */
  method CarryColors(v1: Value, anki: Value, v2: Value, pairs: seq<(string, string)>) returns (r: Result<Value>)
    ensures r == CarryOver(v1, anki, v2, pairs)
  {
    var colors := v2;
    var i := 0;
    while i < |pairs|
      invariant 0 <= i <= |pairs|
      invariant CarryOver(v1, anki, v2, pairs[..i]) == Ok(colors)
    {
      assert pairs[..i + 1][..i] == pairs[..i];
      var oldName := pairs[i].0;
      var newName := pairs[i].1;
      if newName != "" {
        var step := CarryMode(colors, v1, anki, oldName, newName, 1);
        if step.Err? {
          CarryOverStops(v1, anki, v2, pairs, i + 1);
          return Err(step.error);
        }
        step := CarryMode(step.value, v1, anki, oldName, newName, 2);
        if step.Err? {
          CarryOverStops(v1, anki, v2, pairs, i + 1);
          return Err(step.error);
        }
        colors := step.value;
      }
      i := i + 1;
    }
    assert pairs[..i] == pairs;
    return Ok(colors);
  }

  /** The body of the second loop for one alias: both modes, light first. */
  method AliasOne(colors: Value, v2: Value, pair: (string, string)) returns (r: Result<Value>)
    ensures r == AliasPair(colors, v2, pair)
  {
    var (alias, orig) := pair;
    r := CarryMode(colors, colors, v2, orig, alias, 1);
    if r.Ok? {
      r := CarryMode(r.value, r.value, v2, orig, alias, 2);
    }
  }

  /** The second loop: `for alias in V2_ALIAS_MAP`. */
  method PropagateAliases(carried: Value, v2: Value, pairs: seq<(string, string)>) returns (r: Result<Value>)
    ensures r == AliasOver(carried, v2, pairs)
  {
    var colors := carried;
    var k := 0;
    while k < |pairs|
      invariant 0 <= k <= |pairs|
      invariant AliasOver(carried, v2, pairs[..k]) == Ok(colors)
    {
      var step := AliasOne(colors, v2, pairs[k]);
      AliasLoopStep(carried, v2, pairs, k, colors, step);
      if step.Err? {
        return step;
      }
      colors := step.value;
      k := k + 1;
    }
    assert pairs[..k] == pairs;
    return Ok(colors);
  }

  /**
   * `maybe_v1_to_v2`'s colour logic: the two loops, the CANVAS_CODE rule
   * and the corrected hover rule.
   */
  method MigrateColors(v1: Value, anki: Value, v2: Value) returns (r: Result<Value>)
    ensures r == V2Colors(v1, anki, v2)
  {
    var carried := CarryColors(v1, anki, v2, ColorMap);
    if carried.Err? {
      return Err(carried.error);
    }
    var aliased := PropagateAliases(carried.value, v2, AliasMap);
    if aliased.Err? {
      return Err(aliased.error);
    }
    var code := CodeStep(aliased.value, v2);
    if code.Err? {
      return Err(code.error);
    }
    var hover := HoverStep(code.value, 1);
    if hover.Err? {
      return Err(hover.error);
    }
    r := HoverStep(hover.value, 2);
  }

  // ---------------------------------------------------------------------
  // The backup of the version-1 document

  /** `conf.get("")` as written: the key `""` is one segment, so a document without that key backs up as `None`. */
  function BackupAsWritten(doc: Value): Result<Value>
  {
    LookupOr(doc, Path(""), Null)
  }

  /** Any document that is a mapping without a `""` key is backed up as `null`. */
  lemma AsWrittenBackupCounterexample(doc: Value)
    requires doc.Dict? && "" !in doc.m
    ensures BackupAsWritten(doc) == Ok(Null)
  {
    assert Path("") == [""] by {
      SplitWithoutSeparator("", '.');
    }
    assert Lookup(doc, [""]) == Err(KeyError);
  }

  // ---------------------------------------------------------------------
  // maybe_v1_to_v2 over the manager

  /**
   * The document after `maybe_v1_to_v2` runs on the stored document, with
   * the defaults `defaults` and the parsed `v1_anki_config.json` document
   * `ankiDoc`, and the exception if it raises.
   */
  function V1Doc(stored: Value, defaults: Value, ankiDoc: Value): (Value, Option<PyError>)
  {
    match LookupOr(stored, Path("colors"), Null)
    case Err(e) => (stored, Some(e))
    case Ok(v1) =>
      match GetKey(ankiDoc, "colors")
      case Err(e) => (stored, Some(e))
      case Ok(anki) =>
        match Lookup(defaults, Path("colors"))
        case Err(e) => (stored, Some(e))
        case Ok(v2) => WriteColors(stored, Outcome(stored, V2Colors(v1, anki, v2)))
  }

  /** The colours and the exception of a computation that leaves `doc` as it was when it raises. */
  function Outcome(doc: Value, r: Result<Value>): (Value, Option<PyError>)
  {
    match r
    case Ok(colors) => (colors, None)
    case Err(e) => (doc, Some(e))
  }

  /** A completed step leaves every top-level entry but `colors` as it was, the version tag among them. */
  lemma V1DocFrame(stored: Value, defaults: Value, ankiDoc: Value, p: seq<string>)
    requires V1Doc(stored, defaults, ankiDoc).1 == None
    requires |p| >= 1 && p[0] != "colors" && AllCanonical(p)
    ensures Lookup(V1Doc(stored, defaults, ankiDoc).0, p) == Lookup(stored, p)
  {
    var v1 := LookupOr(stored, Path("colors"), Null).value;
    var anki := GetKey(ankiDoc, "colors").value;
    var v2 := Lookup(defaults, Path("colors")).value;
    WriteColorsFrame(stored, Outcome(stored, V2Colors(v1, anki, v2)), p);
  }

  /**
   * `maybe_v1_to_v2(conf)`: reload, back up the whole version-1 document,
   * build the version-2 colours, write them and save. An exception leaves
   * the freshly loaded document in place and unsaved; the backup is taken
   * first in any case.
   */
  method MaybeV1ToV2(conf: ConfigManager, ankiDoc: Value) returns (backup: Value, err: Option<PyError>)
    modifies conf
    ensures backup == old(conf.stored)
    ensures (conf.config, err) == V1Doc(old(conf.stored), conf.defaults, ankiDoc)
    ensures conf.stored == if err.None? then conf.config else old(conf.stored)
  {
    conf.Load();
    backup := conf.Copy();
    var v1 := conf.Get("colors", Null);
    if v1.Err? {
      return backup, Some(v1.error);
    }
    var anki := GetKey(ankiDoc, "colors");
    if anki.Err? {
      return backup, Some(anki.error);
    }
    var v2 := conf.GetDefault("colors");
    if v2.Err? {
      return backup, Some(v2.error);
    }
    var colors := MigrateColors(v1.value, anki.value, v2.value);
    if colors.Err? {
      return backup, Some(colors.error);
    }
    err := conf.Set("colors", colors.value);
    if err.Some? {
      return;
    }
    conf.Save();
  }
}

=== FILE: migrate_v3.dfy ===
/**
 * The step that brings a version-2 `colors` document to version 3: detect
 * an untagged version-2 document, add the translucent `CANVAS_GLASS`
 * entry derived from `CANVAS_ELEVATED`, and register the Bootstrap
 * variables `--bs-body-bg` and `--bs-body-color` as extra CSS names of
 * `CANVAS` and `FG`.
 */
module MigrateV3 {
  import opened PyText
  import opened PyValues
  import opened Manager
  import opened ManagerLaws
  import opened HexColor
  import opened ColorEntry
  import opened Versions

  // ---------------------------------------------------------------------
  // detect_v2

  /** `a` occurs in `s` as a contiguous piece. */
  predicate IsSubstring(a: string, s: string)
    decreases |s|
  {
    StartsWith(s, a) || (|s| > 0 && IsSubstring(a, s[1..]))
  }

  /** Python's `needle in container` for a string needle: a key of a mapping, an element of a list, a piece of a string. */
  function PyIn(needle: string, container: Value): Result<bool>
  {
    match container
    case Dict(_, m) => Ok(needle in m)
    case List(items) => Ok(Str(needle) in items)
    case Str(s) => Ok(IsSubstring(needle, s))
    case _ => Err(TypeError)
  }

  lemma ColorsPath()
    ensures Path("colors") == ["colors"]
  {
    SplitWithoutSeparator("colors", '.');
  }

  /**
   * `"CANVAS_GLASS" not in conf["colors"] and "CANVAS" in conf["colors"]`;
   * `conf["colors"]` is `None` when the document has no colours.
   */
  function DetectV2(doc: Value): Result<bool>
  {
    match LookupOr(doc, Path("colors"), Null)
    case Err(e) => Err(e)
    case Ok(colors) =>
      match PyIn("CANVAS_GLASS", colors)
      case Err(e) => Err(e)
      case Ok(glass) =>
        if glass then Ok(false) else PyIn("CANVAS", colors)
  }

  /** On a mapping of colours, the document is taken for version 2 iff it has `CANVAS` and lacks `CANVAS_GLASS`. */
  lemma DetectV2OnColors(doc: Value)
    requires doc.Dict? && "colors" in doc.m && doc.m["colors"].Dict?
    ensures DetectV2(doc) == Ok("CANVAS" in doc.m["colors"].m && "CANVAS_GLASS" !in doc.m["colors"].m)
  {
    ColorsPath();
    assert Lookup(doc, ["colors"]) == Ok(doc.m["colors"]);
  }

  /** Without a `colors` entry the test reads `None` and raises TypeError. */
  lemma DetectV2WithoutColors(doc: Value)
    requires doc.Dict? && "colors" !in doc.m
    ensures DetectV2(doc) == Err(TypeError)
  {
    ColorsPath();
    assert Lookup(doc, ["colors"]) == Err(KeyError);
  }

  // ---------------------------------------------------------------------
  // adjust_colors_v3

  const GlassLabel := "Background (transparent text surface)"

  /** The new entry: label, the two adjusted values, and the one CSS name `--canvas-glass`. */
  function GlassEntry(light: Value, dark: Value): Value
  {
    List([Str(GlassLabel), light, dark, Str("--canvas-glass")])
  }

  /** Two entries of the same length that agree on every field but the CSS names (index 3). */
  predicate OtherFieldsKept(before: Value, after: Value)
  {
    && before.List? && after.List? && |after.items| == |before.items|
    && forall k :: 0 <= k < |before.items| && k != 3 ==> after.items[k] == before.items[k]
  }

  /**
   * `if not isinstance(e[3], list): e[3] = [e[3]]` then `e[3].append(name)`:
   * the entry with `name` added to its CSS names.
   */
  function AppendCssName(entry: Value, name: string): (r: Result<Value>)
    ensures r.Ok? <==> entry.List? && |entry.items| > 3
    ensures r.Ok? ==> CssNames(r.value) == Ok(CssNames(entry).value + [Str(name)])
    ensures r.Ok? ==> OtherFieldsKept(entry, r.value)
  {
    match GetIndex(entry, 3)
    case Err(e) => Err(e)
    case Ok(css) =>
      var names := if css.List? then css.items else [css];
      SetIndex(entry, 3, List(names + [Str(name)]))
  }

  /**
   * The state of `colors` when `adjust_colors_v3(colors)` returns or raises,
   * and the exception if it raises. `CANVAS_GLASS` is inserted before
   * `CANVAS` and `FG` are read, so a missing `CANVAS` leaves the glass entry
   * behind. `adjust_alpha` is called with the factor 0.4.
   */
  function V3Colors(colors: Value): (Value, Option<PyError>)
  {
    match GlassOf(colors)
    case Err(e) => (colors, Some(e))
    case Ok(glass) => RegisterBootstrap(Insert(colors, "CANVAS_GLASS", glass))
  }

  /** The `CANVAS_GLASS` entry computed from `CANVAS_ELEVATED`, before anything is written. */
  function GlassOf(colors: Value): Result<Value>
  {
    match GetKey(colors, "CANVAS_ELEVATED")
    case Err(e) => Err(e)
    case Ok(elevated) =>
      match Light(elevated)
      case Err(e) => Err(e)
      case Ok(l) =>
        match AdjustAlphaValue(l, 2, 5)
        case Err(e) => Err(e)
        case Ok(light) =>
          match Dark(elevated)
          case Err(e) => Err(e)
          case Ok(d) =>
            match AdjustAlphaValue(d, 2, 5)
            case Err(e) => Err(e)
            case Ok(dark) => Ok(GlassEntry(light, dark))
  }

  /** The two Bootstrap registrations, `CANVAS` first; a failure in the second leaves the first in place. */
  function RegisterBootstrap(c1: Value): (Value, Option<PyError>)
  {
    var (c2, e) := AppendCssAt(c1, "CANVAS", "--bs-body-bg");
    if e.Some? then (c2, e) else AppendCssAt(c2, "FG", "--bs-body-color")
  }

  /** `colors[key][3]` gains `name`; on an exception `colors` is as it was. */
  function AppendCssAt(colors: Value, key: string, name: string): (Value, Option<PyError>)
  {
    match GetKey(colors, key)
    case Err(e) => (colors, Some(e))
    case Ok(entry) =>
      match AppendCssName(entry, name)
      case Err(e) => (colors, Some(e))
      case Ok(entry2) => (Insert(colors, key, entry2), None)
  }

  /**
   * `adjust_colors_v3(colors)`, one in-place update after another on the
   * caller's mapping; `updated` is the mapping afterwards.
   */
  method AdjustColorsV3(colors: Value) returns (updated: Value, err: Option<PyError>)
    ensures (updated, err) == V3Colors(colors)
  {
    updated, err := colors, None;
    var elevated := GetKey(updated, "CANVAS_ELEVATED");
    if elevated.Err? {
      return updated, Some(elevated.error);
    }
    var l := Light(elevated.value);
    if l.Err? {
      return updated, Some(l.error);
    }
    var light := AdjustAlphaValue(l.value, 2, 5);
    if light.Err? {
      return updated, Some(light.error);
    }
    var d := Dark(elevated.value);
    if d.Err? {
      return updated, Some(d.error);
    }
    var dark := AdjustAlphaValue(d.value, 2, 5);
    if dark.Err? {
      return updated, Some(dark.error);
    }
    updated := Insert(updated, "CANVAS_GLASS", GlassEntry(light.value, dark.value));
    var canvas := GetKey(updated, "CANVAS");
    if canvas.Err? {
      return updated, Some(canvas.error);
    }
    var canvas2 := AppendCssName(canvas.value, "--bs-body-bg");
    if canvas2.Err? {
      return updated, Some(canvas2.error);
    }
    updated := Insert(updated, "CANVAS", canvas2.value);
    var fg := GetKey(updated, "FG");
    if fg.Err? {
      return updated, Some(fg.error);
    }
    var fg2 := AppendCssName(fg.value, "--bs-body-color");
    if fg2.Err? {
      return updated, Some(fg2.error);
    }
    updated := Insert(updated, "FG", fg2.value);
  }

  /** The entries the step rewrites. */
  predicate Touched(k: string)
  {
    k == "CANVAS_GLASS" || k == "CANVAS" || k == "FG"
  }

  /**
   * A completed step adds `CANVAS_GLASS` built from `CANVAS_ELEVATED` at
   * alpha factor 0.4, appends exactly one CSS name to `CANVAS` and to `FG`
   * (their other fields stay as they were), and leaves every other entry as
   * it was.
   */
  lemma V3ColorsSpec(colors: Value)
    requires V3Colors(colors).1 == None
    ensures var c := V3Colors(colors).0;
      && colors.Dict? && c.Dict?
      && c.m.Keys == colors.m.Keys + {"CANVAS_GLASS"}
      && "CANVAS_ELEVATED" in colors.m && "CANVAS" in colors.m && "FG" in colors.m
      && c.m["CANVAS_GLASS"] == GlassEntry(
           AdjustAlphaValue(Light(colors.m["CANVAS_ELEVATED"]).value, 2, 5).value,
           AdjustAlphaValue(Dark(colors.m["CANVAS_ELEVATED"]).value, 2, 5).value)
      && CssNames(c.m["CANVAS"]) == Ok(CssNames(colors.m["CANVAS"]).value + [Str("--bs-body-bg")])
      && CssNames(c.m["FG"]) == Ok(CssNames(colors.m["FG"]).value + [Str("--bs-body-color")])
      && OtherFieldsKept(colors.m["CANVAS"], c.m["CANVAS"])
      && OtherFieldsKept(colors.m["FG"], c.m["FG"])
      && forall k :: k in colors.m && !Touched(k) ==> c.m[k] == colors.m[k]
  {
  }

  /**
   * The step succeeds on every mapping whose `CANVAS_ELEVATED` holds two
   * colour strings that `adjust_alpha` accepts and whose `CANVAS` and `FG`
   * entries have a CSS-name field.
   */
  lemma V3ColorsSucceeds(colors: Value)
    requires colors.Dict? && "CANVAS_ELEVATED" in colors.m && "CANVAS" in colors.m && "FG" in colors.m
    requires var e := colors.m["CANVAS_ELEVATED"];
      e.List? && |e.items| > 2 && e.items[1].Str? && e.items[2].Str?
      && AdjustAlpha(e.items[1].s, 2, 5).Ok? && AdjustAlpha(e.items[2].s, 2, 5).Ok?
    requires colors.m["CANVAS"].List? && |colors.m["CANVAS"].items| > 3
    requires colors.m["FG"].List? && |colors.m["FG"].items| > 3
    ensures V3Colors(colors).1 == None
  {
  }

  /**
   * The step is not idempotent: run twice, it appends `--bs-body-bg` to
   * `CANVAS` twice.
   */
  lemma V3ColorsTwice(colors: Value, once: Value, twice: Value)
    requires V3Colors(colors) == (once, None)
    requires V3Colors(once) == (twice, None)
    ensures && colors.Dict? && once.Dict? && twice.Dict?
      && "CANVAS" in colors.m && "CANVAS" in once.m && "CANVAS" in twice.m
      && CssNames(colors.m["CANVAS"]).Ok?
      && CssNames(twice.m["CANVAS"]) == Ok(CssNames(colors.m["CANVAS"]).value + [Str("--bs-body-bg"), Str("--bs-body-bg")])
      && twice.m["CANVAS"] != once.m["CANVAS"]
  {
    CanvasGrows(colors);
    CanvasGrows(once);
    GrowsTwice(CssNames(colors.m["CANVAS"]).value, once.m["CANVAS"], twice.m["CANVAS"], Str("--bs-body-bg"));
  }

  /** Two entries whose CSS names grow by the same name one after the other. */
  lemma GrowsTwice(names: seq<Value>, e1: Value, e2: Value, x: Value)
    requires CssNames(e1) == Ok(names + [x])
    requires CssNames(e2) == Ok(CssNames(e1).value + [x])
    ensures CssNames(e2) == Ok(names + [x, x]) && e2 != e1
  {
    assert names + [x] + [x] == names + [x, x];
    assert |CssNames(e1).value| < |CssNames(e2).value|;
  }

  /** One run of the step appends `--bs-body-bg` to the CSS names of `CANVAS`. */
  lemma CanvasGrows(colors: Value)
    requires V3Colors(colors).1 == None
    ensures var c := V3Colors(colors).0;
      && colors.Dict? && c.Dict? && "CANVAS" in colors.m && "CANVAS" in c.m
      && CssNames(colors.m["CANVAS"]).Ok?
      && CssNames(c.m["CANVAS"]) == Ok(CssNames(colors.m["CANVAS"]).value + [Str("--bs-body-bg")])
  {
    V3ColorsSpec(colors);
  }

  /** `adjust_alpha("white", 0.4)` is `#ffffff66`. */
  lemma WhiteGlass()
    ensures AdjustAlphaValue(Str("white"), 2, 5) == Ok(Str("#ffffff66"))
  {
    assert "white"[0] == 'w';
    assert !StartsWith("white", "#") && !StartsWith("white", "rgba");
    AdjustAlphaKeywords("white");
  }

  /** With the shipped palette, whose elevated canvas is `white` in light mode, the glass is `#ffffff66`. */
  lemma GlassFromWhite(colors: Value)
    requires V3Colors(colors).1 == None
    requires colors.Dict? && "CANVAS_ELEVATED" in colors.m
    requires Light(colors.m["CANVAS_ELEVATED"]) == Ok(Str("white"))
    ensures Light(V3Colors(colors).0.m["CANVAS_GLASS"]) == Ok(Str("#ffffff66"))
  {
    V3ColorsSpec(colors);
    WhiteGlass();
    var c := V3Colors(colors).0;
    var dark := AdjustAlphaValue(Dark(colors.m["CANVAS_ELEVATED"]).value, 2, 5).value;
    assert c.m["CANVAS_GLASS"] == GlassEntry(Str("#ffffff66"), dark);
  }

  // ---------------------------------------------------------------------
  // v2_to_v3

  /**
   * The document after `v2_to_v3` runs on the loaded document `doc`, and
   * the exception if it raises: the colours are read as a copy, so the
   * document changes only through the final `set`.
   */
  function V3Doc(doc: Value): (Value, Option<PyError>)
  {
    match LookupOr(doc, Path("colors"), Null)
    case Err(e) => (doc, Some(e))
    case Ok(colors) => WriteColors(doc, V3Colors(colors))
  }

  /** The final `conf.set("colors", …)`, skipped when the adjustment raised. */
  function WriteColors(doc: Value, adjusted: (Value, Option<PyError>)): (Value, Option<PyError>)
  {
    if adjusted.1.Some? then (doc, adjusted.1)
    else match SetPath(doc, Path("colors"), adjusted.0)
      case Err(e) => (doc, Some(e))
      case Ok(d) => (d, None)
  }

  /** A completed write leaves the adjusted colours under `colors`. */
  lemma WriteColorsStores(doc: Value, adjusted: (Value, Option<PyError>))
    requires WriteColors(doc, adjusted).1 == None
    ensures adjusted.1 == None
    ensures Lookup(WriteColors(doc, adjusted).0, Path("colors")) == Ok(adjusted.0)
  {
    ColorsPath();
    SetThenGet(doc, Path("colors"), adjusted.0);
  }

  /**
   * `v2_to_v3(conf)`: reload, adjust a copy of the colours, write it back
   * and save. An exception leaves the freshly loaded document in place and
   * unsaved.
   */
  method V2ToV3(conf: ConfigManager) returns (err: Option<PyError>)
    modifies conf
    ensures (conf.config, err) == V3Doc(old(conf.stored))
    ensures conf.stored == if err.None? then conf.config else old(conf.stored)
  {
    conf.Load();
    var colors := conf.Get("colors", Null);
    if colors.Err? {
      return Some(colors.error);
    }
    var updated;
    updated, err := AdjustColorsV3(colors.value);
    if err.Some? {
      return;
    }
    err := conf.Set("colors", updated);
    if err.Some? {
      return;
    }
    conf.Save();
  }

  /** After a completed step the stored colours are the adjusted ones. */
  lemma V3DocColors(doc: Value)
    requires V3Doc(doc).1 == None
    ensures LookupOr(doc, Path("colors"), Null).Ok?
    ensures Lookup(V3Doc(doc).0, Path("colors")) == Ok(V3Colors(LookupOr(doc, Path("colors"), Null).value).0)
  {
    var colors := LookupOr(doc, Path("colors"), Null).value;
    WriteColorsStores(doc, V3Colors(colors));
  }

  /** After a completed step the document is no longer taken for an untagged version 2, so the step is not repeated from the `-1.-1` sentinel. */
  lemma V3DocNotV2(doc: Value)
    requires V3Doc(doc).1 == None
    ensures DetectV2(V3Doc(doc).0) == Ok(false)
  {
    ColorsPath();
    V3DocColors(doc);
    var colors := LookupOr(doc, Path("colors"), Null).value;
    var c := V3Colors(colors).0;
    V3ColorsSpec(colors);
    assert LookupOr(V3Doc(doc).0, Path("colors"), Null) == Ok(c);
    assert PyIn("CANVAS_GLASS", c) == Ok(true);
  }

  /** A completed write leaves every top-level entry but `colors` as it was. */
  lemma WriteColorsFrame(doc: Value, adjusted: (Value, Option<PyError>), p: seq<string>)
    requires WriteColors(doc, adjusted).1 == None
    requires |p| >= 1 && p[0] != "colors" && AllCanonical(p)
    ensures Lookup(WriteColors(doc, adjusted).0, p) == Lookup(doc, p)
  {
    ColorsPath();
    assert Diverge(["colors"], p) by {
      assert ["colors"][0] != p[0];
    }
    assert AllCanonical(["colors"]) by {
      WordIsNotInt("colors");
    }
    SetFrame(doc, ["colors"], p, adjusted.0);
  }

  /** A completed step leaves every top-level entry but `colors` as it was. */
  lemma V3DocFrame(doc: Value, p: seq<string>)
    requires V3Doc(doc).1 == None
    requires |p| >= 1 && p[0] != "colors" && AllCanonical(p)
    ensures Lookup(V3Doc(doc).0, p) == Lookup(doc, p)
  {
    var colors := LookupOr(doc, Path("colors"), Null).value;
    WriteColorsFrame(doc, V3Colors(colors), p);
  }
}

=== FILE: pytext.dfy ===
/**
 * The string operations of the Python runtime that the configuration layer
 * relies on: `str.split`, `str.join`, slicing, `str.lower`, `str.replace`,
 * `int(text, base)` and the `str(int)` / `"%02X"` renderings.
 * Characters are treated as ASCII (Unicode case mapping and Unicode
 * whitespace are outside this model).
 */
module PyText {

  datatype Option<T> = None | Some(value: T)

  /** Python's `s.startswith(p)`. */
  predicate StartsWith(s: string, p: string)
  {
    |p| <= |s| && s[..|p|] == p
  }

  /** Python's `s[i:j]` for non-negative bounds: out-of-range bounds are clamped. */
  function Slice(s: string, i: nat, j: nat): (r: string)
    ensures |r| <= |s|
    ensures i <= j <= |s| ==> r == s[i..j]
    ensures j < i || |s| <= i ==> r == ""
  {
    var hi := if j < |s| then j else |s|;
    var lo := if i < hi then i else hi;
    s[lo..hi]
  }

  // ---------------------------------------------------------------------
  // split and join

  /** Python's `s.split(sep)` for a one-character separator. */
  function Split(s: string, sep: char): (parts: seq<string>)
    ensures |parts| >= 1
    ensures forall k :: 0 <= k < |parts| ==> sep !in parts[k]
    decreases |s|
  {
    if s == [] then [""]
    else
      var rest := Split(s[1..], sep);
      if s[0] == sep then [""] + rest
      else [[s[0]] + rest[0]] + rest[1..]
  }

  /** Python's `sep.join(parts)`. */
  function Join(sep: string, parts: seq<string>): string
    decreases |parts|
  {
    if |parts| == 0 then ""
    else if |parts| == 1 then parts[0]
    else parts[0] + sep + Join(sep, parts[1..])
  }

  /** Joining the parts of a split with the separator gives back the text. */
  lemma {:induction false} JoinOfSplit(s: string, sep: char)
    ensures Join([sep], Split(s, sep)) == s
    decreases |s|
  {
    if s != [] {
      JoinOfSplit(s[1..], sep);
      var rest := Split(s[1..], sep);
      if s[0] != sep {
        if |rest| == 1 {
          assert Split(s, sep) == [[s[0]] + rest[0]];
        } else {
          assert Split(s, sep) == [[s[0]] + rest[0]] + rest[1..];
          assert rest[1..][1..] == rest[2..];
          assert Join([sep], rest) == rest[0] + [sep] + Join([sep], rest[1..]);
        }
      }
    }
  }

  /** A text without the separator splits into itself alone. */
  lemma {:induction false} SplitWithoutSeparator(s: string, sep: char)
    requires sep !in s
    ensures Split(s, sep) == [s]
    decreases |s|
  {
    if s != [] {
      SplitWithoutSeparator(s[1..], sep);
      assert s[0] in s;
      assert [s[0]] + s[1..] == s;
    }
  }

  /** Splitting `a + sep + b`, where `a` has no separator, yields `a` and then the parts of `b`. */
  lemma {:induction false} SplitAtFirstSeparator(a: string, b: string, sep: char)
    requires sep !in a
    ensures Split(a + [sep] + b, sep) == [a] + Split(b, sep)
    decreases |a|
  {
    if a == [] {
      assert a + [sep] + b == [sep] + b;
      assert ([sep] + b)[1..] == b;
    } else {
      assert (a + [sep] + b)[1..] == a[1..] + [sep] + b;
      SplitAtFirstSeparator(a[1..], b, sep);
      assert [a[0]] + a[1..] == a;
    }
  }

  /** Splitting a join of separator-free parts gives back the parts. */
  lemma {:induction false} SplitOfJoin(parts: seq<string>, sep: char)
    requires |parts| >= 1
    requires forall k :: 0 <= k < |parts| ==> sep !in parts[k]
    ensures Split(Join([sep], parts), sep) == parts
    decreases |parts|
  {
    if |parts| == 1 {
      SplitWithoutSeparator(parts[0], sep);
    } else {
      SplitOfJoin(parts[1..], sep);
      SplitAtFirstSeparator(parts[0], Join([sep], parts[1..]), sep);
      assert [parts[0]] + parts[1..] == parts;
    }
  }

  // ---------------------------------------------------------------------
  // case and replacement

  function LowerChar(c: char): char
  {
    if 'A' <= c <= 'Z' then (c as int - 'A' as int + 'a' as int) as char else c
  }

  /** Python's `s.lower()` on ASCII letters. */
  function Lower(s: string): (r: string)
    ensures |r| == |s|
    ensures forall k :: 0 <= k < |s| ==> r[k] == LowerChar(s[k])
  {
    if s == [] then [] else [LowerChar(s[0])] + Lower(s[1..])
  }

  /** Python's `s.replace(a, b)` for one-character `a` and `b`. */
  function ReplaceChar(s: string, a: char, b: char): (r: string)
    ensures |r| == |s|
    ensures forall k :: 0 <= k < |s| ==> r[k] == (if s[k] == a then b else s[k])
  {
    if s == [] then [] else [if s[0] == a then b else s[0]] + ReplaceChar(s[1..], a, b)
  }

  /** Python's `s.replace(" ", "")`: every space removed, every other character kept in order. */
  function RemoveSpaces(s: string): (r: string)
    ensures ' ' !in r
    ensures forall c :: c in r ==> c in s
    ensures forall c :: c in s && c != ' ' ==> c in r
    ensures ' ' !in s ==> r == s
    ensures |r| <= |s|
  {
    if s == [] then [] else (if s[0] == ' ' then [] else [s[0]]) + RemoveSpaces(s[1..])
  }

  /** Removing spaces works piecewise: the order of the kept characters is the order in `s`. */
  lemma {:induction false} RemoveSpacesConcat(a: string, b: string)
    ensures RemoveSpaces(a + b) == RemoveSpaces(a) + RemoveSpaces(b)
    decreases |a|
  {
    if a != [] {
      assert (a + b)[0] == a[0] && (a + b)[1..] == a[1..] + b;
      RemoveSpacesConcat(a[1..], b);
    } else {
      assert a + b == b;
    }
  }

  // ---------------------------------------------------------------------
  // int(text, base)

  /** The characters `int()` strips from both ends of its argument. */
  predicate IsSpace(c: char)
  {
    c == ' ' || 9 <= c as int <= 13 || 28 <= c as int <= 31
  }

  function StripSpace(s: string): (r: string)
    ensures |r| <= |s|
    ensures |s| > 0 && !IsSpace(s[0]) && !IsSpace(s[|s| - 1]) ==> r == s
    decreases |s|
  {
    if |s| > 0 && IsSpace(s[0]) then StripSpace(s[1..])
    else if |s| > 0 && IsSpace(s[|s| - 1]) then StripSpace(s[..|s| - 1])
    else s
  }

  /** The value of a digit character in bases up to 16, or -1. */
  function DigitValue(c: char): int
  {
    if '0' <= c <= '9' then c as int - '0' as int
    else if 'a' <= c <= 'f' then c as int - 'a' as int + 10
    else if 'A' <= c <= 'F' then c as int - 'A' as int + 10
    else -1
  }

  predicate IsDigitIn(c: char, base: nat)
  {
    0 <= DigitValue(c) < base
  }

  /** `n * base`, written out per base so that the arithmetic stays linear. */
  function Shift(n: nat, base: nat): nat
  {
    if base == 10 then n * 10 else if base == 16 then n * 16 else n * base
  }

  /** The value of a non-empty string of digits of the given base. */
  function DigitsValue(d: string, base: nat): (r: Option<nat>)
    decreases |d|
  {
    if |d| == 0 then None
    else if !IsDigitIn(d[|d| - 1], base) then None
    else if |d| == 1 then Some(DigitValue(d[0]))
    else match DigitsValue(d[..|d| - 1], base)
      case None => None
      case Some(hi) => Some(Shift(hi, base) + DigitValue(d[|d| - 1]))
  }

  /**
   * Python's `int(s, base)` for base 10 or 16: surrounding whitespace is
   * ignored, one sign is allowed, base 16 also accepts a `0x` prefix.
   * `None` stands for the ValueError Python raises.
   */
  function ParseInt(s: string, base: nat): Option<int>
    requires base == 10 || base == 16
  {
    var t := StripSpace(s);
    var negative := |t| > 0 && t[0] == '-';
    var unsigned := if |t| > 0 && (t[0] == '-' || t[0] == '+') then t[1..] else t;
    var digits :=
      if base == 16 && |unsigned| >= 2 && unsigned[0] == '0' && (unsigned[1] == 'x' || unsigned[1] == 'X')
      then unsigned[2..] else unsigned;
    match DigitsValue(digits, base)
    case None => None
    case Some(n) =>
      var v: int := if negative then 0 - n else n;
      Some(v)
  }

  /** A single character that is not a digit of the base leaves the whole string without a value. */
  lemma {:induction false} NonDigitHasNoValue(d: string, base: nat, k: nat)
    requires k < |d| && !IsDigitIn(d[k], base)
    ensures DigitsValue(d, base).None?
    decreases |d|
  {
    if k < |d| - 1 {
      assert d[..|d| - 1][k] == d[k];
      NonDigitHasNoValue(d[..|d| - 1], base, k);
    }
  }

  /** Stripping keeps a leading character that is not a space. */
  lemma {:induction false} StripKeepsFirst(s: string)
    requires |s| > 0 && !IsSpace(s[0])
    ensures |StripSpace(s)| > 0 && StripSpace(s)[0] == s[0]
    decreases |s|
  {
    if IsSpace(s[|s| - 1]) {
      assert |s| > 1;
      StripKeepsFirst(s[..|s| - 1]);
    }
  }

  /** Text that starts with a letter other than a hexadecimal digit is never an integer. */
  lemma LetterIsNotInt(s: string, base: nat)
    requires base == 10 || base == 16
    requires |s| > 0 && !IsSpace(s[0]) && s[0] != '-' && s[0] != '+' && s[0] != '0' && DigitValue(s[0]) == -1
    ensures ParseInt(s, base).None?
  {
    StripKeepsFirst(s);
    NonDigitHasNoValue(StripSpace(s), base, 0);
  }

  // ---------------------------------------------------------------------
  // rendering integers

  function DigitChar(d: nat): (c: char)
    requires d < 16
    ensures DigitValue(c) == d
  {
    if d < 10 then ('0' as int + d) as char else ('A' as int + d - 10) as char
  }

  /** The digits of `n` in the given base, most significant first, upper case, no padding. */
  function Digits(n: nat, base: nat): (r: string)
    requires base == 10 || base == 16
    ensures |r| >= 1
    ensures forall k :: 0 <= k < |r| ==> IsDigitIn(r[k], base)
    ensures r[0] != '-' && !IsSpace(r[0]) && !IsSpace(r[|r| - 1])
    ensures (n < base) == (|r| == 1)
    decreases n
  {
    if n < base then [DigitChar(n)]
    else if base == 10 then Digits(n / 10, 10) + [DigitChar(n % 10)]
    else Digits(n / 16, 16) + [DigitChar(n % 16)]
  }

  /** The digits of `n` read back give `n`. */
  lemma {:induction false} DigitsValueOfDigits(n: nat, base: nat)
    requires base == 10 || base == 16
    ensures DigitsValue(Digits(n, base), base) == Some(n)
    decreases n
  {
    if n >= base {
      var q, r := if base == 10 then n / 10 else n / 16, if base == 10 then n % 10 else n % 16;
      DigitsValueOfDigits(q, base);
      DigitsValueSnoc(Digits(q, base), DigitChar(r), base, q);
      assert Digits(n, base) == Digits(q, base) + [DigitChar(r)];
    }
  }

  /** Appending one digit multiplies the value by the base and adds the digit. */
  lemma DigitsValueSnoc(hi: string, c: char, base: nat, q: nat)
    requires IsDigitIn(c, base) && DigitsValue(hi, base) == Some(q) && |hi| >= 1
    ensures DigitsValue(hi + [c], base) == Some(Shift(q, base) + DigitValue(c))
  {
    assert (hi + [c])[..|hi|] == hi;
  }

  /** Python's `str(n)` for an integer. */
  function Decimal(n: int): (r: string)
    ensures |r| >= 1
  {
    if n < 0 then "-" + Digits(-n, 10) else Digits(n, 10)
  }

  /** `int(str(n)) == n`. */
  lemma DecimalRoundTrip(n: int)
    ensures ParseInt(Decimal(n), 10) == Some(n)
  {
    if n < 0 {
      DigitsValueOfDigits(-n, 10);
      NegativeParse(Digits(-n, 10), -n);
    } else {
      DigitsValueOfDigits(n, 10);
      UnsignedParse(Digits(n, 10), 10, n);
    }
  }

  /** A run of digits with no sign, no surrounding space and no `0x` prefix parses to its value. */
  lemma UnsignedParse(d: string, base: nat, n: nat)
    requires base == 10 || base == 16
    requires |d| >= 1 && d[0] != '-' && d[0] != '+' && !IsSpace(d[0]) && !IsSpace(d[|d| - 1])
    requires !(|d| >= 2 && d[0] == '0' && (d[1] == 'x' || d[1] == 'X'))
    requires DigitsValue(d, base) == Some(n)
    ensures ParseInt(d, base) == Some(n)
  {
  }

  /** A minus sign before such a run of decimal digits negates its value. */
  lemma NegativeParse(d: string, n: nat)
    requires |d| >= 1 && d[0] != '-' && d[0] != '+' && !IsSpace(d[|d| - 1])
    requires DigitsValue(d, 10) == Some(n)
    ensures ParseInt("-" + d, 10) == Some(-(n as int))
  {
    var s := "-" + d;
    assert s[0] == '-' && s[1..] == d;
    assert StripSpace(s) == s;
  }

  /** Python's `"%02X" % n`: upper-case hexadecimal, zero-padded to width two. */
  function Hex02(n: int): (r: string)
  {
    if n < 0 then "-" + Digits(-n, 16)
    else if n < 16 then "0" + Digits(n, 16)
    else Digits(n, 16)
  }

  /** A byte renders as exactly two upper-case hex digits. */
  lemma Hex02Shape(n: int)
    requires 0 <= n < 256
    ensures |Hex02(n)| == 2
    ensures forall k :: 0 <= k < 2 ==> IsDigitIn(Hex02(n)[k], 16) && !('a' <= Hex02(n)[k] <= 'f')
  {
    Hex02OfByte(n);
  }

  /** A byte renders as exactly two upper-case hex digits that read back as the byte. */
  lemma Hex02OfByte(n: int)
    requires 0 <= n < 256
    ensures |Hex02(n)| == 2
    ensures forall k :: 0 <= k < 2 ==> IsDigitIn(Hex02(n)[k], 16) && !('a' <= Hex02(n)[k] <= 'f')
    ensures ParseInt(Hex02(n), 16) == Some(n)
  {
    var r := Hex02(n);
    DigitsValueOfDigits(n, 16);
    if n < 16 {
      assert r[1..] == Digits(n, 16);
      assert DigitsValue(r, 16) == Some(n);
    } else {
      DigitsValueOfDigits(n / 16, 16);
      assert n / 16 < 16;
    }
    UnsignedParse(r, 16, n);
  }
}

=== FILE: pyvalues.dfy ===
/**
 * The JSON-like documents the configuration layer stores, and the Python
 * subscript semantics (`v[k]`, `v[i]`, `v[i] = x`, `str(v)`) that its code
 * applies to them.
 */
module PyValues {
  import opened PyText

  /** The exceptions the modelled code can raise or catch. */
  datatype PyError = KeyError | IndexError | ValueError | TypeError | AttributeError | UnboundLocalError

  datatype Result<T> = Ok(value: T) | Err(error: PyError)

  /**
   * A JSON value as `json.loads` produces it. A mapping keeps its keys in
   * insertion order (`keys`, the order Python iterates a dict in) and its
   * entries in `m`.
   */
  datatype Value =
    | Null
    | Bool(b: bool)
    | Int(i: int)
    | Str(s: string)
    | List(items: seq<Value>)
    | Dict(keys: seq<string>, m: map<string, Value>)

  function EmptyDict(): Value
  {
    Dict([], map[])
  }

  predicate Distinct(keys: seq<string>)
  {
    forall p, q :: 0 <= p < q < |keys| ==> keys[p] != keys[q]
  }

  /** Every mapping lists each of its keys exactly once, in `keys`. */
  ghost predicate Wf(v: Value)
    decreases v
  {
    match v
    case List(items) => forall k :: 0 <= k < |items| ==> Wf(items[k])
    case Dict(keys, m) =>
      && Distinct(keys)
      && (forall k :: k in m <==> k in keys)
      && (forall k :: k in m ==> Wf(m[k]))
    case _ => true
  }

  // ---------------------------------------------------------------------
  // mapping updates

  /** `d[k] = x` on a mapping: an existing key keeps its place, a new one goes last. */
  function Insert(d: Value, k: string, x: Value): (r: Value)
    requires d.Dict?
    ensures r.Dict? && k in r.m && r.m[k] == x
    ensures r.m.Keys == d.m.Keys + {k}
    ensures forall j :: j in d.m && j != k ==> r.m[j] == d.m[j]
  {
    Dict(if k in d.m then d.keys else d.keys + [k], d.m[k := x])
  }

  function RemoveKey(keys: seq<string>, k: string): (r: seq<string>)
    ensures forall j :: j in r <==> j in keys && j != k
    ensures Distinct(keys) ==> Distinct(r)
  {
    if keys == [] then []
    else if keys[0] == k then RemoveKey(keys[1..], k)
    else
      var rest := RemoveKey(keys[1..], k);
      assert Distinct(keys) ==> keys[0] !in keys[1..];
      DistinctCons(keys[0], rest);
      [keys[0]] + rest
  }

  lemma DistinctCons(a: string, r: seq<string>)
    ensures Distinct([a] + r) <==> a !in r && Distinct(r)
  {
    var s := [a] + r;
    if Distinct(s) {
      assert forall p, q :: 0 <= p < q < |r| ==> r[p] == s[p + 1] && r[q] == s[q + 1];
      forall q | 0 <= q < |r|
        ensures r[q] != a
      {
        assert s[0] == a && s[q + 1] == r[q];
      }
    }
  }

  /** `d.pop(k)` on a mapping that holds `k`: the mapping without it. */
  function Delete(d: Value, k: string): (r: Value)
    requires d.Dict?
    ensures r.Dict? && r.m.Keys == d.m.Keys - {k} && k !in r.m
    ensures forall j :: j in r.m ==> r.m[j] == d.m[j]
  {
    Dict(RemoveKey(d.keys, k), d.m - {k})
  }

  lemma InsertWf(d: Value, k: string, x: Value)
    requires d.Dict? && Wf(d) && Wf(x)
    ensures Wf(Insert(d, k, x))
  {
    var r := Insert(d, k, x);
    if k !in d.m {
      assert forall p :: 0 <= p < |d.keys| ==> d.keys[p] in d.m;
    }
  }

  lemma DeleteWf(d: Value, k: string)
    requires d.Dict? && Wf(d)
    ensures Wf(Delete(d, k))
  {
  }

  // ---------------------------------------------------------------------
  // subscripts

  /** Python's index rule: `-n <= i < n` addresses `i mod n`; anything else is out of range. */
  function NormIndex(i: int, n: nat): (r: Option<nat>)
    ensures r.Some? <==> -(n as int) <= i < n
    ensures r.Some? ==> r.value < n && (i >= 0 ==> r.value == i) && (i < 0 ==> r.value == n + i)
  {
    if 0 <= i < n then Some(i) else if -(n as int) <= i < 0 then Some(n + i) else None
  }

  /** `v[k]` with a string subscript. */
  function GetKey(v: Value, k: string): (r: Result<Value>)
    ensures r.Ok? <==> v.Dict? && k in v.m
    ensures r.Ok? ==> r.value == v.m[k]
    ensures r.Err? ==> r.error == if v.Dict? then KeyError else TypeError
  {
    match v
    case Dict(_, m) => if k in m then Ok(m[k]) else Err(KeyError)
    case _ => Err(TypeError)
  }

  /**
   * `v[i]` with an integer subscript: a list element, a one-character
   * string, a KeyError on a mapping (JSON mappings have only string keys)
   * and a TypeError on anything else.
   */
  function GetIndex(v: Value, i: int): (r: Result<Value>)
    ensures v.List? && -(|v.items| as int) <= i < |v.items| ==> r.Ok?
  {
    match v
    case List(items) =>
      (match NormIndex(i, |items|)
       case Some(n) => Ok(items[n])
       case None => Err(IndexError))
    case Str(s) =>
      (match NormIndex(i, |s|)
       case Some(n) => Ok(Str([s[n]]))
       case None => Err(IndexError))
    case Dict(_, _) => Err(KeyError)
    case _ => Err(TypeError)
  }

  /** `v[i] = x`: replaces a list element in place; other values refuse integer item assignment. */
  function SetIndex(v: Value, i: int, x: Value): (r: Result<Value>)
    ensures r.Ok? <==> v.List? && -(|v.items| as int) <= i < |v.items|
    ensures r.Ok? ==> r.value.List? && |r.value.items| == |v.items|
  {
    match v
    case List(items) =>
      (match NormIndex(i, |items|)
       case Some(n) => Ok(List(items[n := x]))
       case None => Err(IndexError))
    case _ => Err(TypeError)
  }

  /** `v == n` between a stored value and an int: booleans compare as 0 and 1. */
  function AsNumber(v: Value): Option<int>
  {
    match v
    case Int(i) => Some(i)
    case Bool(b) => Some(if b then 1 else 0)
    case _ => None
  }

  // ---------------------------------------------------------------------
  // str() and repr()

  /** Python's `str(v)`. */
  function Show(v: Value): string
  {
    match v
    case Str(s) => s
    case _ => Repr(v)
  }

  function EscapeChar(c: char, quote: char): string
  {
    if c == '\\' then "\\\\"
    else if c == quote then ['\\', quote]
    else if c == '\n' then "\\n"
    else if c == '\r' then "\\r"
    else if c == '\t' then "\\t"
    else [c]
  }

  function Escape(s: string, quote: char): string
  {
    if s == [] then "" else EscapeChar(s[0], quote) + Escape(s[1..], quote)
  }

  /** Python's `repr(s)`: double quotes only when the text has a single quote and no double quote. */
  function QuoteText(s: string): string
  {
    var quote := if '\'' in s && '"' !in s then '"' else '\'';
    [quote] + Escape(s, quote) + [quote]
  }

  /** Python's `repr(v)`. */
  function Repr(v: Value): string
    decreases v, 1
  {
    match v
    case Null => "None"
    case Bool(b) => if b then "True" else "False"
    case Int(i) => Decimal(i)
    case Str(s) => QuoteText(s)
    case List(items) => "[" + ReprItems(v, items) + "]"
    case Dict(keys, m) => "{" + ReprEntries(v, keys) + "}"
  }

  function ReprItems(ghost parent: Value, items: seq<Value>): string
    requires parent.List? && forall x :: x in items ==> x in parent.items
    decreases parent, 0, |items|
  {
    if items == [] then ""
    else
      assert items[0] in parent.items;
      Repr(items[0]) + (if |items| == 1 then "" else ", " + ReprItems(parent, items[1..]))
  }

  function ReprEntries(parent: Value, keys: seq<string>): string
    requires parent.Dict?
    decreases parent, 0, |keys|
  {
    if keys == [] then ""
    else
      var k := keys[0];
      (QuoteText(k) + ": " + (if k in parent.m then Repr(parent.m[k]) else "")) +
      (if |keys| == 1 then "" else ", " + ReprEntries(parent, keys[1..]))
  }
}

=== FILE: versions.dfy ===
/**
 * The version tag stored in the configuration (`version.major`,
 * `version.minor`), its comparisons against `"M.m"` strings, and the
 * stamping of the running add-on version into the configuration.
 */
module Versions {
  import opened PyText
  import opened PyValues
  import opened Manager
  import opened ManagerLaws

  /** `[int(i) for i in parts]`: every part is parsed, and any part that is not an integer raises ValueError. */
  function ParseParts(parts: seq<string>): (r: Result<seq<int>>)
    ensures r.Ok? <==> forall k :: 0 <= k < |parts| ==> ParseInt(parts[k], 10).Some?
    ensures r.Ok? ==> |r.value| == |parts| && forall k :: 0 <= k < |parts| ==> ParseInt(parts[k], 10) == Some(r.value[k])
    ensures r.Err? ==> r.error == ValueError
  {
    if parts == [] then Ok([])
    else match ParseInt(parts[0], 10)
      case None => Err(ValueError)
      case Some(n) =>
        match ParseParts(parts[1..])
        case Err(e) => Err(e)
        case Ok(rest) => Ok([n] + rest)
  }

  /** The integers of a version string: all of its dot-separated parts, at least one. */
  function ParseVersion(s: string): (r: Result<seq<int>>)
    ensures r.Ok? ==> |r.value| == |Split(s, '.')| >= 1
  {
    ParseParts(Split(s, '.'))
  }

  /** `str(n)` never contains a dot. */
  lemma DecimalHasNoDot(n: int)
    ensures '.' !in Decimal(n)
  {
    var s := Decimal(n);
    var d := if n < 0 then Digits(-n, 10) else Digits(n, 10);
    assert forall c :: c in d ==> IsDigitIn(c, 10);
    if n < 0 {
      assert s == "-" + d;
    }
  }

  /** `"{a}.{b}"` parses back to `[a, b]`. */
  lemma VersionTextRoundTrip(a: int, b: int)
    ensures ParseVersion(Decimal(a) + "." + Decimal(b)) == Ok([a, b])
  {
    DecimalHasNoDot(a);
    DecimalHasNoDot(b);
    SplitAtFirstSeparator(Decimal(a), Decimal(b), '.');
    SplitWithoutSeparator(Decimal(b), '.');
    DecimalRoundTrip(a);
    DecimalRoundTrip(b);
    assert Decimal(a) + "." + Decimal(b) == Decimal(a) + ['.'] + Decimal(b);
    var parts := [Decimal(a), Decimal(b)];
    assert Split(Decimal(a) + "." + Decimal(b), '.') == parts;
    assert ParseInt(parts[0], 10) == Some(a) && ParseInt(parts[1], 10) == Some(b);
    var r := ParseParts(parts);
    assert r.Ok? && |r.value| == 2;
    assert r.value == [a, b];
  }

  /** A string without a dot parses to its one integer. */
  lemma OnePartParses(n: int)
    ensures ParseVersion(Decimal(n)) == Ok([n])
  {
    DecimalHasNoDot(n);
    SplitWithoutSeparator(Decimal(n), '.');
    DecimalRoundTrip(n);
    assert Split(Decimal(n), '.') == [Decimal(n)];
    var parts := [Decimal(n)];
    assert parts[0] == Decimal(n) && parts[1..] == [];
    assert ParseInt(parts[0], 10) == Some(n);
    assert ParseParts(parts) == Ok([n] + []);
    assert [n] + [] == [n];
    assert ParseVersion(Decimal(n)) == ParseParts(parts);
  }

  /** The sentinel of an unversioned configuration, `"-1.-1"`, parses to `[-1, -1]`. */
  lemma SentinelParses()
    ensures ParseVersion("-1.-1") == Ok([-1, -1])
  {
    assert Digits(1, 10) == "1";
    assert Decimal(-1) == "-1";
    VersionTextRoundTrip(-1, -1);
    assert Decimal(-1) + "." + Decimal(-1) == "-1.-1";
  }

  /**
   * The version of a configuration, as the two stored values (which may be
   * missing, `None`, or of any other JSON type).
   */
  datatype Version = Version(major: Value, minor: Value)
  {
    /** `==` against a string: true when both fields equal the first two parts; a missing second part is only read when the majors agree. */
    function Eq(other: string): (r: Result<bool>)
    {
      match ParseVersion(other)
      case Err(e) => Err(e)
      case Ok(ver) =>
        if AsNumber(major) != Some(ver[0]) then Ok(false)
        else if |ver| < 2 then Err(IndexError)
        else Ok(AsNumber(minor) == Some(ver[1]))
    }

    /** `!=`: the negation of `==` (Python derives it from `__eq__`). */
    function Ne(other: string): (r: Result<bool>)
    {
      match Eq(other)
      case Err(e) => Err(e)
      case Ok(b) => Ok(!b)
    }

    /** `>` against a string; ordering a non-number raises TypeError. */
    function Gt(other: string): (r: Result<bool>)
    {
      match ParseVersion(other)
      case Err(e) => Err(e)
      case Ok(ver) =>
        match AsNumber(major)
        case None => Err(TypeError)
        case Some(a) =>
          if a > ver[0] then Ok(true)
          else if a != ver[0] then Ok(false)
          else if |ver| < 2 then Err(IndexError)
          else match AsNumber(minor)
            case None => Err(TypeError)
            case Some(b) => Ok(b > ver[1])
    }

    /** `<` against a string; ordering a non-number raises TypeError. */
    function Lt(other: string): (r: Result<bool>)
    {
      match ParseVersion(other)
      case Err(e) => Err(e)
      case Ok(ver) =>
        match AsNumber(major)
        case None => Err(TypeError)
        case Some(a) =>
          if a < ver[0] then Ok(true)
          else if a != ver[0] then Ok(false)
          else if |ver| < 2 then Err(IndexError)
          else match AsNumber(minor)
            case None => Err(TypeError)
            case Some(b) => Ok(b < ver[1])
    }

    /** `>=`: `self == other or self > other`. */
    function Ge(other: string): (r: Result<bool>)
    {
      match Eq(other)
      case Err(e) => Err(e)
      case Ok(b) => if b then Ok(true) else Gt(other)
    }

    /** `<=`: `self == other or self < other`. */
    function Le(other: string): (r: Result<bool>)
    {
      match Eq(other)
      case Err(e) => Err(e)
      case Ok(b) => if b then Ok(true) else Lt(other)
    }

    /** Both fields hold numbers (ints or booleans). */
    predicate Numeric()
    {
      AsNumber(major).Some? && AsNumber(minor).Some?
    }
  }

  /** A version string with at least the two parts a comparison reads. */
  predicate TwoPart(s: string)
  {
    ParseVersion(s).Ok? && |ParseVersion(s).value| >= 2
  }

  /** The lexicographic order on (major, minor) pairs. */
  predicate PairLess(a: (int, int), b: (int, int))
  {
    a.0 < b.0 || (a.0 == b.0 && a.1 < b.1)
  }

  /** For a numeric version and a two-part string, exactly one of `<`, `==`, `>` holds, and none raises. */
  lemma Trichotomy(v: Version, s: string)
    requires v.Numeric() && TwoPart(s)
    ensures v.Lt(s).Ok? && v.Eq(s).Ok? && v.Gt(s).Ok?
    ensures (if v.Lt(s).value then 1 else 0) + (if v.Eq(s).value then 1 else 0) + (if v.Gt(s).value then 1 else 0) == 1
  {
  }

  /** `<` and `>` are the lexicographic order on (major, minor) against the first two parts. */
  lemma CompareIsLexicographic(v: Version, s: string)
    requires v.Numeric() && TwoPart(s)
    ensures var here := (AsNumber(v.major).value, AsNumber(v.minor).value);
      var there := (ParseVersion(s).value[0], ParseVersion(s).value[1]);
      && v.Lt(s) == Ok(PairLess(here, there))
      && v.Gt(s) == Ok(PairLess(there, here))
      && v.Eq(s) == Ok(here == there)
  {
  }

  /** `>=` is the complement of `<`, and `<=` the complement of `>`. */
  lemma GeLeComplement(v: Version, s: string)
    requires v.Numeric() && TwoPart(s)
    ensures v.Ge(s) == Ok(!v.Lt(s).value)
    ensures v.Le(s) == Ok(!v.Gt(s).value)
  {
    Trichotomy(v, s);
  }

  /** A version that was never stored (`None` fields) equals nothing, and ordering it raises TypeError. */
  lemma UnsetVersionCompares(s: string)
    requires ParseVersion(s).Ok?
    ensures Version(Null, Null).Eq(s) == Ok(false)
    ensures Version(Null, Null).Lt(s) == Err(TypeError) && Version(Null, Null).Gt(s) == Err(TypeError)
  {
  }

  // ---------------------------------------------------------------------
  // stamping the running version

  /**
   * Against a one-part string the second part is missing: a version with
   * that major raises IndexError under `==`, `<` and `>`, and any other
   * numeric major is decided by the major alone.
   */
  lemma OnePartCompares(v: Version, n: int)
    requires v.Numeric()
    ensures var a := AsNumber(v.major).value;
      && (a == n ==> v.Eq(Decimal(n)) == Err(IndexError) && v.Lt(Decimal(n)) == Err(IndexError)
                     && v.Gt(Decimal(n)) == Err(IndexError))
      && (a != n ==> v.Eq(Decimal(n)) == Ok(false) && v.Lt(Decimal(n)) == Ok(a < n)
                     && v.Gt(Decimal(n)) == Ok(a > n))
  {
    OnePartParses(n);
  }

  /** A word that starts with neither a sign nor a space and ends in a letter is not an integer. */
  lemma WordIsNotInt(w: string)
    requires |w| > 0 && !IsSpace(w[0]) && w[0] != '-' && w[0] != '+'
    requires !IsSpace(w[|w| - 1]) && !IsDigitIn(w[|w| - 1], 10)
    ensures ParseInt(w, 10).None?
  {
    assert StripSpace(w) == w;
  }

  lemma DottedPath(a: string, b: string)
    requires '.' !in a && '.' !in b
    ensures Path(a + "." + b) == [a, b]
  {
    SplitWithoutSeparator(b, '.');
    SplitAtFirstSeparator(a, b, '.');
    assert a + "." + b == a + ['.'] + b;
  }

  /** The two version keys part ways at their second segment, and none of their segments is numeric. */
  lemma VersionKeysDiverge()
    ensures Diverge(["version", "minor"], ["version", "major"])
    ensures AllCanonical(["version", "major"]) && AllCanonical(["version", "minor"])
  {
    VersionWordsCanonical();
    assert ["version", "minor"][1] != ["version", "major"][1];
  }

  lemma MajorPath()
    ensures Path("version.major") == ["version", "major"]
  {
    DottedPath("version", "major");
    assert "version" + "." + "major" == "version.major";
  }

  lemma MinorPath()
    ensures Path("version.minor") == ["version", "minor"]
  {
    DottedPath("version", "minor");
    assert "version" + "." + "minor" == "version.minor";
  }

  lemma VersionWordsCanonical()
    ensures Canonical("version") && Canonical("major") && Canonical("minor")
  {
    WordIsNotInt("version");
    WordIsNotInt("major");
    WordIsNotInt("minor");
  }

  /**
   * `conf["version.major"] = int(parts[0])`, then `conf["version.minor"] =
   * int(parts[1])`: the document after the two assignments and the
   * exception that stopped them, if any.
   */
  function Stamped(d: Value, versionString: string): (r: (Value, Option<PyError>))
  {
    var parts := Split(versionString, '.');
    match ParseInt(parts[0], 10)
    case None => (d, Some(ValueError))
    case Some(a) =>
      match SetPath(d, ["version", "major"], Int(a))
      case Err(e) => (d, Some(e))
      case Ok(d1) =>
        if |parts| < 2 then (d1, Some(IndexError))
        else match ParseInt(parts[1], 10)
          case None => (d1, Some(ValueError))
          case Some(b) =>
            match SetPath(d1, ["version", "minor"], Int(b))
            case Err(e) => (d1, Some(e))
            case Ok(d2) => (d2, None)
  }

  /**
   * After a stamp without exception, the version fields hold the integers
   * before and after the first dot, and every key that parts ways with
   * both fields reads as before.
   */
  lemma StampedSetsVersion(d: Value, versionString: string, p: seq<string>)
    requires Stamped(d, versionString).1 == None
    ensures var parts := Split(versionString, '.');
      && |parts| >= 2 && ParseInt(parts[0], 10).Some? && ParseInt(parts[1], 10).Some?
      && Lookup(Stamped(d, versionString).0, ["version", "major"]) == Ok(Int(ParseInt(parts[0], 10).value))
      && Lookup(Stamped(d, versionString).0, ["version", "minor"]) == Ok(Int(ParseInt(parts[1], 10).value))
    ensures Diverge(["version", "major"], p) && Diverge(["version", "minor"], p) && AllCanonical(p) ==>
      Lookup(Stamped(d, versionString).0, p) == Lookup(d, p)
  {
    var parts := Split(versionString, '.');
    var a := ParseInt(parts[0], 10).value;
    var b := ParseInt(parts[1], 10).value;
    var d1 := SetPath(d, ["version", "major"], Int(a)).value;
    VersionKeysDiverge();
    SetThenGet(d, ["version", "major"], Int(a));
    SetThenGet(d1, ["version", "minor"], Int(b));
    SetFrame(d1, ["version", "minor"], ["version", "major"], Int(b));
    if Diverge(["version", "major"], p) && Diverge(["version", "minor"], p) && AllCanonical(p) {
      SetFrame(d, ["version", "major"], p, Int(a));
      SetFrame(d1, ["version", "minor"], p, Int(b));
    }
  }

  /** Stamping cannot fail on a mapping whose `version` entry is missing or a mapping, given a version string with two integer parts. */
  lemma StampSucceeds(d: Value, versionString: string)
    requires d.Dict? && ("version" in d.m ==> d.m["version"].Dict?)
    requires TwoPart(versionString)
    ensures Stamped(d, versionString).1 == None
  {
    var parts := Split(versionString, '.');
    var a := ParseVersion(versionString).value[0];
    var b := ParseVersion(versionString).value[1];
    assert ParseInt(parts[0], 10) == Some(a) && ParseInt(parts[1], 10) == Some(b);
    var d1 := VersionSlotSet(d, "major", Int(a));
    var d2 := VersionSlotSet(d1, "minor", Int(b));
  }

  /** Setting `version.<slot>` in a mapping whose `version` is missing or a mapping succeeds, and keeps that shape. */
  lemma VersionSlotSet(d: Value, slot: string, x: Value) returns (d1: Value)
    requires d.Dict? && ("version" in d.m ==> d.m["version"].Dict?)
    ensures SetPath(d, ["version", slot], x) == Ok(d1)
    ensures d1.Dict? && "version" in d1.m && d1.m["version"].Dict?
  {
    SetAssignsAtParent(d, ["version", slot], x);
    assert Parent(["version", slot]) == ["version"];
    assert ["version"][1..] == [];
    d1 := SetPath(d, ["version", slot], x).value;
  }

  /**
   * The stamping done when the add-on starts: write both version fields
   * from the running version string, then save, unless an exception
   * stops it (the live document then keeps what was already assigned).
   */
  method StampVersion(conf: ConfigManager, versionString: string) returns (err: Option<PyError>)
    modifies conf
    ensures (conf.config, err) == Stamped(old(conf.config), versionString)
    ensures conf.stored == if err.None? then conf.config else old(conf.stored)
  {
    MajorPath();
    MinorPath();
    var parts := Split(versionString, '.');
    var major := ParseInt(parts[0], 10);
    if major.None? {
      return Some(ValueError);
    }
    err := conf.SetItem("version.major", Int(major.value));
    if err.Some? {
      return;
    }
    if |parts| < 2 {
      return Some(IndexError);
    }
    var minor := ParseInt(parts[1], 10);
    if minor.None? {
      return Some(ValueError);
    }
    err := conf.SetItem("version.minor", Int(minor.value));
    if err.Some? {
      return;
    }
    conf.Save();
  }
}

=== FILE: window.dfy ===
/**
 * The settings dialog over a `ConfigManager`: each input widget registers an
 * `update` that reads its key from the live document, checks the type (and
 * for numbers the range) and shows the value, or raises
 * `InvalidConfigValueError`; each widget's change signal writes its new
 * value back with `set`. Save runs the approval hooks and the save hooks and
 * persists; cancel and every close discard what was not saved; reset stages
 * the defaults without persisting them.
 */
module Window {
  import opened PyText
  import opened PyValues
  import opened Errors
  import opened Manager
  import opened ManagerLaws
  import Colors

  // ---------------------------------------------------------------------
  // widgets and what their updates show

  /** The input widgets of the dialog, each bound to one dotted key. */
  datatype Widget =
    | Checkbox(key: string)
    | Dropdown(key: string, values: seq<Value>)
    | TextInput(key: string)
    | NumberInput(key: string, minimum: Option<int>, maximum: Option<int>, decimal: bool)
    | ColorInput(key: string, opacity: bool)
    | PathInput(key: string)
    | ShortcutInput(key: string)

  /** What a widget shows once its update accepted the value. */
  datatype Display =
    | Checked(on: bool)
    | Selected(index: nat)
    | Shown(text: string)
    | Spin(n: int)
    | Swatch(argb: string)
    | Keys(sequence: string)

  /** Why an update stopped: the configuration error it raised, or another exception. */
  datatype Failure = Invalid(error: InvalidConfigValueError) | Raised(exception: PyError)

  datatype Outcome = Shows(display: Display) | Fails(failure: Failure)

  /**
   * Python's `a == b` on configuration values: booleans and integers compare
   * as numbers, lists element by element, mappings by their entries
   * whatever their order.
   */
  predicate Same(a: Value, b: Value)
    decreases a
  {
    if AsNumber(a).Some? && AsNumber(b).Some? then AsNumber(a) == AsNumber(b)
    else if a.List? && b.List? then
      |a.items| == |b.items| && forall k :: 0 <= k < |a.items| ==> Same(a.items[k], b.items[k])
    else if a.Dict? && b.Dict? then
      a.m.Keys == b.m.Keys && forall k :: k in a.m ==> Same(a.m[k], b.m[k])
    else a == b
  }

  /** Every value equals itself. */
  lemma {:induction false} SameReflexive(a: Value)
    ensures Same(a, a)
    decreases a
  {
    if a.List? && AsNumber(a).None? {
      forall k | 0 <= k < |a.items|
        ensures Same(a.items[k], a.items[k])
      {
        SameReflexive(a.items[k]);
      }
    }
    if a.Dict? {
      forall k | k in a.m
        ensures Same(a.m[k], a.m[k])
      {
        SameReflexive(a.m[k]);
      }
    }
  }

  /** Python's `==` is symmetric. */
  lemma {:induction false} SameSymmetric(a: Value, b: Value)
    requires Same(a, b)
    ensures Same(b, a)
    decreases a
  {
    if AsNumber(a).Some? && AsNumber(b).Some? {
    } else if a.List? && b.List? {
      forall k | 0 <= k < |b.items|
        ensures Same(b.items[k], a.items[k])
      {
        SameSymmetric(a.items[k], b.items[k]);
      }
    } else if a.Dict? && b.Dict? {
      forall k | k in b.m
        ensures Same(b.m[k], a.m[k])
      {
        SameSymmetric(a.m[k], b.m[k]);
      }
    }
  }

  /** Two mappings with the same entries are equal whatever order their keys were inserted in. */
  lemma MappingOrderIgnored(keys1: seq<string>, keys2: seq<string>, m: map<string, Value>)
    ensures Same(Dict(keys1, m), Dict(keys2, m))
  {
    forall k | k in m
      ensures Same(m[k], m[k])
    {
      SameReflexive(m[k]);
    }
  }

  /** `values.index(v)`: the first position holding a value equal to `v`, or none (ValueError). */
  function IndexOf(values: seq<Value>, v: Value): (r: Option<nat>)
    ensures r.Some? ==> r.value < |values| && Same(values[r.value], v)
    ensures r.Some? ==> forall j :: 0 <= j < r.value ==> !Same(values[j], v)
    ensures r.None? ==> forall j :: 0 <= j < |values| ==> !Same(values[j], v)
  {
    if values == [] then None
    else if Same(values[0], v) then Some(0)
    else match IndexOf(values[1..], v)
      case None => None
      case Some(i) => Some(i + 1)
  }

  /** The RGBA-to-ARGB swap of `set_color`: a nine-character text moves its last pair to the front. */
  function RgbaToArgb(s: string): string
  {
    if |s| == 9 then "#" + s[7..] + s[1..7] else s
  }

  /** The ARGB-to-RGBA swap of the colour picker's `save`, with Python's slicing. */
  function ArgbToRgba(s: string): string
  {
    "#" + Slice(s, 3, |s|) + Slice(s, 1, 3)
  }

  /** On `#`-led nine-character texts the two swaps undo each other, in both orders. */
  lemma SwapsInverse(s: string)
    requires |s| == 9 && s[0] == '#'
    ensures ArgbToRgba(RgbaToArgb(s)) == s
    ensures RgbaToArgb(ArgbToRgba(s)) == s
  {
    var t := RgbaToArgb(s);
    assert t[3..] == s[1..7] && t[1..3] == s[7..];
    assert ArgbToRgba(t) == "#" + s[1..7] + s[7..];
    assert s == [s[0]] + s[1..7] + s[7..];
    var u := ArgbToRgba(s);
    assert |u| == 9 && u[7..] == s[1..3] && u[1..7] == s[3..];
    assert s == [s[0]] + s[1..3] + s[3..];
  }

  /** The dialog's swap is the palette's `hex_with_alpha_to_argb` on the texts that have an alpha pair. */
  lemma SwapMatchesPalette(s: string, ft: Colors.FloatText)
    requires Colors.NineCharHex(s)
    ensures RgbaToArgb(s) == Colors.HexWithAlphaToArgb(s, ft)
  {
  }

  /** `conf.get(key)`: the value under the key, `None` when a mapping key is missing. */
  function Read(config: Value, key: string): Result<Value>
  {
    LookupOr(config, Path(key), Null)
  }

  function Rejects(key: string, expected: string, v: Value): Outcome
  {
    Fails(Invalid(InvalidConfigValueError(key, expected, v)))
  }

  /** The checks of `number_input`'s update: a number (booleans count), then each bound that is set. */
  function NumberCheck(key: string, v: Value, minimum: Option<int>, maximum: Option<int>, decimal: bool): (r: Outcome)
    ensures r.Shows? <==> (&& AsNumber(v).Some?
                           && (minimum.Some? ==> minimum.value <= AsNumber(v).value)
                           && (maximum.Some? ==> AsNumber(v).value <= maximum.value))
    ensures r.Shows? ==> r.display == Spin(AsNumber(v).value)
  {
    match AsNumber(v)
    case None => Rejects(key, if decimal then "number" else "integer number", v)
    case Some(n) =>
      if minimum.Some? && n < minimum.value then
        Rejects(key, "integer number greater or equal to " + Decimal(minimum.value), v)
      else if maximum.Some? && n > maximum.value then
        Rejects(key, "integer number lesser or equal to " + Decimal(maximum.value), v)
      else Shows(Spin(n))
  }

  /**
   * `set_color`: only a text has a length and a colour name (anything else
   * raises TypeError); a nine-character text is swapped to ARGB first, and
   * the result must name a colour, which `isColor` decides.
   */
  function ColorCheck(key: string, v: Value, isColor: string -> bool): (r: Outcome)
    ensures r.Shows? <==> v.Str? && isColor(RgbaToArgb(v.s))
    ensures r.Shows? ==> r.display == Swatch(RgbaToArgb(v.s))
  {
    if !v.Str? then Fails(Raised(TypeError))
    else
      var argb := RgbaToArgb(v.s);
      if isColor(argb) then Shows(Swatch(argb))
      else Rejects(key, "rgb hex color string", Str(argb))
  }

  /** The check a widget's update applies to the value it read. */
  function Check(w: Widget, v: Value, isColor: string -> bool): Outcome
  {
    match w
    case Checkbox(key) => if v.Bool? then Shows(Checked(v.b)) else Rejects(key, "boolean", v)
    case Dropdown(key, values) =>
      (match IndexOf(values, v)
       case Some(i) => Shows(Selected(i))
       case None => Rejects(key, "any value in list " + Show(List(values)), v))
    case TextInput(key) => if v.Str? then Shows(Shown(v.s)) else Rejects(key, "string", v)
    case NumberInput(key, minimum, maximum, decimal) => NumberCheck(key, v, minimum, maximum, decimal)
    case ColorInput(key, _) => ColorCheck(key, v, isColor)
    case PathInput(key) => if v.Str? then Shows(Shown(v.s)) else Rejects(key, "string file path", v)
    case ShortcutInput(key) => if v.Str? then Shows(Keys(RemoveSpaces(v.s))) else Rejects(key, "str", v)
  }

  /**
   * One widget's update. A read that raises propagates, except that the
   * dropdown catches ValueError and then names `val`, which was never bound.
   */
  function Update(w: Widget, config: Value, isColor: string -> bool): Outcome
  {
    match Read(config, w.key)
    case Err(e) => if w.Dropdown? && e == ValueError then Fails(Raised(UnboundLocalError)) else Fails(Raised(e))
    case Ok(v) => Check(w, v, isColor)
  }

  /** Every configuration error an update raises names the widget's key and the value it read (swapped, for colours). */
  lemma InvalidNamesKey(w: Widget, config: Value, isColor: string -> bool)
    requires Update(w, config, isColor).Fails? && Update(w, config, isColor).failure.Invalid?
    ensures var e := Update(w, config, isColor).failure.error;
      && e.key == w.key
      && Read(config, w.key).Ok?
      && (w.ColorInput? ==> Read(config, w.key).value.Str? && e.value == Str(RgbaToArgb(Read(config, w.key).value.s)))
      && (!w.ColorInput? ==> e.value == Read(config, w.key).value)
  {
  }

  /** A widget shows something exactly when the value it read passes its check; what each kind shows. */
  lemma UpdateShows(w: Widget, config: Value, isColor: string -> bool)
    ensures var r := Update(w, config, isColor);
      r.Shows? ==> Read(config, w.key).Ok? && var v := Read(config, w.key).value; match w
        case Checkbox(_) => v.Bool? && r.display == Checked(v.b)
        case Dropdown(_, values) =>
          r.display.Selected? && r.display.index < |values| && Same(values[r.display.index], v)
        case TextInput(_) => v.Str? && r.display == Shown(v.s)
        case NumberInput(_, minimum, maximum, _) =>
          AsNumber(v).Some? && r.display == Spin(AsNumber(v).value)
          && (minimum.Some? ==> minimum.value <= AsNumber(v).value)
          && (maximum.Some? ==> AsNumber(v).value <= maximum.value)
        case ColorInput(_, _) => v.Str? && isColor(RgbaToArgb(v.s)) && r.display == Swatch(RgbaToArgb(v.s))
        case PathInput(_) => v.Str? && r.display == Shown(v.s)
        case ShortcutInput(_) => v.Str? && r.display == Keys(RemoveSpaces(v.s)) && ' ' !in r.display.sequence
  {
  }

  // ---------------------------------------------------------------------
  // update_widgets

  /** Each widget's update outcome, in registration order. */
  function Outcomes(config: Value, widgets: seq<Widget>, isColor: string -> bool): (r: seq<Outcome>)
    ensures |r| == |widgets|
    decreases |widgets|
  {
    if widgets == [] then []
    else Outcomes(config, widgets[..|widgets| - 1], isColor) + [Update(widgets[|widgets| - 1], config, isColor)]
  }

  lemma {:induction false} OutcomesAt(config: Value, widgets: seq<Widget>, isColor: string -> bool, k: nat)
    requires k < |widgets|
    ensures Outcomes(config, widgets, isColor)[k] == Update(widgets[k], config, isColor)
    decreases |widgets|
  {
    if k < |widgets| - 1 {
      var prefix := widgets[..|widgets| - 1];
      OutcomesAt(config, prefix, isColor, k);
      assert prefix[k] == widgets[k];
    }
  }

  /** Running outcomes until the first failure: the displays shown and the failure, if any. */
  function Run(outs: seq<Outcome>): (seq<Display>, Option<Failure>)
    decreases |outs|
  {
    if outs == [] then ([], None)
    else
      var before := Run(outs[..|outs| - 1]);
      if before.1.Some? then before
      else match outs[|outs| - 1]
        case Shows(d) => (before.0 + [d], None)
        case Fails(f) => (before.0, Some(f))
  }

  /** The loop of `update_widgets`: the displays of the widgets updated, in order, and the failure that stopped it. */
  function Updates(config: Value, widgets: seq<Widget>, isColor: string -> bool): (seq<Display>, Option<Failure>)
  {
    Run(Outcomes(config, widgets, isColor))
  }

  /** A run shows every outcome before the first failure and stops with that failure. */
  lemma {:induction false} RunStopsAtFirst(outs: seq<Outcome>)
    ensures var (shown, stop) := Run(outs);
      && |shown| <= |outs|
      && (forall k :: 0 <= k < |shown| ==> outs[k] == Shows(shown[k]))
      && (stop.None? ==> |shown| == |outs|)
      && (stop.Some? ==> |shown| < |outs| && outs[|shown|] == Fails(stop.value))
    decreases |outs|
  {
    if outs != [] {
      var prefix := outs[..|outs| - 1];
      RunStopsAtFirst(prefix);
      var before := Run(prefix);
      forall k | 0 <= k < |before.0|
        ensures outs[k] == prefix[k]
      {
      }
    }
  }

  lemma RunSnoc(outs: seq<Outcome>, i: nat)
    requires i < |outs|
    ensures Run(outs[..i + 1]) == if Run(outs[..i]).1.Some? then Run(outs[..i])
      else match outs[i]
        case Shows(d) => (Run(outs[..i]).0 + [d], None)
        case Fails(f) => (Run(outs[..i]).0, Some(f))
  {
    assert outs[..i + 1][..i] == outs[..i];
  }

  /** Once a prefix of the outcomes fails, the rest are not run. */
  lemma {:induction false} RunStopTail(outs: seq<Outcome>, i: nat)
    requires i <= |outs|
    requires Run(outs[..i]).1.Some?
    ensures Run(outs) == Run(outs[..i])
    decreases |outs| - i
  {
    if i < |outs| {
      RunSnoc(outs, i);
      RunStopTail(outs, i + 1);
    } else {
      assert outs[..i] == outs;
    }
  }

  /**
   * The updates run in registration order and stop at the first that
   * raises: every widget before it shows what its own update shows, and
   * the failure is that widget's.
   */
  lemma UpdatesStopAtFirst(config: Value, widgets: seq<Widget>, isColor: string -> bool)
    ensures var (shown, stop) := Updates(config, widgets, isColor);
      && |shown| <= |widgets|
      && (forall k :: 0 <= k < |shown| ==> Update(widgets[k], config, isColor) == Shows(shown[k]))
      && (stop.None? ==> |shown| == |widgets|)
      && (stop.Some? ==> |shown| < |widgets| && Update(widgets[|shown|], config, isColor) == Fails(stop.value))
  {
    var outs := Outcomes(config, widgets, isColor);
    RunStopsAtFirst(outs);
    forall k | 0 <= k < |widgets|
      ensures outs[k] == Update(widgets[k], config, isColor)
    {
      OutcomesAt(config, widgets, isColor, k);
    }
  }

  // ---------------------------------------------------------------------
  // what the change signals write

  /** The values the widgets' change signals deliver. */
  datatype Edit =
    | Toggled(checked: bool)
    | Picked(index: int)
    | Typed(text: string)
    | Spun(n: int)
    | Chosen(name: string)
    | Browsed(path: string)
    | Recorded(keys: string)

  /** The edit is one the widget's signal delivers. */
  predicate Emits(w: Widget, e: Edit)
  {
    match w
    case Checkbox(_) => e.Toggled?
    case Dropdown(_, _) => e.Picked?
    case TextInput(_) => e.Typed?
    case NumberInput(_, _, _, _) => e.Spun?
    case ColorInput(_, _) => e.Chosen?
    case PathInput(_) => e.Browsed?
    case ShortcutInput(_) => e.Recorded?
  }

  /**
   * What the widget's callback hands to `set`: `values[idx]` for a dropdown
   * (Python indexing), the picked colour's name swapped to RGBA when the
   * alpha channel is offered, nothing for a cancelled file dialog.
   */
  function Written(w: Widget, e: Edit): (r: Result<Option<Value>>)
    requires Emits(w, e)
    ensures r.Err? ==> w.Dropdown? && r.error == IndexError
    ensures r == Ok(None) <==> w.PathInput? && e.path == ""
  {
    match w
    case Checkbox(_) => Ok(Some(Bool(e.checked)))
    case Dropdown(_, values) =>
      (match GetIndex(List(values), e.index)
       case Err(x) => Err(x)
       case Ok(x) => Ok(Some(x)))
    case TextInput(_) => Ok(Some(Str(e.text)))
    case NumberInput(_, _, _, _) => Ok(Some(Int(e.n)))
    case ColorInput(_, opacity) => Ok(Some(Str(if opacity then ArgbToRgba(e.name) else e.name)))
    case PathInput(_) => if e.path == "" then Ok(None) else Ok(Some(Str(e.path)))
    case ShortcutInput(_) => Ok(Some(Str(e.keys)))
  }

  /** After `set(key, x)` succeeds, the key reads `x`. */
  lemma ReadAfterSet(config: Value, key: string, x: Value)
    requires SetPath(config, Path(key), x).Ok?
    ensures Read(SetPath(config, Path(key), x).value, key) == Ok(x)
  {
    SetThenGet(config, Path(key), x);
  }

  /** A toggled checkbox, once written, updates to the same state. */
  lemma CheckboxRoundTrip(config: Value, key: string, on: bool, isColor: string -> bool)
    requires SetPath(config, Path(key), Bool(on)).Ok?
    ensures Update(Checkbox(key), SetPath(config, Path(key), Bool(on)).value, isColor) == Shows(Checked(on))
  {
    ReadAfterSet(config, key, Bool(on));
  }

  /**
   * A picked dropdown entry, once written, selects an entry at or before
   * the picked one that is equal to it (the first equal one).
   */
  lemma DropdownRoundTrip(config: Value, key: string, values: seq<Value>, idx: int, isColor: string -> bool)
    requires GetIndex(List(values), idx).Ok?
    requires SetPath(config, Path(key), GetIndex(List(values), idx).value).Ok?
    ensures var x := GetIndex(List(values), idx).value;
      var r := Update(Dropdown(key, values), SetPath(config, Path(key), x).value, isColor);
      && r.Shows? && r.display.Selected?
      && r.display.index <= NormIndex(idx, |values|).value
      && Same(values[r.display.index], x)
  {
    var x := GetIndex(List(values), idx).value;
    ReadAfterSet(config, key, x);
    var n := NormIndex(idx, |values|).value;
    assert values[n] == x;
    SameReflexive(x);
  }

  /** Typed text, once written, is what the text field shows. */
  lemma TextRoundTrip(config: Value, key: string, text: string, isColor: string -> bool)
    requires SetPath(config, Path(key), Str(text)).Ok?
    ensures Update(TextInput(key), SetPath(config, Path(key), Str(text)).value, isColor) == Shows(Shown(text))
  {
    ReadAfterSet(config, key, Str(text));
  }

  /** A spun number within the box's bounds, once written, is what the box shows. */
  lemma NumberRoundTrip(config: Value, key: string, minimum: Option<int>, maximum: Option<int>, decimal: bool, n: int, isColor: string -> bool)
    requires minimum.Some? ==> minimum.value <= n
    requires maximum.Some? ==> n <= maximum.value
    requires SetPath(config, Path(key), Int(n)).Ok?
    ensures Update(NumberInput(key, minimum, maximum, decimal), SetPath(config, Path(key), Int(n)).value, isColor) == Shows(Spin(n))
  {
    ReadAfterSet(config, key, Int(n));
  }

  /**
   * A picked colour, once written, comes back as the same ARGB name: with
   * the alpha channel the name is stored as RGBA and swapped back, without
   * it the seven-character name is stored as it is.
   */
  lemma ColorRoundTrip(config: Value, key: string, opacity: bool, name: string, isColor: string -> bool)
    requires opacity ==> |name| == 9 && name[0] == '#'
    requires !opacity ==> |name| != 9
    requires SetPath(config, Path(key), Str(if opacity then ArgbToRgba(name) else name)).Ok?
    ensures var x := Str(if opacity then ArgbToRgba(name) else name);
      Update(ColorInput(key, opacity), SetPath(config, Path(key), x).value, isColor)
        == if isColor(name) then Shows(Swatch(name)) else Rejects(key, "rgb hex color string", Str(name))
  {
    ReadAfterSet(config, key, Str(if opacity then ArgbToRgba(name) else name));
    StoredColorSwapsBack(opacity, name);
  }

  /** The stored text of a picked colour swaps back to the picked name. */
  lemma StoredColorSwapsBack(opacity: bool, name: string)
    requires opacity ==> |name| == 9 && name[0] == '#'
    requires !opacity ==> |name| != 9
    ensures RgbaToArgb(if opacity then ArgbToRgba(name) else name) == name
  {
    if opacity {
      SwapsInverse(name);
    }
  }

  /** A browsed path, once written, is what the path field shows. */
  lemma PathRoundTrip(config: Value, key: string, path: string, isColor: string -> bool)
    requires SetPath(config, Path(key), Str(path)).Ok?
    ensures Update(PathInput(key), SetPath(config, Path(key), Str(path)).value, isColor) == Shows(Shown(path))
  {
    ReadAfterSet(config, key, Str(path));
  }

  /** A recorded shortcut, once written, is shown with its spaces removed. */
  lemma ShortcutRoundTrip(config: Value, key: string, keys: string, isColor: string -> bool)
    requires SetPath(config, Path(key), Str(keys)).Ok?
    ensures Update(ShortcutInput(key), SetPath(config, Path(key), Str(keys)).value, isColor) == Shows(Keys(RemoveSpaces(keys)))
  {
    ReadAfterSet(config, key, Str(keys));
  }

  // ---------------------------------------------------------------------
  // hooks

  /** Every approval hook accepts the configuration. */
  predicate Approve(hooks: seq<Value -> bool>, config: Value)
  {
    forall k :: 0 <= k < |hooks| ==> hooks[k](config)
  }

  /** The hooks applied to the configuration in registration order. */
  function Apply(hooks: seq<Value -> Value>, config: Value): Value
    decreases |hooks|
  {
    if hooks == [] then config else hooks[|hooks| - 1](Apply(hooks[..|hooks| - 1], config))
  }

  lemma ApplySnoc(hooks: seq<Value -> Value>, config: Value, i: nat)
    requires i < |hooks|
    ensures Apply(hooks[..i + 1], config) == hooks[i](Apply(hooks[..i], config))
  {
    assert hooks[..i + 1][..i] == hooks[..i];
  }

  // ---------------------------------------------------------------------
  // the dialog

  /**
   * The dialog's state: the manager it edits, the widgets in registration
   * order, and the approval, save and close hooks. A hook is modelled as a
   * function of the live configuration; a save or close hook returns the
   * configuration it leaves behind.
   */
  class ConfigWindow {
    const conf: ConfigManager
    const isColor: string -> bool
    var widgets: seq<Widget>
    var shouldSave: seq<Value -> bool>
    var onSave: seq<Value -> Value>
    var onClose: seq<Value -> Value>

    constructor (conf: ConfigManager, isColor: string -> bool)
      ensures this.conf == conf && this.isColor == isColor
      ensures widgets == [] && shouldSave == [] && onSave == [] && onClose == []
    {
      this.conf := conf;
      this.isColor := isColor;
      widgets := [];
      shouldSave := [];
      onSave := [];
      onClose := [];
    }

    /** Building an input widget registers its update after the earlier ones. */
    method AddWidget(w: Widget)
      modifies this`widgets
      ensures widgets == old(widgets) + [w]
    {
      widgets := widgets + [w];
    }

    method ExecuteOnSave(hook: Value -> Value)
      modifies this`onSave
      ensures onSave == old(onSave) + [hook]
    {
      onSave := onSave + [hook];
    }

    method ExecuteOnClose(hook: Value -> Value)
      modifies this`onClose
      ensures onClose == old(onClose) + [hook]
    {
      onClose := onClose + [hook];
    }

    /** One registered update, reading through `conf.get`. */
    method UpdateOne(w: Widget) returns (r: Outcome)
      ensures r == Update(w, conf.config, isColor)
    {
      var v := conf.Get(w.key, Null);
      if v.Err? {
        if w.Dropdown? && v.error == ValueError {
          return Fails(Raised(UnboundLocalError));
        }
        return Fails(Raised(v.error));
      }
      r := Check(w, v.value, isColor);
    }

    /** `update_widgets`: every update in order until one raises; the raised error is what the dialog reports. */
    method UpdateWidgets() returns (shown: seq<Display>, stop: Option<Failure>)
      ensures (shown, stop) == Updates(conf.config, widgets, isColor)
    {
      shown := [];
      stop := None;
      ghost var outs := Outcomes(conf.config, widgets, isColor);
      var i := 0;
      while i < |widgets|
        invariant 0 <= i <= |widgets|
        invariant Run(outs[..i]) == (shown, None)
      {
        OutcomesAt(conf.config, widgets, isColor, i);
        RunSnoc(outs, i);
        var r := UpdateOne(widgets[i]);
        if r.Fails? {
          RunStopTail(outs, i + 1);
          return shown, Some(r.failure);
        }
        shown := shown + [r.display];
        i := i + 1;
      }
      assert outs[..i] == outs;
    }

    /** A change signal: the callback's value is written with `set`; a cancelled file dialog writes nothing. */
    method Change(w: Widget, e: Edit) returns (err: Option<PyError>)
      requires Emits(w, e)
      modifies conf`config
      ensures match Written(w, e)
        case Err(x) => err == Some(x) && conf.config == old(conf.config)
        case Ok(None) => err == None && conf.config == old(conf.config)
        case Ok(Some(x)) =>
          match SetPath(old(conf.config), Path(w.key), x)
          case Ok(c) => err == None && conf.config == c
          case Err(fault) => err == Some(fault) && conf.config == old(conf.config)
    {
      var written := Written(w, e);
      if written.Err? {
        return Some(written.error);
      }
      if written.value.None? {
        return None;
      }
      err := conf.Set(w.key, written.value.value);
    }

    /** `closeEvent`: the close hooks run, then the live document is reloaded, discarding what was not saved. */
    method CloseEvent()
      modifies conf`config
      ensures conf.stored == old(conf.stored) && conf.config == conf.stored
    {
      var i := 0;
      while i < |onClose|
        invariant 0 <= i <= |onClose|
        invariant conf.config == Apply(onClose[..i], old(conf.config))
        invariant conf.stored == old(conf.stored)
      {
        ApplySnoc(onClose, old(conf.config), i);
        conf.config := onClose[i](conf.config);
        i := i + 1;
      }
      conf.Load();
    }

    /**
     * `on_save`: when every approval hook accepts the live document, the
     * save hooks run in order, the result is persisted and the dialog
     * closes; otherwise nothing happens.
     */
    method OnSave() returns (saved: bool)
      modifies conf`config, conf`stored
      ensures saved == Approve(shouldSave, old(conf.config))
      ensures saved ==> conf.stored == Apply(onSave, old(conf.config)) && conf.config == conf.stored
      ensures !saved ==> conf.config == old(conf.config) && conf.stored == old(conf.stored)
    {
      var i := 0;
      while i < |shouldSave|
        invariant 0 <= i <= |shouldSave|
        invariant conf.config == old(conf.config) && conf.stored == old(conf.stored)
        invariant forall k :: 0 <= k < i ==> shouldSave[k](conf.config)
      {
        if !shouldSave[i](conf.config) {
          return false;
        }
        i := i + 1;
      }
      var j := 0;
      while j < |onSave|
        invariant 0 <= j <= |onSave|
        invariant conf.config == Apply(onSave[..j], old(conf.config))
        invariant conf.stored == old(conf.stored)
      {
        ApplySnoc(onSave, old(conf.config), j);
        conf.config := onSave[j](conf.config);
        j := j + 1;
      }
      assert onSave[..j] == onSave;
      conf.Save();
      CloseEvent();
      saved := true;
    }

    /** `on_cancel`: the dialog closes, so the live document returns to the persisted one. */
    method OnCancel()
      modifies conf`config
      ensures conf.config == conf.stored
    {
      CloseEvent();
    }

    /** `on_reset`: the defaults become the live document, nothing is persisted, and the widgets show the defaults. */
    method OnReset() returns (shown: seq<Display>, stop: Option<Failure>)
      modifies conf`config
      ensures conf.config == conf.defaults
      ensures (shown, stop) == Updates(conf.defaults, widgets, isColor)
    {
      conf.LoadDefaults();
      shown, stop := UpdateWidgets();
    }

    /** The advanced editor's `on_finish`: the live document is reloaded from the persisted one and the widgets updated. */
    method OnAdvancedFinish() returns (shown: seq<Display>, stop: Option<Failure>)
      modifies conf`config
      ensures conf.config == conf.stored
      ensures (shown, stop) == Updates(conf.stored, widgets, isColor)
    {
      conf.Load();
      shown, stop := UpdateWidgets();
    }
  }
}
